=== FILE: README.md ===
# Maze and SimpleImage editor, modelled in Dafny

The repository holds two Java programs, and this project models the core of each.

**The maze game (`MazeGame.java`).**
- A `width × height` grid of cells.
- Grid edges, created in a fixed order with random weights below 30.
- Kruskal's algorithm over the edges, stably sorted by weight, with a `HashMap` union–find.
- The opening flags each cell gets from the tree (`changeBools`).
- The key handler: `r` regenerates, `1`/`2` start a breadth-/depth-first search, `3` and the arrow keys move by hand.
- The tick that advances a search one step and then rebuilds the path (`reconstruct`).

In the model:
- A cell is its row-major index.
- An edge is the value `Edge(from, to, weight)`.
- The game state is the immutable `Game.Maze`.
- The random weights are a parameter (a sequence of ints).

**The image editor (`src/`).**
- `Pixel`: non-negative channels in the constructor, unchecked setters.
- `SimpleEditorModel`: a map from names to images. It offers component, flip, brighten and the layer list.
- `HistogramModel`: four frequency lists of 256 counters.
- `ImageUtil.readPPM`: the plain-text PPM reader.
- The text controller `SimpleEditorController`:
  - the command loop, with its argument-count check and the `brighten` number check;
  - load/save routing on the `.ppm` suffix;
  - its own PPM reader and writer;
  - the extension check for the other formats.

In the model:
- An image is a rectangular `seq<seq<Pixel>>`.
- The model's state is a `map<string, Image>`.
- A file is the sequence of its lines.
- A Java exception is a `Result` error carrying the exception's kind.
- Java `int` arithmetic is written out with `JavaLang.Wrap32` where it can overflow.

**Modules.**
- `Wrappers`: Option/Result.
- `JavaLang`: the `int` range, `Integer.parseInt`, `String.split(" ")`, `endsWith`, Scanner tokens.
- `Pixels`, `Editor`, `Histograms`, `Ppm`, `Controller`.
- `Grid`: vertices, edges, `createNodes`, `getEdgeTo`.
- `EdgeSort`: the stable sort by weight.
- `UnionFind`: `HashMapUtils`.
- `Kruskal`: `spanningTree`.
- `Openings`: `changeBools`.
- `Game`: the maze state, `onKeyEvent`, `onTick`, `reconstruct`.
- `MazeExample`: the 2×2 maze of the program's own tests.

## Model

| member | source | states |
|---|---|---|
| Pixels.NewPixel | src/model/Pixel.java:20-28 | the constructor succeeds exactly when all three channels are non-negative and then stores them unchanged; otherwise IllegalArgument |
| Pixels.SetRed | src/model/Pixel.java:58-60 | only the red channel changes, to the given value, with no range check |
| Pixels.SetGreen | src/model/Pixel.java:66-68 | only the green channel changes, to the given value |
| Pixels.SetBlue | src/model/Pixel.java:74-76 | only the blue channel changes, to the given value |
| Pixels.SetRGB | src/model/Pixel.java:84-88 | the pixel afterwards holds exactly the three given values |
| Pixels.SetRGBIsSetters | src/model/Pixel.java:58-88 | `setRGB` is the three single-channel setters applied in turn |
| Pixels.Clone | src/model/Pixel.java:95-97 | `clone` gives back an equal pixel exactly when no channel is negative; it re-runs the constructor's check, so a negative channel set through a setter makes it throw IllegalArgument |
| Pixels.CloneAfterSet | src/model/Pixel.java:58-97 | a freshly constructed pixel clones; after a setter it clones exactly when the value set is non-negative |
| Pixels.RoundThird | src/model/SimpleEditorModel.java:90-91 | `Math.round(s / 3.0)` is an integer within one third of `s / 3` (|s − 3k| ≤ 1) |
| Pixels.RoundThirdUnique | src/model/SimpleEditorModel.java:90-91 | any k with |s − 3k| ≤ 1 is that rounding, so the rounding is pinned down by the bound alone |
| Pixels.IntensityLevel | src/model/SimpleEditorModel.java:89-93 | when the channel sum fits in an `int`, the intensity is the sum divided by 3 and rounded |
| Pixels.WrapSum | src/model/SimpleEditorModel.java:90 | adding the three channels pairwise in `int` wraps the same as wrapping the exact sum once |
| Pixels.IntensityInByte | src/model/SimpleEditorModel.java:89-93 | for channels in 0..255 the intensity is in 0..255 |
| Pixels.MaxChannel | src/model/SimpleEditorModel.java:86 | the value component is one of the channels and no channel exceeds it |
| Editor.AcceptNewImage | src/model/SimpleEditorModel.java:32-38 | a null image or name is IllegalArgument; otherwise the name maps to the image afterwards and every other name keeps its image |
| Editor.ReleaseImage | src/model/SimpleEditorModel.java:41-47 | succeeds exactly for a stored name and returns that name's image; otherwise IllegalState |
| Editor.ReleaseAccepted | src/model/SimpleEditorModel.java:32-47 | after `acceptNewImage(img, n)`, `releaseImage(n)` is `img`, and releasing any other name is as before |
| Editor.ListOfLayers | src/model/SimpleEditorModel.java:226-228 | the listed layers are exactly the names `releaseImage` accepts |
| Editor.Source | src/model/SimpleEditorModel.java:136-145 | the common prologue of brighten, flip and component succeeds exactly for two non-null names, a stored source with at least one row and every pixel clonable, giving the stored image; null names are IllegalArgument, an unknown source is IllegalState, and the other failures are IndexOutOfBounds or IllegalArgument |
| Editor.BrightenCalc | src/model/SimpleEditorModel.java:165-175 | the intended `brightenCalc`: the exact sum clamped to 0..255 (the sum when it is in range, 0 below, 255 above) |
| Editor.BrightenCalcAsWritten | src/model/SimpleEditorModel.java:165-175 | the `int` sum as Java computes it, clamped; always in 0..255, and equal to the intended value whenever the exact sum fits in an `int` |
| Editor.BrightenCalcWraps | src/model/SimpleEditorModel.java:166 | a channel of 255 brightened by `Integer.MAX_VALUE` becomes 0 as written, where the intended result is 255 |
| Editor.BrightenCalcMonotone | src/model/SimpleEditorModel.java:165-175 | a larger change never gives a darker channel |
| Editor.BrightenPixel | src/model/SimpleEditorModel.java:145-151 | each channel of the brightened pixel is that channel passed through `brightenCalc` as written, so it lies in 0..255 |
| Editor.BrightenPixelClamped | src/model/SimpleEditorModel.java:145-151 | the same with the intended clamp |
| Editor.Brighten | src/model/SimpleEditorModel.java:134-155 | succeeds exactly when the prologue does; the target name then holds an image of the same shape whose pixels are the source's brightened pixels, every channel in 0..255; other names are kept |
| Editor.BrightenClamped | src/model/SimpleEditorModel.java:134-155 | the same with the intended clamp |
| Editor.BrightenAgrees | src/model/SimpleEditorModel.java:134-175 | when no channel sum overflows, brighten as written and as intended store the same image |
| Editor.BrightenWhiteByMax | src/model/SimpleEditorModel.java:147-149 | a white pixel brightened by `Integer.MAX_VALUE` turns black as written and stays white as intended |
| Editor.BrightenByZero | src/model/SimpleEditorModel.java:134-155 | brightening by 0 copies an image with channels in 0..255 to the target name unchanged |
| Editor.Mirror | src/model/SimpleEditorModel.java:120-126 | the mirrored coordinate of a cell is still inside the image |
| Editor.FlipImage | src/model/SimpleEditorModel.java:117-128 | the flipped image has the source's height and width |
| Editor.FlipAt | src/model/SimpleEditorModel.java:120-126 | cell (i, j) of the result is the source cell mirrored horizontally (same row, column w−1−j) or vertically (row h−1−i, same column) |
| Editor.FlipCells | src/model/SimpleEditorModel.java:117-128 | every cell of the result is its mirrored source cell |
| Editor.FlipTwice | src/model/SimpleEditorModel.java:109-130 | flipping twice in the same direction gives back the original image |
| Editor.FlipLoop | src/model/SimpleEditorModel.java:117-128 | Java's double loop, which writes each cell and its mirror in every iteration, builds exactly the mirrored image when every pixel clones, and throws IllegalArgument otherwise |
| Editor.FlipRow | src/model/SimpleEditorModel.java:118-127 | one row of that loop keeps every cell written so far equal to the mirrored image, or finds a pixel that does not clone |
| Editor.Flip | src/model/SimpleEditorModel.java:109-130 | succeeds exactly when the prologue does; the target name then holds the mirrored source and other names are kept |
| Editor.FlipFlip | src/model/SimpleEditorModel.java:109-130 | flipping a into b and then b into c in the same direction leaves a's original image in c |
| Editor.ComponentPixel | src/model/SimpleEditorModel.java:69-93 | a component pixel is grey (three equal channels) and its level is the chosen channel, the largest channel (value), or the channel sum divided by 3 and rounded (intensity) |
| Editor.ComponentOf | src/model/SimpleEditorModel.java:50-106 | succeeds exactly when the prologue does; the target name then holds an image of the same shape whose pixels are the source pixels' components; other names are kept |
| Editor.ComponentIdempotent | src/model/SimpleEditorModel.java:69-88 | taking red, green, blue or value of a component image changes nothing |
| Editor.ComponentInByte | src/model/SimpleEditorModel.java:69-93 | for channels in 0..255 every component level is in 0..255 |
| Histograms.Bar | src/model/histogram/HistogramModel.java:61-75 | in a well-formed histogram every getter returns a bar of 256 counters |
| Histograms.BarsShape | src/model/histogram/HistogramModel.java:61-75 | a histogram is well formed exactly when each of the four getters returns 256 counters |
| Histograms.NewHistogram | src/model/histogram/HistogramModel.java:22-35 | a new histogram has no image and four bars of 256 zero counters |
| Histograms.CountPixel | src/model/histogram/HistogramModel.java:50-56 | counting one pixel keeps the image and keeps four bars of 256 counters |
| Histograms.CountOnePixel | src/model/histogram/HistogramModel.java:50-56 | for a pixel with channels in 0..255, each bar gains exactly one at that pixel's level for the bar and nothing else changes |
| Histograms.CountPixelFails | src/model/histogram/HistogramModel.java:53-56 | a channel outside 0..255 makes `ArrayList.get` throw IndexOutOfBounds; no counter drops, and a counter gains at most one, and only at that pixel's level for its bar (the bars bumped before the throw keep their increment) |
| Histograms.CountPixels | src/model/histogram/HistogramModel.java:48-58 | counting a sequence of pixels keeps the image and the bar shape |
| Histograms.CountStep | src/model/histogram/HistogramModel.java:48-58 | counting pixels is counting the first one, then the rest; the first adds one to its own level's counter |
| Histograms.TotalStep | src/model/histogram/HistogramModel.java:48-58 | counting one in-range pixel adds exactly one to each bar's total |
| Histograms.CountPixelsAdds | src/model/histogram/HistogramModel.java:48-58 | for in-range pixels, every counter grows by exactly the number of pixels whose level for that bar is that counter's index |
| Histograms.CountPixelsTotal | src/model/histogram/HistogramModel.java:48-58 | for in-range pixels, each bar's total grows by the number of pixels |
| Histograms.CountPixelsThrows | src/model/histogram/HistogramModel.java:53-56 | counting escapes with an exception exactly when some pixel has a channel outside 0..255, and that exception is IndexOutOfBounds |
| Histograms.CountPixelsBounded | src/model/histogram/HistogramModel.java:48-58 | whether or not counting throws part-way, no counter decreases or gains more than its number of matching pixels |
| Histograms.FillFrequencies | src/model/histogram/HistogramModel.java:44-59 | without an image nothing changes; the image and the bar shape are kept |
| Histograms.SetImage | src/model/histogram/HistogramModel.java:38-41 | the histogram holds the new image afterwards; a null image changes no counter |
| Histograms.SetImageCounts | src/model/histogram/HistogramModel.java:38-41 | setting an in-range image adds each pixel's levels to the counters already there, because nothing resets them |
| Histograms.SetImageTotal | src/model/histogram/HistogramModel.java:38-41 | setting an image adds its pixel count to each bar's total |
| Histograms.SetImageTwice | src/model/histogram/HistogramModel.java:38-41 | setting two images in turn leaves both images' counts in the bars |
| Histograms.FillTwice | src/model/histogram/HistogramModel.java:44-59 | after `setImage`, a further `fillFrequencies` of the same image adds its pixel count to each bar's total a second time |
| JavaLang.Wrap32 | src/model/SimpleEditorModel.java:166 | the `int` result of an addition is in the `int` range, congruent to the exact sum modulo 2^32, and equal to it when it fits |
| JavaLang.ParseInt | src/controller/SimpleEditorController.java:462 | text `Integer.parseInt` accepts is non-empty and its value is in the `int` range; a value without a leading '-' is non-negative, and one with it is non-positive |
| JavaLang.NumeralIsDigits | src/controller/SimpleEditorController.java:462 | an unsigned numeral is read exactly when the text is non-empty and all decimal digits, and its value is the digits' value |
| JavaLang.ParseIntShape | src/controller/SimpleEditorController.java:462 | accepted text is an optional sign followed by digits only |
| JavaLang.NatToString | src/controller/SimpleEditorController.java:404-406 | decimal printing of a natural gives digits whose value is the number, with no leading zero |
| JavaLang.IntToString | src/controller/SimpleEditorController.java:404-406 | an `int` printed in decimal starts with '-' exactly when it is negative, and is digits after that |
| JavaLang.ParseIntToString | src/ImageUtil.java:53-55 | parsing the decimal text of any `int` gives that `int` back |
| JavaLang.EndsWith | src/controller/SimpleEditorController.java:243 | `endsWith` holds exactly when the string is some prefix followed by the suffix |
| JavaLang.EndsWithAppend | src/controller/SimpleEditorController.java:243 | any string with the suffix appended ends with it |
| JavaLang.SplitAll | src/controller/SimpleEditorController.java:74 | splitting on ' ' gives at least one piece and no piece contains ' ' |
| JavaLang.DropTrailingEmpty | src/controller/SimpleEditorController.java:74 | `split` drops exactly the trailing empty pieces: the result is a prefix whose last piece is non-empty, and everything after it is empty |
| JavaLang.SplitOnSpace | src/controller/SimpleEditorController.java:74 | no piece of `split(" ")` contains a space, and text without a space is its own single piece |
| JavaLang.SplitOnSpaceEmpty | src/controller/SimpleEditorController.java:74-76 | `split(" ")` returns no pieces exactly for a non-empty line of spaces, which is when `args[0]` throws |
| JavaLang.SplitAllBlank | src/controller/SimpleEditorController.java:74 | all pieces are empty exactly when the text is all spaces |
| JavaLang.SplitAllCons | src/controller/SimpleEditorController.java:74 | a space-free word, a space and a rest split as that word followed by the rest's pieces |
| JavaLang.SplitWords | src/controller/SimpleEditorController.java:74 | non-empty, space-free words joined with single spaces split back into exactly those words |
| JavaLang.SplitAllWords | src/controller/SimpleEditorController.java:74 | the same for the raw pieces, before trailing empty pieces are dropped |
| JavaLang.WordLength | src/ImageUtil.java:41 | the first token runs up to, and not including, the first whitespace character |
| JavaLang.Tokens | src/ImageUtil.java:37-41 | Scanner tokens are non-empty and contain no whitespace |
| JavaLang.TokensAppend | src/ImageUtil.java:37-41 | the tokens of text that ends in whitespace, followed by more text, are the tokens of each part in turn |
| JavaLang.TokensOfWord | src/ImageUtil.java:37-41 | a non-empty word without whitespace is one token |
| JavaLang.TokensOfWordThen | src/ImageUtil.java:37-41 | a word followed by one whitespace character is still one token |
| JavaLang.IntToStringIsWord | src/controller/SimpleEditorController.java:404-406 | a printed `int` is a non-empty word without whitespace that does not start with '#', so the reader keeps its line |
| Ppm.Uncommented | src/ImageUtil.java:27-34 | the first loop fails (with `charAt(0)` IndexOutOfBounds) exactly when some line is empty |
| Ppm.UncommentedAppend | src/ImageUtil.java:29-34 | the kept text of two blocks of lines is the kept text of each in turn |
| Ppm.CommentIgnored | src/ImageUtil.java:31 | inserting a '#' line anywhere does not change what is read |
| Ppm.NextInt | src/ImageUtil.java:45-49 | `nextInt` without a token is NoSuchElement; with one it succeeds exactly when `parseInt` accepts the token, giving its value, and is InputMismatch otherwise |
| Ppm.ReadPixel | src/ImageUtil.java:53-56 | a pixel read from tokens has non-negative channels that are the parses of the next three tokens |
| Ppm.ReadRow | src/ImageUtil.java:52-58 | a row read has `width` pixels, uses `3 × width` tokens, and leaves the rest |
| Ppm.ReadRows | src/ImageUtil.java:51-59 | the rows read are `height` rows, each `width` pixels wide |
| Ppm.ReadTokens | src/ImageUtil.java:41-44 | without tokens the reader throws (the exception depends on the caller); a first token other than "P3" is IllegalState |
| Ppm.ReadPPM | src/ImageUtil.java:19-61 | `readPPM` gives IndexOutOfBounds for an empty line, NoSuchElement for a file without tokens, and IllegalState when it does not start with "P3" |
| Ppm.LoadPPMText | src/controller/SimpleEditorController.java:259-307 | the controller's reader gives IndexOutOfBounds for an empty line and IllegalState for a file without tokens (where `readPPM` gives NoSuchElement) or without "P3" first; whenever it succeeds it agrees with `readPPM` |
| Ppm.TriplesIsParsed | src/ImageUtil.java:51-59 | the tokens spell the pixels' channels three at a time exactly when parsing the tokens one by one gives the pixels' channel values in order |
| Ppm.ReadPPMBody | src/ImageUtil.java:41-44 | a successful read starts with "P3" and reads the body from the tokens after it |
| Ppm.ReadPPMShape | src/ImageUtil.java:41-59 | a successful read is "P3", the width (the length of every row), the height (the number of rows), a maximum value, and then one r g b token triple per pixel, row by row |
| Ppm.RowLines | src/controller/SimpleEditorController.java:402-408 | a row is written as three lines per pixel |
| Ppm.BodyLines | src/controller/SimpleEditorController.java:399-408 | after the banner come the size line, the maximum value and three lines per pixel |
| Ppm.PpmLines | src/controller/SimpleEditorController.java:396-408 | the written file starts with "P3" and has four header lines plus three per pixel |
| Ppm.SavePPMText | src/controller/SimpleEditorController.java:387-415 | saving succeeds exactly for a stored image with at least one row, and writes its PPM lines; an unknown name is IllegalState |
| Ppm.SavedText | src/controller/SimpleEditorController.java:396-400 | of the written lines, the reader drops only the banner comment |
| Ppm.SavedTokens | src/controller/SimpleEditorController.java:396-408 | the written file reads as the tokens "P3", the width, the height, "255" and then the sample lines |
| Ppm.ReadRowLines | src/ImageUtil.java:52-58 | the lines written for a row read back as that row, or throw IllegalArgument when one of its channels is negative |
| Ppm.ReadRowsLines | src/ImageUtil.java:51-59 | the sample lines of rows of equal width read back as those rows, or throw IllegalArgument when a channel is negative |
| Ppm.ReadBodyLines | src/ImageUtil.java:45-59 | the written header numbers read back as the image's width and height, and the samples as its rows |
| Ppm.SaveThenRead | src/controller/SimpleEditorController.java:387-415 | a saved non-empty image reads back, with either reader, as exactly that image when no channel is negative, and as IllegalArgument otherwise |
| Controller.ArgsOk | src/controller/SimpleEditorController.java:204-211 | the arguments are right exactly when there is a command word followed by exactly `amt` arguments; `Dispatch`'s iff ensures state how the switch uses it |
| Controller.Binary | src/controller/SimpleEditorController.java:76-151 | every two-argument command word yields a request for that word, with its two names in order |
| Controller.Dispatch | src/controller/SimpleEditorController.java:74-157 | the switch makes a request exactly for a brighten line of four words with a number `parseInt` accepts, or a known two-argument command of three words; the request carries the command and its last two words, and brighten's value is that parse |
| Controller.Step | src/controller/SimpleEditorController.java:74-76 | the only exception one line raises before a helper runs is `args[0]` IndexOutOfBounds |
| Controller.StepBlank | src/controller/SimpleEditorController.java:74-76 | a line raises that exception exactly when it is a non-empty line of spaces |
| Controller.StepLine | src/controller/SimpleEditorController.java:74-151 | the command line of any request with non-empty, space-free names gives back exactly that request |
| Controller.StepBrightenLine | src/controller/SimpleEditorController.java:87-91 | the same for brighten lines |
| Controller.StepBinaryLine | src/controller/SimpleEditorController.java:76-151 | the same for the two-argument commands |
| Controller.BinaryInverse | src/controller/SimpleEditorController.java:76-151 | every two-argument request is rebuilt from its command word and names |
| Controller.Requests | src/controller/SimpleEditorController.java:59-72 | a session that ends normally has read a "q", with fewer requests than lines; the only exceptions that end it are IllegalState (input runs out) and IndexOutOfBounds (`args[0]` of a blank line) |
| Controller.RequestsMade | src/controller/SimpleEditorController.java:59-158 | a line before "q" that makes a request puts that request first |
| Controller.RequestsOfLines | src/controller/SimpleEditorController.java:59-158 | the command lines of any requests, followed by "q", reach the helpers as exactly those requests, in order |
| Controller.LoadPPM | src/controller/SimpleEditorController.java:259-309 | a missing file is IllegalState; loading succeeds exactly when the file's text parses, and then stores the parsed image under the name, keeping files and other names |
| Controller.SavePPM | src/controller/SimpleEditorController.java:387-415 | saving succeeds exactly for a stored image with rows; it writes that image's PPM lines to the path, keeps the images, and touches no other file |
| Controller.PpmPath | src/controller/SimpleEditorController.java:243 | a name with ".ppm" appended is routed as PPM; a PPM path has at least four characters and its extension is not one `saveNotPPM` accepts |
| Controller.SaveExt | src/controller/SimpleEditorController.java:441-444 | a path shorter than 3 characters is IndexOutOfBounds; the extension is accepted exactly for "jpg", "png" or "bmp" endings, and is the path's last three characters |
| Controller.SaveNotPPM | src/controller/SimpleEditorController.java:424-450 | an unknown name is IllegalState, no rows is IndexOutOfBounds, and zero width is IllegalArgument from `BufferedImage`; otherwise a bad extension is reported and a good one goes on to the image writer |
| Controller.Caught | src/controller/SimpleEditorController.java:219-227 | a helper's IllegalState is caught and leaves the state as it was; success and any other exception pass through |
| Controller.HandleEditing | src/controller/SimpleEditorController.java:459-505 | brighten, flip and colour-component requests call the model's operation under the IllegalState catch, whatever code outside the model does |
| Controller.Handle | src/controller/SimpleEditorController.java:219-520 | no IllegalState ever escapes a helper |
| Controller.Run | src/controller/SimpleEditorController.java:56-158 | `start` returns normally only after reading "q" |
| Controller.RunApplies | src/controller/SimpleEditorController.java:59-158 | running the lines is handling their requests one after another, stopping at the first exception that escapes |
| Controller.RunStopsAtQuit | src/controller/SimpleEditorController.java:69-72 | nothing after the first "q" is read |
| Controller.LoadRoutes | src/controller/SimpleEditorController.java:237-248 | a ".ppm" path is loaded by the PPM reader, whatever the other formats do, and a missing file leaves the state unchanged; any other path goes to the image reader |
| Controller.SaveRoutes | src/controller/SimpleEditorController.java:368-378 | a ".ppm" path is saved by the PPM writer alone; with an unknown name it still leaves an empty file behind, while another path leaves the state unchanged |
| Controller.SavePPMStep | src/controller/SimpleEditorController.java:387-415 | saving a stored image with rows to a ".ppm" path replaces that file by the image's PPM lines and changes nothing else |
| Controller.LoadPPMStep | src/controller/SimpleEditorController.java:259-309 | loading a parsable ".ppm" file stores its image under the name and changes nothing else |
| Controller.SaveThenLoad | src/controller/SimpleEditorController.java:387-415 | "save p a" then "load p b" on a ".ppm" path copies image a to b, for any image with rows and non-negative channels |
| Grid.OwnEdges | MazeGame.java:254-263 | vertex i creates as many edges as it has down and right neighbours: zero, one or two |
| Grid.OwnEdgesFrom | MazeGame.java:254-263 | the edges a vertex creates all start at that vertex |
| Grid.OwnEdgesWeights | MazeGame.java:254-263 | they take the next random weights, in order |
| Grid.OwnEdgesLinks | MazeGame.java:254-263 | each one links the vertex to the cell below (i + width) or to its right (i + 1) |
| Grid.OwnEdgesOrdered | MazeGame.java:254-263 | the down edge comes before the right edge |
| Grid.OwnEdgesDown | MazeGame.java:254-258 | a vertex above the last row creates its down edge |
| Grid.OwnEdgesRight | MazeGame.java:259-263 | a vertex left of the last column creates its right edge |
| Grid.EdgesFrom | MazeGame.java:253-264 | the loop from vertex i on creates the counted number of edges |
| Grid.EdgesFromWeights | MazeGame.java:253-264 | the k-th edge created takes the k-th random weight |
| Grid.EdgesFromLinks | MazeGame.java:253-264 | every edge created links two grid neighbours |
| Grid.EdgesFromOrdered | MazeGame.java:253-264 | edges are created vertex by vertex, down before right |
| Grid.EdgesFromDown | MazeGame.java:253-258 | every vertex above the last row gets its down edge |
| Grid.EdgesFromRight | MazeGame.java:253-264 | every vertex left of the last column gets its right edge |
| Grid.ColumnIsMod | MazeGame.java:259 | the column tracked by the loop is `i % width` |
| Grid.CreatedCount | MazeGame.java:253-264 | the loop creates `width × (height − 1) + height × (width − 1)` edges |
| Grid.CreateEdges | MazeGame.java:253-264 | `createNodes` makes exactly that many edges, and the k-th has the k-th weight |
| Grid.CreateEdgesShape | MazeGame.java:253-264 | the edges are distinct grid edges, and every down and every right neighbour pair has its edge |
| Grid.CompareEdges | MazeGame.java:166-168 | for weights below 30, `e1.weight − e2.weight` is negative, zero or positive exactly as the weights compare |
| Grid.Incident | MazeGame.java:144-150 | a vertex's edge list holds exactly the created edges that touch it, and is no longer than the list of created edges |
| Grid.GetEdgeTo | MazeGame.java:71-78 | `getEdgeTo` fails exactly on a vertex with no edges; it returns an edge leading to the target when there is one, and otherwise the vertex's first edge |
| Grid.FirstLeadingTo | MazeGame.java:72-76 | the search loop finds an edge to the target exactly when one exists |
| EdgeSort.WithWeight | MazeGame.java:276 | the edges of one weight, in their order |
| EdgeSort.Insert | MazeGame.java:276 | inserting adds exactly the one edge (as a multiset) |
| EdgeSort.Sort | MazeGame.java:276 | sorting is a permutation of the edges |
| EdgeSort.InsertSorted | MazeGame.java:276 | inserting into a sorted list keeps it sorted |
| EdgeSort.SortSorted | MazeGame.java:276 | the sorted list is ordered by weight |
| EdgeSort.InsertStable | MazeGame.java:276 | insertion keeps the order within each weight |
| EdgeSort.SortStable | MazeGame.java:276 | the sort is stable: the edges of each weight keep their relative order, as `List.sort` promises |
| EdgeSort.WithWeightAppend | MazeGame.java:276 | selecting one weight distributes over concatenation |
| EdgeSort.HeadIsLightest | MazeGame.java:276 | the first edge of a sorted list is among the lightest |
| EdgeSort.StableSortUnique | MazeGame.java:276 | two sorted lists with the same edges of each weight, in the same order, are equal |
| EdgeSort.AnyStableSortIsSort | MazeGame.java:276 | any stable sort by weight of the edges gives the model's sorted list, so the model's sort is the one `List.sort` computes |
| UnionFind.Singletons | MazeGame.java:247 | at the start every vertex is its own representative |
| UnionFind.SingletonsCount | MazeGame.java:243-249 | n vertices start as n separate roots |
| UnionFind.FindFuel | MazeGame.java:506-513 | `find` gives a root (a key that maps to itself), returns a root at once, and fails with NullPointer on a missing key |
| UnionFind.Find | MazeGame.java:506-513 | the same, following the representatives at most once per entry |
| UnionFind.Union | MazeGame.java:516-518 | `union(x, y)` maps x to y's representative (and leaves x unmapped when y has none) and changes no other key |
| UnionFind.FindFuelMono | MazeGame.java:506-513 | more steps do not change a `find` that has already finished |
| UnionFind.FindAfterUnion | MazeGame.java:506-518 | after joining root a under root b, `find` gives b where it used to give a, and is otherwise unchanged |
| UnionFind.RootsAfterUnion | MazeGame.java:516-518 | joining two roots removes exactly one root |
| Kruskal.Grow | MazeGame.java:279-290 | the loop keeps the tree built so far as a prefix and only appends edges taken from its worklist, at most one per edge examined |
| Kruskal.SpanningTree | MazeGame.java:273-290 | every tree edge is one of the maze's edges |
| Kruskal.ConnectedSameRoot | MazeGame.java:282-283 | vertices joined by merged edges have the same representative |
| Kruskal.AddEdgeFind | MazeGame.java:285-287 | adding an edge between two different roots redirects exactly the first root's vertices to the second root |
| Kruskal.AddEdgePartitions | MazeGame.java:285-287 | afterwards two vertices share a root exactly when the tree connects them |
| Kruskal.AddEdgeAcyclic | MazeGame.java:282-285 | an edge between different roots does not close a cycle |
| Kruskal.AddEdge | MazeGame.java:282-287 | one accepted edge keeps the Kruskal invariant: the forest is acyclic, roots are the tree's components, and every examined edge lies inside one component |
| Kruskal.GrowKeeps | MazeGame.java:282-287 | an edge between different roots is added and its roots are joined |
| Kruskal.GrowSkips | MazeGame.java:282-289 | an edge inside one component is skipped |
| Kruskal.GrowCorrect | MazeGame.java:279-290 | the loop keeps the invariant and ends with n − 1 edges or with every examined edge inside one component |
| Kruskal.InitialInvariant | MazeGame.java:243-249 | the initial representatives satisfy the invariant with an empty tree |
| Kruskal.MergedSorted | MazeGame.java:276 | edges merged in sorted order are all the edges merged |
| Kruskal.SpanningTreeCorrect | MazeGame.java:273-290 | `spanningTree` never fails on in-range edges, and ends with the Kruskal invariant and either n − 1 tree edges or every edge inside one component |
| Kruskal.EarlierNeighbour | MazeGame.java:253-264 | every vertex other than 0 has a grid edge to a lower-numbered vertex |
| Kruskal.JoinedToStart | MazeGame.java:253-264 | once every grid edge is merged, every vertex has vertex 0's root |
| Kruskal.AllJoinedToStart | MazeGame.java:253-264 | the same for all vertices at once |
| Kruskal.MazeSpanningTree | MazeGame.java:273-290 | for any grid and any weights the result is a spanning tree: `width × height − 1` acyclic edges that connect vertex 0 to every vertex, all in one component |
| Openings.ChangeBools | MazeGame.java:86-105 | a side flag is set exactly when it was already set or a tree edge leads to a vertex on that side (left or right by column first, then down or up by row) |
| Openings.OpeningsOf | MazeGame.java:292-294 | every vertex's flags are `changeBools` over its own edge list |
| Openings.RightEdgeEnds | MazeGame.java:259-263 | a right edge joins horizontally adjacent cells of one row |
| Openings.DownEdgeEnds | MazeGame.java:254-258 | a down edge joins vertically adjacent cells of one column |
| Openings.EdgeEnds | MazeGame.java:253-264 | a grid edge is right or down but not both, and never a loop |
| Openings.OpeningsMatchTree | MazeGame.java:86-105 | a cell is open to a side exactly when the tree has the edge to its neighbour on that side |
| Game.NewMaze | MazeGame.java:210-232 | the constructor builds a valid initial maze of the requested size over `createNodes`' edges, whose tree has size − 1 edges and connects 0 to every cell; a width or height below 1 is IndexOutOfBounds |
| Game.ValidTree | MazeGame.java:228-229 | a built maze's tree has size − 1 edges taken from its grid edges and connects vertex 0 to every cell |
| Game.TreeEdgeShape | MazeGame.java:273-295 | tree edges are grid edges between distinct in-range cells |
| Game.TreeNeighbours | MazeGame.java:468-470 | the neighbours visited are exactly the other ends of the vertex's tree edges |
| Game.Expand | MazeGame.java:468-481 | breadth-first appends the tree neighbours, depth-first puts them in front in reverse, and every neighbour not yet expanded gets its came-from edge, which is a tree edge back to the vertex; other entries are kept |
| Game.OnTick | MazeGame.java:456-496 | a tick keeps the board, the mode and the position, only grows the seen marks, came-from keys and the expanded list, solves exactly when it takes the goal off the frontier, once solved builds a path of at least three cells that starts and ends with cell 0 (the start cell added before `reconstruct` puts the chain in front of it), and otherwise does nothing |
| Game.Chain | MazeGame.java:302-313 | following came-from edges back from v gives a chain from 0 to v whose every step is the came-from edge; a vertex without an entry is NullPointer |
| Game.Reconstruct | MazeGame.java:302-313 | `reconstruct` changes only the path, and puts in front of the old path a chain from 0 to the goal along came-from edges |
| Game.InitialSearchInv | MazeGame.java:231 | a freshly built maze satisfies the search invariant |
| Game.ExpandKeepsInv | MazeGame.java:467-485 | expanding a vertex keeps the search invariant |
| Game.PopKeepsInv | MazeGame.java:460 | taking an already expanded vertex off the frontier keeps it |
| Game.FoundGoalKeepsInv | MazeGame.java:462-465 | reaching the goal keeps it |
| Game.SolvedTickKeepsInv | MazeGame.java:487-495 | the path-building tick succeeds and keeps it |
| Game.TickKeepsInv | MazeGame.java:456-496 | every tick from a state satisfying the search invariant succeeds and keeps it |
| Game.ChainFinds | MazeGame.java:305-310 | the backtracking loop ends, passing only vertices the search reached |
| Game.ReconstructFinds | MazeGame.java:302-313 | once solved, `reconstruct` succeeds |
| Game.ChainIsWalk | MazeGame.java:302-313 | a chain of came-from edges is a walk in the tree |
| Game.PathFound | MazeGame.java:302-313 | once solved, the reconstructed path is a walk along tree edges from vertex 0 to the goal, placed before the old path |
| Game.KeyOf | MazeGame.java:391-436 | which key string triggers which action ("r"/"R", "1", "2", "3", the four arrows) |
| Game.RecordStep | MazeGame.java:437-440 | moving onto an unseen cell records its `getEdgeTo` edge back towards the old cell (or its first edge), and this throws when it has no edges; a seen cell records nothing |
| Game.MoveBy | MazeGame.java:423-448 | a manual move goes to the target cell, marks the old and new cells seen, records a came-from edge only for an unseen cell, and solves exactly on reaching the goal; the search state is untouched |
| Game.OnKeyEvent | MazeGame.java:389-449 | "1"/"2" before the maze is solved start a breadth-/depth-first search without touching its progress, "3" switches to manual, and once solved only "r" changes the mode |
| Game.Reset | MazeGame.java:391-410 | "r" builds a new valid initial maze of the same size over fresh weights |
| Game.CandidateEdges | MazeGame.java:253-264 | in a grid with two or more cells every cell has an edge |
| Game.MoveOk | MazeGame.java:423-448 | every key's move succeeds on a valid maze of two or more cells and keeps it valid |
| Game.MoveTarget | MazeGame.java:424-437 | the target cell of any key is in the grid and has an edge |
| Game.ArrowMove | MazeGame.java:425-436 | an arrow key moves exactly when the current cell is open on that side, and other keys never move |
| Game.ArrowStep | MazeGame.java:423-448 | a move goes to the neighbour on the key's side along a tree edge, and a newly entered cell records an edge between it and the cell left |
| Game.SideEdge | MazeGame.java:425-436 | an open side has a tree edge to the neighbour on that side |
| Game.SidesOfCell | MazeGame.java:86-105 | the current cell's flags are exactly its tree edges on each side |
| Game.LeftEdge | MazeGame.java:425-427 | an open left side is a tree edge from the cell to its left |
| Game.RightEdge | MazeGame.java:428-430 | an open right side is a tree edge to the cell to its right |
| Game.UpEdge | MazeGame.java:431-433 | an open top side is a tree edge from the cell above |
| Game.DownEdge | MazeGame.java:434-436 | an open bottom side is a tree edge to the cell below |
| Game.StartSearch | MazeGame.java:411-418 | starting a search on a fresh maze gives a searching state that satisfies the search invariant |
| Game.ResetKey | MazeGame.java:391-410 | "r" gives a valid maze of the same size over the new weights, in manual mode at cell 0, with a fresh search state |
| Game.ResetMarks | MazeGame.java:401-443 | after "r", the manual-mode tail marks only cell 0 seen and gives it a came-from entry |
| Game.StayMarks | MazeGame.java:437-443 | on an initial maze, a key that does not move still marks cell 0 seen and entered and gives it a came-from entry |
| Game.SingleCellKey | MazeGame.java:437-440 | on a 1×1 maze, "r" throws IndexOutOfBounds: the only cell is unseen and has no edge for `getEdgeTo` |
| MazeExample.ExampleEdges | MazeGame.java:253-264 | weights [0, 0, 0, 1] on the 2×2 grid create the edges 0–2, 0–1, 1–3 (weight 0) and 2–3 (weight 1), in that order |
| MazeExample.ExampleSort | MazeGame.java:276 | those edges are already sorted |
| MazeExample.ExampleTree | MazeGame.java:273-290 | Kruskal keeps 0–2, 0–1 and 1–3 |
| MazeExample.ExampleMaze | MazeGame.java:210-232 | `new Maze(2, 2, …)` with those weights gives the example's board in the initial state |
| MazeExample.ExampleIncident | MazeGame.java:144-150 | each of the four cells' edge lists, in creation order |
| MazeExample.ExampleStart | MazeGame.java:411-418 | "1" and "2" start the search on the fresh example |
| MazeExample.ExampleReconstruct | MazeGame.java:302-313 | with came-from entries 2←0, 1←0, 3←1, `reconstruct` gives the path [0, 1, 3] |
| MazeExample.TraceTicks | MazeGame.java:456-496 | in a sequence of states each one tick after the last, state k is k ticks after the first |
| MazeExample.BreadthRun | MazeGame.java:892-902 | breadth-first search on the example takes six ticks; only the sixth solves, cell 2 has been seen, and the path is [0, 1, 3] |
| MazeExample.BreadthFirstExample | MazeGame.java:905-913 | "1" followed by ticks: not solved after five ticks, solved after the sixth, and `reconstruct` gives [0, 1, 3] |
| MazeExample.DepthRun | MazeGame.java:883-891 | depth-first search on the example is solved by the third tick and not before, with the path [0, 1, 3] |
| MazeExample.DepthFirstExample | MazeGame.java:914-920 | "2" followed by ticks: not solved after two ticks, solved after the third, and `reconstruct` gives [0, 1, 3] |

## Left out

- Drawing and the GUI are out of scope: `makeScene`, `drawMaze`, colours, `bigBang`, the view classes and the GUI controller. They only display state.
- Game.NewMaze: `new Random()` and `rand.nextInt(30)` are replaced by a weights parameter. The 2×2 example picks weights that reproduce the tree the program's tests expect with `new Random(15)`; the model does not reproduce Java's random generator.
- Game.Chain: backtracking runs on a fuel bound of one step per cell of the grid (`Size`, width times height), however many vertices have been expanded. Beyond the invariant, a cyclic came-from map is not modelled as an endless loop.
- UnionFind.Find: `find` runs on a fuel bound of one step per entry. A cyclic representatives map, which Java's recursion would follow until it overflows the stack, is reported as a failure instead.
- Controller.Handle: `loadNotPPM`, the pixel copying and `ImageIO.write` in `saveNotPPM`, the LUMA component and the four filters (blur, sharpen, greyscale, sepia) are code outside this model. They reach the `Elsewhere` parameter, and the properties hold whatever it does.
- Controller.SaveNotPPM: `ImageIO.write` returning false for a format it cannot write, and the colour packing `(r << 16) | (g << 8) | b`, are not modelled.
- Controller.LoadPPM: a file that exists but cannot be read, `ImageIO.read` returning null for an unknown format, and `FileWriter`/`writer.write` IOExceptions are not modelled. A file is present or absent, and writing always succeeds.
- Controller.Run: the messages written to the view, the welcome menu and the "menu" command produce output only, and are left out.
- Editor.Image: Java accepts jagged arrays in `acceptNewImage`. Flip, brighten and component give every result row the length `image[0].length` (src/model/SimpleEditorModel.java:63, 115, 141). A source row shorter than row 0 makes them throw ArrayIndexOutOfBounds. A longer row is silently cut without an exception. Brighten and component drop its extra pixels, and a horizontal flip mirrors only its first `image[0].length` pixels. The model's images are rectangular, so neither case arises.
- Editor.Source: a null entry inside a pixel array makes `clone()` throw NullPointerException (src/model/SimpleEditorModel.java:67, 119, 145) and does the same in `fillFrequencies` (src/model/histogram/HistogramModel.java:50). Pixels in the model are never null.
- Editor.Direction: `flip` does not check its `Flip` argument for null (src/model/SimpleEditorModel.java:110). With null it stores an all-null result (:120-126). A null `Component` is IllegalArgument (:52). `Direction` and `Component` have no null value in the model, so neither case exists.
- Editor.Store: Java shares arrays. `releaseImage` returns the stored array itself (src/model/SimpleEditorModel.java:41-47), and `AFilter` writes into rows shared with its source image (src/model/filters/AFilter.java:23, 54). Images in the model are values, so later writes through an alias are not modelled.
- Histograms.Bar: Java's getters return the live `ArrayList`, so a caller's writes through it change the histogram. The model returns the bar as a value, as for `Editor.Store`.
- Histograms.Histogram: the counters are unbounded naturals. Java's `Integer` counters would wrap after 2^31 − 1 increments (src/model/histogram/HistogramModel.java:53-56).
- JavaLang.ParseInt: only the ASCII digits '0'–'9' are accepted. `Integer.parseInt` and `Scanner.nextInt` also accept other Unicode decimal digits, and `nextInt` accepts locale grouping such as "1,000". Numbers written that way are rejected in the model.
- JavaLang.Tokens: the delimiters are the characters `Character.isWhitespace` accepts in current Java. U+180E (Mongolian vowel separator) is not one of them. Java 8 counted it as whitespace, so there a token containing it would split in two.
- Controller.Handle: the null checks on path and name in `load`, `save`, `savePPM` and `saveNotPPM`, which throw IllegalArgument, are left out. The words of a command line are never null, so these checks cannot fire.
- Controller.Dispatch: the default branch only prints a message, so an unknown command makes no request. It is modelled as no request, with the message left out.
- Editor.BrightenCalc: the controller model follows the program as written and uses `Editor.Brighten`, whose sum wraps (see Findings).

## Findings

| source | as written | input that shows it | evidently intended | confidence | as-written member | corrected member |
|---|---|---|---|---|---|---|
| src/model/SimpleEditorModel.java:165-175 | `int result = before + change;` is a 32-bit sum that wraps on overflow before it is clamped | a channel of 255 brightened by 2147483647, which `Integer.parseInt` accepts: the sum wraps to −2147483394 and the channel becomes 0 | the sum clamped to 0..255, giving 255 | not executed | Editor.BrightenCalcWraps | Editor.BrightenCalc |

`Editor.BrightenCalcAsWritten` and `Editor.Brighten` model the code as written. `Editor.BrightenCalc`, `Editor.BrightenPixelClamped` and `Editor.BrightenClamped` are the clamped versions, with the clamp proved. `Editor.BrightenAgrees` shows the two agree whenever no channel sum overflows. The text controller (`Controller.Handle`) reproduces the program and calls the as-written `Editor.Brighten`.

=== FILE: controller.dfy ===
/**
 * `controller.SimpleEditorController`: `start` reads lines until "q", splits
 * each on single spaces and hands the words to one helper per command word.
 * Every helper calls the model and catches IllegalStateException; any other
 * exception escapes `start`.
 *
 * A session is the model's images plus the text files by path (a file is the
 * sequence of its lines).  Reading and writing the other image formats through
 * ImageIO, the LUMA component and the four filters are code outside this model:
 * they reach a parameter of type `Elsewhere`.
 */
module Controller {
  import opened Wrappers
  import opened JavaLang
  import Editor
  import Ppm

  /** The argument of `component`: one of the modelled components, or LUMA. */
  datatype ComponentName = Channel(channel: Editor.Component) | Luma

  datatype FilterName = Blur | Sharpen | Greyscale | Sepia

  /** A command `start` hands on to a helper, with its arguments. */
  datatype Request =
    | Load(path: string, name: string)
    | Save(path: string, name: string)
    | Brighten(value: Int32, from: string, to: string)
    | Flip(direction: Editor.Direction, from: string, to: string)
    | Component(component: ComponentName, from: string, to: string)
    | Filter(filter: FilterName, from: string, to: string)

  // ---------------------------------------------------------------------------
  // Command lines

  /** The command word that selects the request. */
  function Verb(r: Request): string
  {
    match r
    case Load(_, _) => "load"
    case Save(_, _) => "save"
    case Brighten(_, _, _) => "brighten"
    case Flip(d, _, _) => if d == Editor.Vertical then "vertical-flip" else "horizontal-flip"
    case Component(Luma, _, _) => "luma-component"
    case Component(Channel(c), _, _) =>
      (match c
       case Red => "red-component"
       case Green => "green-component"
       case Blue => "blue-component"
       case Value => "value-component"
       case Intensity => "intensity-component")
    case Filter(f, _, _) =>
      (match f
       case Blur => "blur"
       case Sharpen => "sharpen"
       case Greyscale => "greyscale"
       case Sepia => "sepia")
  }

  /** The paths and image names of a request, as the user typed them. */
  function Names(r: Request): seq<string>
  {
    match r
    case Load(path, name) => [path, name]
    case Save(path, name) => [path, name]
    case Brighten(_, from, to) => [from, to]
    case Flip(_, from, to) => [from, to]
    case Component(_, from, to) => [from, to]
    case Filter(_, from, to) => [from, to]
  }

  /** A command line for the request: the word, then `brighten`'s amount, then the names. */
  function Words(r: Request): (ws: seq<string>)
  {
    [Verb(r)] + (if r.Brighten? then [IntToString(r.value)] else []) + Names(r)
  }

  /** What one piece of `split(" ")` can be: not empty and without a space. */
  predicate IsWord(s: string) { s != "" && ' ' !in s }

  /** A request that some command line makes: no name is empty or holds a space. */
  predicate Typeable(r: Request)
  {
    forall i :: 0 <= i < |Names(r)| ==> IsWord(Names(r)[i])
  }

  /** The command words that take two arguments. */
  const TwoArgVerbs: set<string> := {
    "load", "save", "vertical-flip", "horizontal-flip", "value-component",
    "intensity-component", "luma-component", "red-component", "green-component",
    "blue-component", "blur", "sharpen", "greyscale", "sepia"
  }

  /** `argsError(args, amt)`: the command word and exactly `amt` arguments. */
  function ArgsOk(args: seq<string>, amt: nat): (ok: bool)
    ensures ok <==> |args| > 0 && |args[1..]| == amt
  {
    |args| == amt + 1
  }

  /** The request a two-argument command word makes. */
  function Binary(verb: string, a: string, b: string): (r: Request)
    requires verb in TwoArgVerbs
    ensures Verb(r) == verb && Names(r) == [a, b] && !r.Brighten?
  {
    if verb == "load" then Load(a, b)
    else if verb == "save" then Save(a, b)
    else if verb == "vertical-flip" then Flip(Editor.Vertical, a, b)
    else if verb == "horizontal-flip" then Flip(Editor.Horizontal, a, b)
    else if verb == "value-component" then Component(Channel(Editor.Value), a, b)
    else if verb == "intensity-component" then Component(Channel(Editor.Intensity), a, b)
    else if verb == "luma-component" then Component(Luma, a, b)
    else if verb == "red-component" then Component(Channel(Editor.Red), a, b)
    else if verb == "green-component" then Component(Channel(Editor.Green), a, b)
    else if verb == "blue-component" then Component(Channel(Editor.Blue), a, b)
    else if verb == "blur" then Filter(Blur, a, b)
    else if verb == "sharpen" then Filter(Sharpen, a, b)
    else if verb == "greyscale" then Filter(Greyscale, a, b)
    else Filter(Sepia, a, b)
  }

  /**
   * The `switch (args[0])` of `start`: a request only for a known command word
   * with the right number of arguments, and for `brighten` only when the amount
   * is an `int`; "menu", unknown words and wrong counts reach no helper.
   */
  function Dispatch(args: seq<string>): (r: Option<Request>)
    requires |args| > 0
    ensures r.Some? <==>
      || (args[0] == "brighten" && |args| == 4 && ParseInt(args[1]).Some?)
      || (args[0] in TwoArgVerbs && |args| == 3)
    ensures r.Some? ==> Verb(r.value) == args[0] && Names(r.value) == args[|args| - 2..]
    ensures r.Some? && r.value.Brighten? ==> ParseInt(args[1]) == Some(r.value.value)
  {
    if args[0] == "brighten" then
      if ArgsOk(args, 3) then
        match ParseInt(args[1])
        case None => None
        case Some(v) => Some(Brighten(v, args[2], args[3]))
      else None
    else if args[0] in TwoArgVerbs then
      if ArgsOk(args, 2) then Some(Binary(args[0], args[1], args[2])) else None
    else None
  }

  /** One turn of the loop for a line other than "q"; `args[0]` throws when the split is empty. */
  function Step(line: string): (r: Result<Option<Request>, Exception>)
    ensures r.Err? ==> r.error == IndexOutOfBounds
  {
    var args := SplitOnSpace(line);
    if |args| == 0 then Err(IndexOutOfBounds) else Ok(Dispatch(args))
  }

  /** Only a non-empty line of spaces makes `start` throw before any helper runs. */
  lemma StepBlank(line: string)
    ensures Step(line).Err? <==> |line| > 0 && Blank(line)
  {
    SplitOnSpaceEmpty(line);
  }

  /** The line for a request makes that request: splitting and the switch undo `Words`. */
  lemma StepLine(r: Request)
    requires Typeable(r)
    ensures Step(JoinWords(Words(r))) == Ok(Some(r))
    ensures |JoinWords(Words(r))| > 1
  {
    if r.Brighten? {
      StepBrightenLine(r);
    } else {
      StepBinaryLine(r);
    }
  }

  lemma StepBrightenLine(r: Request)
    requires Typeable(r) && r.Brighten?
    ensures Step(JoinWords(Words(r))) == Ok(Some(r))
    ensures |JoinWords(Words(r))| > 1
  {
    var ws := Words(r);
    var n := IntToString(r.value);
    IntToStringIsWord(r.value);
    ParseIntToString(r.value);
    assert ws == ["brighten", n, r.from, r.to];
    SplitWords(ws);
  }

  lemma StepBinaryLine(r: Request)
    requires Typeable(r) && !r.Brighten?
    ensures Step(JoinWords(Words(r))) == Ok(Some(r))
    ensures |JoinWords(Words(r))| > 1
  {
    var ws := Words(r);
    var names := Names(r);
    BinaryInverse(r);
    assert ws == [Verb(r), names[0], names[1]];
    SplitWords(ws);
  }

  /** `Binary` recovers every request other than `brighten` from its word and names. */
  lemma BinaryInverse(r: Request)
    requires !r.Brighten?
    ensures IsWord(Verb(r)) && Verb(r) in TwoArgVerbs && |Names(r)| == 2
    ensures Binary(Verb(r), Names(r)[0], Names(r)[1]) == r
  {
  }

  /**
   * The requests `start` makes, in input order, when no helper lets an
   * exception escape: it stops at "q", throws IllegalState when the input runs
   * out, and IndexOutOfBounds at a line of spaces.
   */
  function Requests(lines: seq<string>): (r: Result<seq<Request>, Exception>)
    ensures r.Ok? ==> "q" in lines && |r.value| < |lines|
    ensures r.Err? ==> r.error in {IllegalState, IndexOutOfBounds}
  {
    if |lines| == 0 then Err(IllegalState)
    else if lines[0] == "q" then Ok([])
    else
      match Step(lines[0])
      case Err(e) => Err(e)
      case Ok(o) =>
        match Requests(lines[1..])
        case Err(e) => Err(e)
        case Ok(rs) => Ok((if o.Some? then [o.value] else []) + rs)
  }

  /** A line that makes a request puts it in front of the requests of the lines after it. */
  lemma RequestsMade(lines: seq<string>, r: Request)
    requires |lines| > 0 && lines[0] != "q" && Step(lines[0]) == Ok(Some(r))
    requires Requests(lines[1..]).Ok?
    ensures Requests(lines) == Ok([r] + Requests(lines[1..]).value)
  {
  }

  /**
   * Lines that spell the requests one by one, then "q", make exactly those
   * requests, in order, whatever follows the "q".
   */
  lemma {:induction false} RequestsOfLines(lines: seq<string>, reqs: seq<Request>)
    requires |reqs| < |lines| && lines[|reqs|] == "q"
    requires forall i :: 0 <= i < |reqs| ==> Typeable(reqs[i]) && lines[i] == JoinWords(Words(reqs[i]))
    ensures Requests(lines) == Ok(reqs)
  {
    if |reqs| > 0 {
      StepLine(reqs[0]);
      RequestsOfLines(lines[1..], reqs[1..]);
      RequestsMade(lines, reqs[0]);
      assert [reqs[0]] + reqs[1..] == reqs;
    }
  }

  // ---------------------------------------------------------------------------
  // Sessions

  /** What `start` works on: the model's images, and the text files by path. */
  datatype Session = Session(store: Editor.Store, files: map<string, seq<string>>)

  /**
   * Code outside this model that a request reaches: ImageIO reading and
   * writing, the LUMA component and the filters.
   */
  type Elsewhere = (Session, Request) -> Result<Session, Exception>

  /** `path.endsWith(".ppm")`, the test `load` and `save` route on. */
  predicate IsPPM(path: string) { EndsWith(path, ".ppm") }

  /**
   * Every name with ".ppm" appended is a PPM path; a PPM path has at least
   * four characters, and its last three, "ppm", are none of the extensions
   * `saveNotPPM` accepts.
   */
  lemma PpmPath(stem: string, path: string)
    ensures IsPPM(stem + ".ppm")
    ensures IsPPM(path) ==> |path| >= 4 && SaveExt(path) == Err(IllegalState)
  {
    EndsWithAppend(stem, ".ppm");
    if IsPPM(path) {
      var k := |path| - 4;
      assert path[k..] == ".ppm";
      assert path[|path| - 3..] == path[k..][1..] == "ppm";
    }
  }

  /**
   * `loadPPM`: a missing file is IllegalState, the text is read as
   * `readPPM` reads it (a file without tokens being IllegalState), and the
   * image is stored with `acceptNewImage`.
   */
  function LoadPPM(s: Session, path: string, name: string): (r: Result<Session, Exception>)
    ensures path !in s.files ==> r == Err(IllegalState)
    ensures r.Ok? <==> path in s.files && Ppm.LoadPPMText(s.files[path]).Ok?
    ensures r.Ok? ==> r.value.files == s.files && name in r.value.store
    ensures r.Ok? ==> r.value.store[name] == Ppm.LoadPPMText(s.files[path]).value
    ensures r.Ok? ==> Editor.OthersKept(s.store, r.value.store, name)
  {
    if path !in s.files then Err(IllegalState)
    else
      var img :- Ppm.LoadPPMText(s.files[path]);
      Ok(s.(store := Editor.AcceptNewImage(s.store, Some(img), Some(name)).value))
  }

  /** `savePPM` once its FileWriter has emptied the file: the PPM lines of the named image. */
  function SavePPM(s: Session, path: string, name: string): (r: Result<Session, Exception>)
    ensures r.Ok? <==> name in s.store && |s.store[name]| > 0
    ensures name !in s.store ==> r == Err(IllegalState)
    ensures r.Ok? ==> r.value.store == s.store && path in r.value.files
    ensures r.Ok? ==> r.value.files[path] == Ppm.PpmLines(s.store[name])
    ensures r.Ok? ==> forall p :: p != path ==> (p in r.value.files <==> p in s.files)
  {
    var lines :- Ppm.SavePPMText(s.store, name);
    Ok(s.(files := s.files[path := lines]))
  }

  /** The extension `saveNotPPM` takes from the last three characters of the path. */
  function SaveExt(path: string): (r: Result<string, Exception>)
    ensures r == Err(IndexOutOfBounds) <==> |path| < 3
    ensures r.Ok? <==> EndsWith(path, "jpg") || EndsWith(path, "png") || EndsWith(path, "bmp")
    ensures r.Ok? ==> EndsWith(path, r.value) && |r.value| == 3
    ensures r.Err? ==> r.error in {IllegalState, IndexOutOfBounds}
  {
    if |path| < 3 then Err(IndexOutOfBounds)
    else
      var ext := path[|path| - 3..];
      if ext == "jpg" || ext == "png" || ext == "bmp" then Ok(ext) else Err(IllegalState)
  }

  /**
   * `saveNotPPM` up to `ImageIO.write`: the named image must exist and have a
   * row (`image[0]`) of at least one pixel (`new BufferedImage` refuses a zero
   * width), and the path must end in a known extension.
   */
  function SaveNotPPM(s: Session, path: string, name: string, elsewhere: Elsewhere): (r: Result<Session, Exception>)
    ensures name !in s.store ==> r == Err(IllegalState)
    ensures name in s.store && |s.store[name]| == 0 ==> r == Err(IndexOutOfBounds)
    ensures name in s.store && |s.store[name]| > 0 && Editor.Width(s.store[name]) == 0
      ==> r == Err(IllegalArgument)
    ensures name in s.store && |s.store[name]| > 0 && Editor.Width(s.store[name]) > 0
      ==> if SaveExt(path).Ok? then r == elsewhere(s, Save(path, name)) else r == Err(SaveExt(path).error)
  {
    var img :- Editor.ReleaseImage(s.store, Some(name));
    if |img| == 0 then Err(IndexOutOfBounds)
    else if Editor.Width(img) == 0 then Err(IllegalArgument)
    else
      var ext :- SaveExt(path);
      elsewhere(s, Save(path, name))
  }

  /** A helper's `catch (IllegalStateException e)`: the session stays as it was when it was thrown. */
  function Caught(s: Session, r: Result<Session, Exception>): (o: Result<Session, Exception>)
    ensures r.Ok? ==> o == r
    ensures r == Err(IllegalState) ==> o == Ok(s)
    ensures r.Err? && r.error != IllegalState ==> o == r
  {
    if r.Err? && r.error == IllegalState then Ok(s) else r
  }

  /** The model's new store in the session. */
  function Stored(s: Session, r: Result<Editor.Store, Exception>): (o: Result<Session, Exception>)
  {
    match r
    case Ok(store) => Ok(s.(store := store))
    case Err(e) => Err(e)
  }

  /**
   * The helper a request reaches, with its catch.  `loadHelp` and `saveHelp`
   * route on the ".ppm" suffix; `savePPM` opens (and so empties) the file
   * before it looks the image up.
   */
  function Handle(s: Session, r: Request, elsewhere: Elsewhere): (o: Result<Session, Exception>)
    ensures o.Err? ==> o.error != IllegalState
  {
    match r
    case Load(path, name) =>
      Caught(s, if IsPPM(path) then LoadPPM(s, path, name) else elsewhere(s, r))
    case Save(path, name) =>
      if IsPPM(path) then
        var emptied := s.(files := s.files[path := []]);
        Caught(emptied, SavePPM(emptied, path, name))
      else Caught(s, SaveNotPPM(s, path, name, elsewhere))
    case Brighten(v, from, to) =>
      Caught(s, Stored(s, Editor.Brighten(s.store, v, Some(from), Some(to))))
    case Flip(d, from, to) =>
      Caught(s, Stored(s, Editor.Flip(s.store, d, Some(from), Some(to))))
    case Component(Channel(c), from, to) =>
      Caught(s, Stored(s, Editor.ComponentOf(s.store, c, Some(from), Some(to))))
    case Component(Luma, _, _) => Caught(s, elsewhere(s, r))
    case Filter(_, _, _) => Caught(s, elsewhere(s, r))
  }

  /**
   * `brighten`, the flips and the colour components go straight to the
   * model's operation under the `IllegalState` catch, whatever code outside
   * the model does.
   */
  lemma HandleEditing(s: Session, v: Int32, d: Editor.Direction, c: Editor.Component,
                      from: string, to: string, elsewhere: Elsewhere)
    ensures Handle(s, Brighten(v, from, to), elsewhere)
      == Caught(s, Stored(s, Editor.Brighten(s.store, v, Some(from), Some(to))))
    ensures Handle(s, Flip(d, from, to), elsewhere)
      == Caught(s, Stored(s, Editor.Flip(s.store, d, Some(from), Some(to))))
    ensures Handle(s, Component(Channel(c), from, to), elsewhere)
      == Caught(s, Stored(s, Editor.ComponentOf(s.store, c, Some(from), Some(to))))
  {
  }

  /** `start` on the remaining lines: the session when "q" is read, or the exception that escapes. */
  function Run(lines: seq<string>, s: Session, elsewhere: Elsewhere): (r: Result<Session, Exception>)
    ensures r.Ok? ==> "q" in lines
  {
    if |lines| == 0 then Err(IllegalState)
    else if lines[0] == "q" then Ok(s)
    else
      match Step(lines[0])
      case Err(e) => Err(e)
      case Ok(None) => Run(lines[1..], s, elsewhere)
      case Ok(Some(req)) =>
        match Handle(s, req, elsewhere)
        case Err(e) => Err(e)
        case Ok(next) => Run(lines[1..], next, elsewhere)
  }

  /** The requests handled one after another, up to the first exception that escapes. */
  function Apply(reqs: seq<Request>, s: Session, elsewhere: Elsewhere): Result<Session, Exception>
  {
    if |reqs| == 0 then Ok(s)
    else
      match Handle(s, reqs[0], elsewhere)
      case Err(e) => Err(e)
      case Ok(next) => Apply(reqs[1..], next, elsewhere)
  }

  /** Running the lines is handling the requests they make, in order. */
  lemma {:induction false} RunApplies(lines: seq<string>, s: Session, elsewhere: Elsewhere)
    requires Requests(lines).Ok?
    ensures Run(lines, s, elsewhere) == Apply(Requests(lines).value, s, elsewhere)
  {
    if lines[0] != "q" {
      var o := Step(lines[0]).value;
      var rest := Requests(lines[1..]).value;
      if o.None? {
        assert [] + rest == rest;
        RunApplies(lines[1..], s, elsewhere);
      } else {
        assert ([o.value] + rest)[0] == o.value;
        assert ([o.value] + rest)[1..] == rest;
        match Handle(s, o.value, elsewhere)
        case Err(_) =>
        case Ok(next) => RunApplies(lines[1..], next, elsewhere);
      }
    }
  }

  /** `start` reads nothing after "q": what follows cannot change the outcome. */
  lemma {:induction false} RunStopsAtQuit(a: seq<string>, b: seq<string>, s: Session, elsewhere: Elsewhere)
    ensures Run(a + ["q"] + b, s, elsewhere) == Run(a + ["q"], s, elsewhere)
  {
    var long := a + ["q"] + b;
    var short := a + ["q"];
    assert long[0] == short[0];
    if |a| > 0 && a[0] != "q" {
      assert long[1..] == a[1..] + ["q"] + b;
      assert short[1..] == a[1..] + ["q"];
      forall next: Session
        ensures Run(long[1..], next, elsewhere) == Run(short[1..], next, elsewhere)
      {
        RunStopsAtQuit(a[1..], b, next, elsewhere);
      }
    }
  }

  /**
   * A PPM path never reaches code outside the model; a missing PPM file is
   * caught and changes nothing; any other path is ImageIO's to read.
   */
  lemma LoadRoutes(s: Session, path: string, name: string, elsewhere: Elsewhere, other: Elsewhere)
    ensures IsPPM(path) ==> Handle(s, Load(path, name), elsewhere) == Handle(s, Load(path, name), other)
    ensures IsPPM(path) && path !in s.files ==> Handle(s, Load(path, name), elsewhere) == Ok(s)
    ensures !IsPPM(path) ==> Handle(s, Load(path, name), elsewhere) == Caught(s, elsewhere(s, Load(path, name)))
  {
  }

  /**
   * Saving to a PPM path never reaches code outside the model; saving an
   * unknown name there still empties the file, because the file is opened
   * for writing before the image is looked up.
   */
  lemma SaveRoutes(s: Session, path: string, name: string, elsewhere: Elsewhere, other: Elsewhere)
    ensures IsPPM(path) ==> Handle(s, Save(path, name), elsewhere) == Handle(s, Save(path, name), other)
    ensures IsPPM(path) && name !in s.store ==> Handle(s, Save(path, name), elsewhere) == Ok(s.(files := s.files[path := []]))
    ensures !IsPPM(path) && name !in s.store ==> Handle(s, Save(path, name), elsewhere) == Ok(s)
  {
  }

  /** A PPM save of a stored image with rows writes its PPM lines and nothing else. */
  lemma SavePPMStep(s: Session, path: string, name: string, elsewhere: Elsewhere)
    requires IsPPM(path) && name in s.store && |s.store[name]| > 0
    ensures Handle(s, Save(path, name), elsewhere)
      == Ok(s.(files := s.files[path := Ppm.PpmLines(s.store[name])]))
  {
    var emptied := s.(files := s.files[path := []]);
    assert emptied.files[path := Ppm.PpmLines(s.store[name])] == s.files[path := Ppm.PpmLines(s.store[name])];
  }

  /** A PPM load of a readable file stores the image it holds under the name, and nothing else. */
  lemma LoadPPMStep(s: Session, path: string, name: string, elsewhere: Elsewhere)
    requires IsPPM(path) && path in s.files && Ppm.LoadPPMText(s.files[path]).Ok?
    ensures Handle(s, Load(path, name), elsewhere)
      == Ok(s.(store := s.store[name := Ppm.LoadPPMText(s.files[path]).value]))
  {
  }

  /** Saving an image as PPM and loading the file under another name stores the same image. */
  lemma SaveThenLoad(s: Session, path: string, name: string, to: string, elsewhere: Elsewhere)
    requires IsPPM(path) && name in s.store
    requires var img := s.store[name];
      |img| > 0 && IsInt(|img|) && IsInt(Editor.Width(img)) && Editor.Clonable(img)
    ensures var img := s.store[name];
      Apply([Save(path, name), Load(path, to)], s, elsewhere)
        == Ok(Session(s.store[to := img], s.files[path := Ppm.PpmLines(img)]))
  {
    var img := s.store[name];
    Ppm.SaveThenRead(img);
    var saved := s.(files := s.files[path := Ppm.PpmLines(img)]);
    SavePPMStep(s, path, name, elsewhere);
    LoadPPMStep(saved, path, to, elsewhere);
    var reqs := [Save(path, name), Load(path, to)];
    assert reqs[1..] == [Load(path, to)];
    assert Apply(reqs[1..], saved, elsewhere) == Apply([], saved.(store := s.store[to := img]), elsewhere);
  }
}

=== FILE: edge_sort.dfy ===
/**
 * `worklist.sort(new CompareEdges())` in `spanningTree`.  `List.sort` is a
 * stable sort, and a stable sort by a consistent comparator has exactly one
 * possible outcome, so the model sorts by stable insertion and proves that
 * any sorted, stable rearrangement equals it.
 */
module EdgeSort {
  import opened Grid

  /** The weights `Random.nextInt(30)` draws, for which `CompareEdges` is consistent. */
  predicate SmallWeights(s: seq<Edge>)
  {
    forall i :: 0 <= i < |s| ==> 0 <= s[i].weight < 30
  }

  predicate SortedByWeight(s: seq<Edge>)
  {
    forall i, j :: 0 <= i < j < |s| ==> s[i].weight <= s[j].weight
  }

  /** The edges of `s` whose weight is `wt`, in their order in `s`. */
  function WithWeight(s: seq<Edge>, wt: int): (r: seq<Edge>)
    ensures forall e :: e in r <==> e in s && e.weight == wt
    ensures |r| <= |s|
  {
    if |s| == 0 then []
    else (if s[0].weight == wt then [s[0]] else []) + WithWeight(s[1..], wt)
  }

  /** Puts `x` in front of the first edge the comparator does not rank below it. */
  function Insert(x: Edge, s: seq<Edge>): (r: seq<Edge>)
    ensures multiset(r) == multiset(s) + multiset{x}
    ensures |r| == |s| + 1
  {
    if |s| == 0 || CompareEdges(x, s[0]) <= 0 then [x] + s
    else
      assert s == [s[0]] + s[1..];
      [s[0]] + Insert(x, s[1..])
  }

  /** The stable sort of `s` by `CompareEdges`. */
  function Sort(s: seq<Edge>): (r: seq<Edge>)
    ensures multiset(r) == multiset(s)
    ensures |r| == |s|
  {
    if |s| == 0 then []
    else
      assert s == [s[0]] + s[1..];
      Insert(s[0], Sort(s[1..]))
  }

  lemma {:induction false} InsertSorted(x: Edge, s: seq<Edge>)
    requires 0 <= x.weight < 30 && SmallWeights(s) && SortedByWeight(s)
    ensures SortedByWeight(Insert(x, s)) && SmallWeights(Insert(x, s))
  {
    var r := Insert(x, s);
    if |s| == 0 || CompareEdges(x, s[0]) <= 0 {
      assert r == [x] + s;
      forall i, j | 0 <= i < j < |r|
        ensures r[i].weight <= r[j].weight
      {
        if i == 0 {
          assert r[j] == s[j - 1];
        }
      }
    } else {
      var t := Insert(x, s[1..]);
      InsertSorted(x, s[1..]);
      InsertAbove(x, s[1..], s[0].weight);
      assert r == [s[0]] + t;
      forall i, j | 0 <= i < j < |r|
        ensures r[i].weight <= r[j].weight
      {
        assert r[j] == t[j - 1];
        if i > 0 {
          assert r[i] == t[i - 1];
        }
      }
    }
  }

  /** Inserting an edge no lighter than `lo` among edges no lighter than `lo`. */
  lemma {:induction false} InsertAbove(x: Edge, s: seq<Edge>, lo: int)
    requires lo <= x.weight && forall i :: 0 <= i < |s| ==> lo <= s[i].weight
    ensures forall i :: 0 <= i < |Insert(x, s)| ==> lo <= Insert(x, s)[i].weight
  {
    if |s| > 0 && CompareEdges(x, s[0]) > 0 {
      InsertAbove(x, s[1..], lo);
      var t := Insert(x, s[1..]);
      assert Insert(x, s) == [s[0]] + t;
    } else {
      assert Insert(x, s) == [x] + s;
    }
  }

  /** The sort orders the edges by weight. */
  lemma {:induction false} SortSorted(s: seq<Edge>)
    requires SmallWeights(s)
    ensures SortedByWeight(Sort(s)) && SmallWeights(Sort(s))
  {
    if |s| > 0 {
      SortSorted(s[1..]);
      InsertSorted(s[0], Sort(s[1..]));
    }
  }

  /** `WithWeight` on a sequence with a known first edge. */
  lemma WithWeightCons(e: Edge, s: seq<Edge>, wt: int)
    ensures e.weight == wt ==> WithWeight([e] + s, wt) == [e] + WithWeight(s, wt)
    ensures e.weight != wt ==> WithWeight([e] + s, wt) == WithWeight(s, wt)
  {
    assert ([e] + s)[0] == e;
    assert ([e] + s)[1..] == s;
  }

  /** Insertion keeps every weight's subsequence as if `x` came first: `x` only passes lighter edges. */
  lemma {:induction false} InsertStable(x: Edge, s: seq<Edge>, wt: int)
    requires 0 <= x.weight < 30 && SmallWeights(s)
    ensures WithWeight(Insert(x, s), wt) == WithWeight([x] + s, wt)
  {
    if |s| > 0 && CompareEdges(x, s[0]) > 0 {
      var t := s[1..];
      var i := Insert(x, t);
      assert s[0].weight < x.weight;
      assert SmallWeights(t) by {
        forall j | 0 <= j < |t| ensures 0 <= t[j].weight < 30 { assert t[j] == s[j + 1]; }
      }
      InsertStable(x, t, wt);
      assert Insert(x, s) == [s[0]] + i;
      assert s == [s[0]] + t;
      WithWeightCons(s[0], i, wt);
      WithWeightCons(x, t, wt);
      WithWeightCons(x, s, wt);
      WithWeightCons(s[0], t, wt);
    }
  }

  /**
   * Stability: for every weight, the edges of that weight keep their relative
   * order; with the multiset equation this makes the result a permutation.
   */
  lemma {:induction false} SortStable(s: seq<Edge>, wt: int)
    requires SmallWeights(s)
    ensures WithWeight(Sort(s), wt) == WithWeight(s, wt)
  {
    if |s| > 0 {
      SortStable(s[1..], wt);
      SortSorted(s[1..]);
      InsertStable(s[0], Sort(s[1..]), wt);
      assert ([s[0]] + Sort(s[1..]))[1..] == Sort(s[1..]);
    }
  }

  /** `WithWeight` distributes over concatenation. */
  lemma {:induction false} WithWeightAppend(a: seq<Edge>, b: seq<Edge>, wt: int)
    ensures WithWeight(a + b, wt) == WithWeight(a, wt) + WithWeight(b, wt)
    decreases |a|
  {
    if |a| > 0 {
      var t := a[1..];
      WithWeightAppend(t, b, wt);
      assert a == [a[0]] + t;
      assert a + b == [a[0]] + (t + b);
      WithWeightCons(a[0], t + b, wt);
      WithWeightCons(a[0], t, wt);
      if a[0].weight == wt {
        assert [a[0]] + (WithWeight(t, wt) + WithWeight(b, wt))
            == ([a[0]] + WithWeight(t, wt)) + WithWeight(b, wt);
      }
    } else {
      assert a + b == b;
    }
  }

  /** The first edge of a weight-sorted sequence has the least weight. */
  lemma HeadIsLightest(t: seq<Edge>, e: Edge)
    requires SortedByWeight(t) && e in t
    ensures t[0].weight <= e.weight
  {
    var k :| 0 <= k < |t| && t[k] == e;
    if k > 0 {
      assert t[0].weight <= t[k].weight;
    }
  }

  /** Sorted sequences agreeing on every weight's subsequence start alike. */
  lemma SameHead(t1: seq<Edge>, t2: seq<Edge>)
    requires |t1| > 0 && |t2| > 0
    requires SortedByWeight(t1) && SortedByWeight(t2)
    requires forall wt :: WithWeight(t1, wt) == WithWeight(t2, wt)
    ensures t1[0] == t2[0]
  {
    var a, b := t1[0], t2[0];
    assert WithWeight(t1, a.weight) == WithWeight(t2, a.weight);
    assert WithWeight(t1, b.weight) == WithWeight(t2, b.weight);
    assert a in WithWeight(t1, a.weight);
    assert b in WithWeight(t2, b.weight);
    HeadIsLightest(t2, a);
    HeadIsLightest(t1, b);
    assert WithWeight(t1, a.weight)[0] == a;
    assert WithWeight(t2, b.weight)[0] == b;
  }

  /**
   * Uniqueness: two weight-sorted sequences that agree on every weight's
   * subsequence are equal.  Hence whatever stable algorithm `List.sort` uses,
   * it yields `Sort(s)`.
   */
  lemma {:induction false} StableSortUnique(t1: seq<Edge>, t2: seq<Edge>)
    requires SortedByWeight(t1) && SortedByWeight(t2)
    requires forall wt :: WithWeight(t1, wt) == WithWeight(t2, wt)
    ensures t1 == t2
  {
    assert |t1| > 0 ==> t1[0] in WithWeight(t1, t1[0].weight);
    assert |t2| > 0 ==> t2[0] in WithWeight(t2, t2[0].weight);
    if |t1| > 0 && |t2| > 0 {
      SameHead(t1, t2);
      var head := t1[..1];
      assert t1 == head + t1[1..] && t2 == head + t2[1..];
      forall wt
        ensures WithWeight(t1[1..], wt) == WithWeight(t2[1..], wt)
      {
        WithWeightAppend(head, t1[1..], wt);
        WithWeightAppend(head, t2[1..], wt);
        var p := WithWeight(head, wt);
        assert (p + WithWeight(t1[1..], wt))[|p|..] == WithWeight(t1[1..], wt);
        assert (p + WithWeight(t2[1..], wt))[|p|..] == WithWeight(t2[1..], wt);
      }
      StableSortUnique(t1[1..], t2[1..]);
    }
  }

  /** A weight-sorted rearrangement that is stable for every weight is `Sort(s)`. */
  lemma AnyStableSortIsSort(s: seq<Edge>, t: seq<Edge>)
    requires SmallWeights(s)
    requires SortedByWeight(t)
    requires forall wt :: WithWeight(t, wt) == WithWeight(s, wt)
    ensures t == Sort(s)
  {
    SortSorted(s);
    forall wt
      ensures WithWeight(t, wt) == WithWeight(Sort(s), wt)
    {
      SortStable(s, wt);
    }
    StableSortUnique(t, Sort(s));
  }
}

=== FILE: editor.dfy ===
/**
 * `model.SimpleEditorModel`: a map from names to images, and the pure integer
 * operations that read one stored image and store a new one under another name
 * (`brighten`, the two flips and the RED, GREEN, BLUE, VALUE and INTENSITY
 * components).  `None` stands for a `null` name or image.
 */
module Editor {
  import opened Wrappers
  import opened JavaLang
  import opened Pixels

  /** Every row of a `Pixel[][]` has the length of the first. */
  predicate Rectangular(rows: seq<seq<Pixel>>)
  {
    forall i :: 0 <= i < |rows| ==> |rows[i]| == |rows[0]|
  }

  /** An image: `height` rows of `width` pixels each. */
  type Image = rows: seq<seq<Pixel>> | Rectangular(rows)

  function Width(img: Image): nat
  {
    if |img| == 0 then 0 else |img[0]|
  }

  /** The `images` field: a `HashMap<String, Pixel[][]>`. */
  type Store = map<string, Image>

  datatype Direction = Horizontal | Vertical

  /** The `Component` values whose computation is integer arithmetic. */
  datatype Component = Red | Green | Blue | Value | Intensity

  /** Every pixel of the image survives `clone`. */
  predicate Clonable(img: Image)
  {
    forall i, j :: 0 <= i < |img| && 0 <= j < |img[i]| ==> NonNegative(img[i][j])
  }

  /** `put(name, image)` left every other entry as it was. */
  ghost predicate OthersKept(before: Store, after: Store, name: string)
  {
    forall k :: k != name ==> (k in after <==> k in before) && (k in before ==> after[k] == before[k])
  }

  /** `acceptNewImage`: store or replace the entry; a `null` argument is refused. */
  function AcceptNewImage(store: Store, image: Option<Image>, name: Option<string>): (r: Result<Store, Exception>)
    ensures r.Err? <==> image.None? || name.None?
    ensures r.Err? ==> r.error == IllegalArgument
    ensures r.Ok? ==> name.value in r.value && r.value[name.value] == image.value
    ensures r.Ok? ==> OthersKept(store, r.value, name.value)
  {
    if image.None? || name.None? then Err(IllegalArgument)
    else Ok(store[name.value := image.value])
  }

  /**
   * `releaseImage`: the stored image, or IllegalState when the name has no
   * entry (the model never stores under a `null` name).
   */
  function ReleaseImage(store: Store, name: Option<string>): (r: Result<Image, Exception>)
    ensures r.Ok? <==> name.Some? && name.value in store
    ensures r.Ok? ==> r.value == store[name.value]
    ensures r.Err? ==> r.error == IllegalState
  {
    if name.Some? && name.value in store then Ok(store[name.value]) else Err(IllegalState)
  }

  /** An accepted image is released under its name, and other names keep answering as before. */
  lemma ReleaseAccepted(store: Store, image: Image, name: string, other: string)
    requires other != name
    ensures var s := AcceptNewImage(store, Some(image), Some(name)).value;
      && ReleaseImage(s, Some(name)) == Ok(image)
      && ReleaseImage(s, Some(other)) == ReleaseImage(store, Some(other))
  {
  }

  /** `getListOfLayers`: the names in the map, in no particular order. */
  function ListOfLayers(store: Store): (names: set<string>)
    ensures forall n :: n in names <==> ReleaseImage(store, Some(n)).Ok?
  {
    store.Keys
  }

  /**
   * The steps every operation takes before it stores its result: the `null`
   * check, `releaseImage(from)`, `image[0].length` for the result's width, and
   * a `clone` of every pixel.
   */
  function Source(store: Store, from: Option<string>, to: Option<string>): (r: Result<Image, Exception>)
    ensures r.Ok? <==> from.Some? && to.Some? && from.value in store
                       && |store[from.value]| > 0 && Clonable(store[from.value])
    ensures r.Ok? ==> r.value == store[from.value]
    ensures from.None? || to.None? ==> r == Err(IllegalArgument)
    ensures from.Some? && to.Some? && from.value !in store ==> r == Err(IllegalState)
    ensures r.Err? ==> r.error in {IllegalArgument, IllegalState, IndexOutOfBounds}
  {
    if from.None? || to.None? then Err(IllegalArgument)
    else match ReleaseImage(store, from)
      case Err(e) => Err(e)
      case Ok(img) =>
        if |img| == 0 then Err(IndexOutOfBounds)
        else if !Clonable(img) then Err(IllegalArgument)
        else Ok(img)
  }

  /** The pixels of an image in the order the nested loops visit them: row by row. */
  function Flatten(img: seq<seq<Pixel>>): (ps: seq<Pixel>)
  {
    if |img| == 0 then [] else img[0] + Flatten(img[1..])
  }

  /** Apply `f` to every pixel, keeping the shape. */
  function MapPixels(img: Image, f: Pixel -> Pixel): (r: Image)
    ensures |r| == |img| && Width(r) == Width(img)
    ensures forall i :: 0 <= i < |img| ==> |r[i]| == |img[i]|
    ensures forall i, j :: 0 <= i < |img| && 0 <= j < |img[i]| ==> r[i][j] == f(img[i][j])
  {
    seq(|img|, i requires 0 <= i < |img| =>
      seq(|img[i]|, j requires 0 <= j < |img[i]| => f(img[i][j])))
  }

  // ---------------------------------------------------------------------------
  // brighten

  /**
   * `brightenCalc(before, change)` as its documentation describes it: the
   * exact sum clamped to 0..255.  The Java code adds in `int`, which can wrap
   * around (`BrightenCalcAsWritten`, the one `Brighten` uses).
   */
  function BrightenCalc(before: Int32, change: Int32): (r: Int32)
    ensures 0 <= r <= 255
    ensures 0 <= before + change <= 255 ==> r == before + change
    ensures before + change < 0 ==> r == 0
    ensures before + change > 255 ==> r == 255
  {
    var sum := before + change;
    if sum < 0 then 0 else if sum > 255 then 255 else sum
  }

  /** `brightenCalc` as written: `before + change` is an `int` sum, reduced modulo 2^32. */
  function BrightenCalcAsWritten(before: Int32, change: Int32): (r: Int32)
    ensures 0 <= r <= 255
    ensures IsInt(before + change) ==> r == BrightenCalc(before, change)
  {
    var sum := Wrap32(before + change);
    if sum < 0 then 0 else if sum > 255 then 255 else sum
  }

  /** Brightening a white channel by `Integer.MAX_VALUE` wraps the sum negative and gives black. */
  lemma BrightenCalcWraps()
    ensures BrightenCalcAsWritten(255, IntMax) == 0
    ensures BrightenCalc(255, IntMax) == 255
  {
    assert Wrap32(255 + IntMax) == 255 + IntMax - TwoTo32;
  }

  /** A larger change never gives a darker channel. */
  lemma BrightenCalcMonotone(before: Int32, c1: Int32, c2: Int32)
    requires c1 <= c2
    ensures BrightenCalc(before, c1) <= BrightenCalc(before, c2)
  {
  }

  /** Every channel of `p` through `brightenCalc`, as written. */
  function BrightenPixel(p: Pixel, value: Int32): (q: Pixel)
    ensures 0 <= q.red <= 255 && 0 <= q.green <= 255 && 0 <= q.blue <= 255
    ensures q == Pixel(BrightenCalcAsWritten(p.red, value), BrightenCalcAsWritten(p.green, value),
                       BrightenCalcAsWritten(p.blue, value))
  {
    SetRGB(p, BrightenCalcAsWritten(p.red, value), BrightenCalcAsWritten(p.green, value),
           BrightenCalcAsWritten(p.blue, value))
  }

  /** Every channel of `p` through the clamped `brightenCalc`. */
  function BrightenPixelClamped(p: Pixel, value: Int32): (q: Pixel)
    ensures 0 <= q.red <= 255 && 0 <= q.green <= 255 && 0 <= q.blue <= 255
    ensures q == Pixel(BrightenCalc(p.red, value), BrightenCalc(p.green, value), BrightenCalc(p.blue, value))
  {
    SetRGB(p, BrightenCalc(p.red, value), BrightenCalc(p.green, value), BrightenCalc(p.blue, value))
  }

  /** No channel of `p` overflows an `int` when `value` is added to it. */
  predicate NoOverflow(p: Pixel, value: Int32)
  {
    IsInt(p.red + value) && IsInt(p.green + value) && IsInt(p.blue + value)
  }

  /** `brighten(value, from, to)`. */
  function Brighten(store: Store, value: Int32, from: Option<string>, to: Option<string>): (r: Result<Store, Exception>)
    ensures r.Ok? <==> Source(store, from, to).Ok?
    ensures r.Err? ==> r.error == Source(store, from, to).error
    ensures r.Ok? ==> to.value in r.value && OthersKept(store, r.value, to.value)
    ensures r.Ok? ==> var img := store[from.value]; var out := r.value[to.value];
      && |out| == |img| && Width(out) == Width(img)
      && forall i, j :: 0 <= i < |img| && 0 <= j < |img[i]| ==>
           && 0 <= out[i][j].red <= 255 && 0 <= out[i][j].green <= 255 && 0 <= out[i][j].blue <= 255
           && out[i][j] == BrightenPixel(img[i][j], value)
  {
    match Source(store, from, to)
      case Err(e) => Err(e)
      case Ok(img) => Ok(store[to.value := MapPixels(img, p => BrightenPixel(p, value))])
  }

  /** `brighten` with the clamped `brightenCalc` its documentation promises. */
  function BrightenClamped(store: Store, value: Int32, from: Option<string>, to: Option<string>): (r: Result<Store, Exception>)
    ensures r.Ok? <==> Source(store, from, to).Ok?
    ensures r.Err? ==> r.error == Source(store, from, to).error
    ensures r.Ok? ==> to.value in r.value && OthersKept(store, r.value, to.value)
    ensures r.Ok? ==> var img := store[from.value]; var out := r.value[to.value];
      && |out| == |img| && Width(out) == Width(img)
      && forall i, j :: 0 <= i < |img| && 0 <= j < |img[i]| ==>
           && 0 <= out[i][j].red <= 255 && 0 <= out[i][j].green <= 255 && 0 <= out[i][j].blue <= 255
           && out[i][j] == BrightenPixelClamped(img[i][j], value)
  {
    match Source(store, from, to)
      case Err(e) => Err(e)
      case Ok(img) => Ok(store[to.value := MapPixels(img, p => BrightenPixelClamped(p, value))])
  }

  /** As long as no channel sum overflows, `brighten` as written is the clamped one. */
  lemma BrightenAgrees(store: Store, value: Int32, from: string, to: string)
    requires from in store
    requires forall i, j :: 0 <= i < |store[from]| && 0 <= j < |store[from][i]| ==>
      NoOverflow(store[from][i][j], value)
    ensures Brighten(store, value, Some(from), Some(to)) == BrightenClamped(store, value, Some(from), Some(to))
  {
    var img := store[from];
    var f := (p: Pixel) => BrightenPixel(p, value);
    var g := (p: Pixel) => BrightenPixelClamped(p, value);
    if Source(store, Some(from), Some(to)).Ok? {
      var a, b := MapPixels(img, f), MapPixels(img, g);
      forall i | 0 <= i < |img|
        ensures a[i] == b[i]
      {
        forall j | 0 <= j < |img[i]|
          ensures a[i][j] == b[i][j]
        {
          assert NoOverflow(img[i][j], value);
        }
      }
      assert a == b;
    }
  }

  /** A pixel a PPM file can give, white, brightened by `Integer.MAX_VALUE`, turns black as written but stays white clamped. */
  lemma BrightenWhiteByMax()
    ensures BrightenPixel(Pixel(255, 255, 255), IntMax) == Pixel(0, 0, 0)
    ensures BrightenPixelClamped(Pixel(255, 255, 255), IntMax) == Pixel(255, 255, 255)
  {
    BrightenCalcWraps();
  }

  /** Brightening by zero stores a copy of an image whose channels are already 0..255. */
  lemma BrightenByZero(store: Store, from: string, to: string)
    requires from in store && |store[from]| > 0
    requires forall i, j :: 0 <= i < |store[from]| && 0 <= j < |store[from][i]| ==>
      var p := store[from][i][j]; 0 <= p.red <= 255 && 0 <= p.green <= 255 && 0 <= p.blue <= 255
    ensures Brighten(store, 0, Some(from), Some(to)) == Ok(store[to := store[from]])
  {
    var img := store[from];
    var out := MapPixels(img, p => BrightenPixel(p, 0));
    assert |out| == |img|;
    forall i | 0 <= i < |img|
      ensures out[i] == img[i]
    {
      assert |out[i]| == |img[i]|;
      forall j | 0 <= j < |img[i]|
        ensures out[i][j] == img[i][j]
      {
        assert out[i][j] == BrightenPixel(img[i][j], 0);
      }
    }
    assert out == img;
  }

  // ---------------------------------------------------------------------------
  // flip

  /** The cell whose pixel lands at (i, j): mirrored within the row or within the column. */
  function Mirror(d: Direction, h: nat, w: nat, i: nat, j: nat): (c: (nat, nat))
    requires i < h && j < w
    ensures c.0 < h && c.1 < w
  {
    if d == Horizontal then (i, w - 1 - j) else (h - 1 - i, j)
  }

  /** The net effect of `flip`'s loop: `result[i][j] = image[i][w-1-j]`, or `image[h-1-i][j]`. */
  function FlipImage(img: Image, d: Direction): (r: Image)
    ensures |r| == |img| && Width(r) == Width(img)
    ensures forall i :: 0 <= i < |img| ==> |r[i]| == Width(img)
  {
    var h, w := |img|, Width(img);
    seq(h, i requires 0 <= i < h =>
      seq(w, j requires 0 <= j < w => var c := Mirror(d, h, w, i, j); img[c.0][c.1]))
  }

  /** The pixel at (i, j) of the flip comes from the mirrored cell. */
  lemma FlipAt(img: Image, d: Direction, i: nat, j: nat)
    requires i < |img| && j < Width(img)
    ensures var c := Mirror(d, |img|, Width(img), i, j); FlipImage(img, d)[i][j] == img[c.0][c.1]
  {
  }

  /** Every pixel of the flip comes from the mirrored cell. */
  lemma FlipCells(img: Image, d: Direction)
    ensures forall i, j :: 0 <= i < |img| && 0 <= j < Width(img) ==>
      var c := Mirror(d, |img|, Width(img), i, j); FlipImage(img, d)[i][j] == img[c.0][c.1]
  {
    forall i, j | 0 <= i < |img| && 0 <= j < Width(img) {
      FlipAt(img, d, i, j);
    }
  }

  /** Mirroring is its own inverse, so flipping twice gives the image back. */
  lemma {:induction false} FlipTwice(img: Image, d: Direction)
    ensures FlipImage(FlipImage(img, d), d) == img
  {
    var once := FlipImage(img, d);
    var twice := FlipImage(once, d);
    var h, w := |img|, Width(img);
    forall i | 0 <= i < h
      ensures twice[i] == img[i]
    {
      assert |img[i]| == w;
      forall j | 0 <= j < w
        ensures twice[i][j] == img[i][j]
      {
        var c := Mirror(d, h, w, i, j);
        FlipAt(once, d, i, j);
        FlipAt(img, d, c.0, c.1);
        assert Mirror(d, h, w, c.0, c.1) == (i, j);
      }
    }
  }

  /** A partly filled result of `flip`: every cell still `null` or already holding its final pixel. */
  ghost predicate Agrees(result: seq<seq<Option<Pixel>>>, goal: Image)
  {
    && |result| == |goal|
    && (forall a :: 0 <= a < |goal| ==> |result[a]| == |goal[a]|)
    && forall a, b :: 0 <= a < |goal| && 0 <= b < |goal[a]| ==> result[a][b] == None || result[a][b] == Some(goal[a][b])
  }

  /** Cells of rows above `i`, and of row `i` left of `j`, are filled. */
  ghost predicate FilledTo(result: seq<seq<Option<Pixel>>>, goal: Image, i: nat, j: nat)
    requires Agrees(result, goal)
  {
    && (forall a, b :: 0 <= a < i && a < |goal| && 0 <= b < |goal[a]| ==> result[a][b] == Some(goal[a][b]))
    && (forall b :: 0 <= b < j && i < |goal| && b < |goal[i]| ==> result[i][b] == Some(goal[i][b]))
  }

  /** The pixels the loop has cloned so far, rows above `i` and row `i` left of `j`, are non-negative. */
  ghost predicate ClonedTo(img: Image, i: nat, j: nat)
  {
    && (forall a, b :: 0 <= a < i && a < |img| && 0 <= b < |img[a]| ==> NonNegative(img[a][b]))
    && (forall b :: 0 <= b < j && i < |img| && b < |img[i]| ==> NonNegative(img[i][b]))
  }

  /** Writing a cell's final pixel keeps the result in agreement and keeps filled cells filled. */
  lemma Write(result: seq<seq<Option<Pixel>>>, goal: Image, a: nat, b: nat, i: nat, j: nat)
    requires Agrees(result, goal) && a < |goal| && b < |goal[a]|
    requires FilledTo(result, goal, i, j)
    ensures var next := result[a := result[a][b := Some(goal[a][b])]];
      && Agrees(next, goal) && FilledTo(next, goal, i, j)
      && next[a][b] == Some(goal[a][b])
  {
  }

  /**
   * The loop of `flip` as written: each iteration (i, j) clones `image[i][j]`
   * and the mirrored pixel and writes both `result[i][j]` and the mirrored
   * cell.  Every write puts the mirrored pixel into the cell it writes, so the
   * finished array is `FlipImage`; a pixel `clone` refuses aborts the loop.
   */
  method FlipLoop(img: Image, d: Direction) returns (r: Result<Image, Exception>)
    requires |img| > 0
    ensures r.Ok? <==> Clonable(img)
    ensures r.Ok? ==> r.value == FlipImage(img, d)
    ensures r.Err? ==> r.error == IllegalArgument
  {
    var h := |img|;
    var goal := FlipImage(img, d);
    var result: seq<seq<Option<Pixel>>> := seq(h, _ => seq(Width(img), _ => None));
    var i := 0;
    while i < h
      invariant 0 <= i <= h
      invariant Agrees(result, goal) && FilledTo(result, goal, i, 0)
      invariant ClonedTo(img, i, 0)
    {
      var ok;
      ok, result := FlipRow(img, d, goal, result, i);
      if !ok {
        return Err(IllegalArgument);
      }
      i := i + 1;
    }
    r := Ok(goal);
  }

  /** Row `i` of `flip`'s loop; `ok` is false when a `clone` throws. */
  method FlipRow(img: Image, d: Direction, goal: Image, result: seq<seq<Option<Pixel>>>, i: nat)
    returns (ok: bool, next: seq<seq<Option<Pixel>>>)
    requires i < |img| && goal == FlipImage(img, d)
    requires Agrees(result, goal) && FilledTo(result, goal, i, 0) && ClonedTo(img, i, 0)
    ensures ok ==> Agrees(next, goal) && FilledTo(next, goal, i + 1, 0) && ClonedTo(img, i + 1, 0)
    ensures !ok ==> !Clonable(img)
  {
    var h, w := |img|, Width(img);
    next := result;
    var j := 0;
    while j < w
      invariant 0 <= j <= w
      invariant Agrees(next, goal) && FilledTo(next, goal, i, j)
      invariant ClonedTo(img, i, j)
    {
      assert |img[i]| == w;
      var temp := Clone(img[i][j]);
      if temp.Err? {
        return false, next;
      }
      var c := Mirror(d, h, w, i, j);
      assert |img[c.0]| == w;
      var there := Clone(img[c.0][c.1]);
      if there.Err? {
        return false, next;
      }
      assert Mirror(d, h, w, c.0, c.1) == (i, j);
      FlipAt(img, d, i, j);
      FlipAt(img, d, c.0, c.1);
      Write(next, goal, i, j, i, j);
      next := next[i := next[i][j := Some(there.value)]];
      Write(next, goal, c.0, c.1, i, j + 1);
      next := next[c.0 := next[c.0][c.1 := Some(temp.value)]];
      j := j + 1;
    }
    assert ClonedTo(img, i + 1, 0) by {
      forall a, b | 0 <= a < i + 1 && 0 <= b < |img[a]|
        ensures NonNegative(img[a][b])
      {
        assert |img[a]| == w;
      }
    }
    ok := true;
  }

  /** `flip(type, from, to)`. */
  function Flip(store: Store, d: Direction, from: Option<string>, to: Option<string>): (r: Result<Store, Exception>)
    ensures r.Ok? <==> Source(store, from, to).Ok?
    ensures r.Err? ==> r.error == Source(store, from, to).error
    ensures r.Ok? ==> to.value in r.value && OthersKept(store, r.value, to.value)
    ensures r.Ok? ==> r.value[to.value] == FlipImage(store[from.value], d)
  {
    match Source(store, from, to)
      case Err(e) => Err(e)
      case Ok(img) => Ok(store[to.value := FlipImage(img, d)])
  }

  /** Flipping a stored image and flipping the copy the same way stores the source image again. */
  lemma FlipFlip(store: Store, d: Direction, a: string, b: string, c: string)
    requires Flip(store, d, Some(a), Some(b)).Ok?
    ensures var s1 := Flip(store, d, Some(a), Some(b)).value;
      && Flip(s1, d, Some(b), Some(c)).Ok?
      && Flip(s1, d, Some(b), Some(c)).value[c] == store[a]
  {
    var img := store[a];
    var s1 := Flip(store, d, Some(a), Some(b)).value;
    var once := FlipImage(img, d);
    FlipCells(img, d);
    assert Clonable(once) by {
      forall i, j | 0 <= i < |once| && 0 <= j < |once[i]|
        ensures NonNegative(once[i][j])
      {
        var c := Mirror(d, |img|, Width(img), i, j);
        assert |img[c.0]| == Width(img);
      }
    }
    FlipTwice(img, d);
  }

  // ---------------------------------------------------------------------------
  // component

  /** One pixel of `component(type, ...)`: a grey whose level is the chosen measure. */
  function ComponentPixel(p: Pixel, c: Component): (q: Pixel)
    ensures q.red == q.green == q.blue
    ensures c == Red ==> q.red == p.red
    ensures c == Green ==> q.red == p.green
    ensures c == Blue ==> q.red == p.blue
    ensures c == Value ==>
      q.red >= p.red && q.red >= p.green && q.red >= p.blue && (q.red == p.red || q.red == p.green || q.red == p.blue)
    ensures c == Intensity && IsInt(p.red + p.green + p.blue) ==>
      -1 <= p.red + p.green + p.blue - 3 * q.red <= 1
  {
    match c
      case Red => SetBlue(SetGreen(p, p.red), p.red)
      case Green => SetBlue(SetRed(p, p.green), p.green)
      case Blue => SetGreen(SetRed(p, p.blue), p.blue)
      case Value => var m := MaxChannel(p); SetRGB(p, m, m, m)
      case Intensity => var k := IntensityLevel(p); SetRGB(p, k, k, k)
  }

  /** `component(type, from, to)` for every type but LUMA. */
  function ComponentOf(store: Store, c: Component, from: Option<string>, to: Option<string>): (r: Result<Store, Exception>)
    ensures r.Ok? <==> Source(store, from, to).Ok?
    ensures r.Err? ==> r.error == Source(store, from, to).error
    ensures r.Ok? ==> to.value in r.value && OthersKept(store, r.value, to.value)
    ensures r.Ok? ==> var img := store[from.value]; var out := r.value[to.value];
      && |out| == |img| && Width(out) == Width(img)
      && forall i, j :: 0 <= i < |img| && 0 <= j < |img[i]| ==> out[i][j] == ComponentPixel(img[i][j], c)
  {
    match Source(store, from, to)
      case Err(e) => Err(e)
      case Ok(img) => Ok(store[to.value := MapPixels(img, p => ComponentPixel(p, c))])
  }

  /** A component image is grey, so taking any channel component of it again changes nothing. */
  lemma ComponentIdempotent(p: Pixel, c: Component, d: Component)
    requires d in {Red, Green, Blue, Value}
    ensures ComponentPixel(ComponentPixel(p, c), d) == ComponentPixel(p, c)
  {
  }

  /** For channels in 0..255 every component is again a pixel in 0..255. */
  lemma ComponentInByte(p: Pixel, c: Component)
    requires 0 <= p.red < 256 && 0 <= p.green < 256 && 0 <= p.blue < 256
    ensures var q := ComponentPixel(p, c); 0 <= q.red < 256
  {
    if c == Intensity {
      IntensityInByte(p);
    }
  }
}

=== FILE: example.dfy ===
/**
 * The two-by-two maze `testReconstruct` builds, followed through construction,
 * both automatic searches and `reconstruct`.  The weights stand in for the
 * draws of `new Random(15)`: with them Kruskal keeps the edges down from 0,
 * right from 0 and down from 1, and both searches find the path 0, 1, 3.
 */
module MazeExample {
  import opened Wrappers
  import opened JavaLang
  import opened Grid
  import opened EdgeSort
  import opened UnionFind
  import opened Kruskal
  import opened Openings
  import opened Game

  const Weights: seq<int> := [0, 0, 0, 1]

  /** The candidate edges `createNodes` makes, in creation order. */
  const Down0 := Edge(0, 2, 0)
  const Right0 := Edge(0, 1, 0)
  const Down1 := Edge(1, 3, 0)
  const Right2 := Edge(2, 3, 1)

  /** `createNodes` on two by two: down and right from 0, down from 1, right from 2. */
  lemma ExampleEdges()
    ensures CreateEdges(2, 2, Weights) == [Down0, Right0, Down1, Right2]
  {
    assert EdgesFrom(2, 4, 2, Weights, 3, 1, 4) == [];
    assert EdgesFrom(2, 4, 2, Weights, 2, 0, 3) == [Right2];
    assert EdgesFrom(2, 4, 2, Weights, 1, 1, 2) == [Down1, Right2];
    assert EdgesFrom(2, 4, 2, Weights, 0, 0, 0) == [Down0, Right0, Down1, Right2];
  }

  /** The lightest-first stable sort leaves the edges in creation order. */
  lemma ExampleSort()
    ensures Sort([Down0, Right0, Down1, Right2]) == [Down0, Right0, Down1, Right2]
  {
    var s := [Down0, Right0, Down1, Right2];
    assert s[1..][1..][1..][1..] == [];
    assert Sort([Right2]) == [Right2];
    assert s[1..][1..] == [Down1, Right2];
    assert Sort(s[1..][1..]) == Insert(Down1, [Right2]) == [Down1, Right2];
    assert Sort(s[1..]) == Insert(Right0, [Down1, Right2]) == [Right0, Down1, Right2];
  }

  /** Singletons on four vertices, as a map display. */
  lemma FourSingletons()
    ensures Singletons(4) == map[0 := 0, 1 := 1, 2 := 2, 3 := 3]
  {
  }

  /** The representatives after each edge kept: each union points one root at another. */
  const Reps0: Reps := map[0 := 0, 1 := 1, 2 := 2, 3 := 3]
  const Reps1: Reps := Reps0[0 := 2]
  const Reps2: Reps := Reps1[2 := 1]
  const Reps3: Reps := Reps2[1 := 3]

  /** The first edge joins roots 0 and 2. */
  lemma GrowFirst()
    ensures Grow(4, [Down0, Right0, Down1, Right2], Forest(Reps0, []))
         == Grow(4, [Right0, Down1, Right2], Forest(Reps1, [Down0]))
  {
    var todo := [Down0, Right0, Down1, Right2];
    assert todo[1..] == [Right0, Down1, Right2];
    assert Find(Reps0, 0) == Ok(0) && Find(Reps0, 2) == Ok(2);
    assert Union(Reps0, 0, 2) == Reps1;
    assert [] + [Down0] == [Down0];
    assert Grow(4, todo, Forest(Reps0, [])) == Grow(4, todo[1..], Forest(Union(Reps0, 0, 2), [] + [Down0]));
  }

  /** The second edge finds vertex 0 under root 2 and joins it to root 1. */
  lemma GrowSecond()
    ensures Grow(4, [Right0, Down1, Right2], Forest(Reps1, [Down0]))
         == Grow(4, [Down1, Right2], Forest(Reps2, [Down0, Right0]))
  {
    var todo := [Right0, Down1, Right2];
    assert todo[1..] == [Down1, Right2];
    assert Find(Reps1, 0) == FindFuel(Reps1, 2, 3) == Ok(2);
    assert Find(Reps1, 1) == Ok(1);
    assert Union(Reps1, 2, 1) == Reps2;
    assert [Down0] + [Right0] == [Down0, Right0];
    assert Grow(4, todo, Forest(Reps1, [Down0])) == Grow(4, todo[1..], Forest(Union(Reps1, 2, 1), [Down0] + [Right0]));
  }

  /** The third edge joins roots 1 and 3, and the tree is then complete. */
  lemma GrowThird()
    ensures Grow(4, [Down1, Right2], Forest(Reps2, [Down0, Right0]))
         == Ok(Forest(Reps3, [Down0, Right0, Down1]))
  {
    var todo := [Down1, Right2];
    assert todo[1..] == [Right2];
    assert Find(Reps2, 1) == Ok(1) && Find(Reps2, 3) == Ok(3);
    assert Union(Reps2, 1, 3) == Reps3;
    assert [Down0, Right0] + [Down1] == [Down0, Right0, Down1];
    assert Grow(4, todo, Forest(Reps2, [Down0, Right0])) == Grow(4, todo[1..], Forest(Union(Reps2, 1, 3), [Down0, Right0] + [Down1]));
    assert Grow(4, [Right2], Forest(Reps3, [Down0, Right0, Down1])) == Ok(Forest(Reps3, [Down0, Right0, Down1]));
  }

  /**
   * `spanningTree`: the first three edges join four different roots in turn,
   * and the tree is complete before the last edge is looked at.
   */
  lemma ExampleTree()
    ensures SpanningTree(4, [Down0, Right0, Down1, Right2]) == Ok(Forest(Reps3, [Down0, Right0, Down1]))
  {
    ExampleSort();
    FourSingletons();
    GrowFirst();
    GrowSecond();
    GrowThird();
  }

  // ---------------------------------------------------------------------------
  // The maze and its searches

  /** The board `new Maze(2, 2, rand)` builds with these weights. */
  predicate IsExampleBoard(b: Board)
  {
    && b.width == 2 && b.height == 2
    && b.edges == [Down0, Right0, Down1, Right2]
    && b.tree == [Down0, Right0, Down1]
  }

  /** The board `new Maze(2, 2, rand)` builds with these weights, wall flags included. */
  function ExampleBoard(): (b: Board)
    ensures IsExampleBoard(b)
  {
    Board(2, 2, [Down0, Right0, Down1, Right2], Reps3, [Down0, Right0, Down1],
      OpeningsOf(2, 4, [Down0, Right0, Down1, Right2], [Down0, Right0, Down1]))
  }

  /** The maze as the constructor leaves it. */
  function Fresh(): (m: Maze)
    ensures Initial(m)
  {
    Maze(ExampleBoard(), Manual, 0, false, false, [], [0], map[], [], {}, {})
  }

  /** The constructor: the edges and tree above, in the initial state. */
  lemma ExampleMaze()
    ensures NewMaze(2, 2, Weights) == Ok(Fresh())
  {
    ExampleEdges();
    ExampleTree();
  }

  /** Each vertex's edge list: the candidate edges touching it, in creation order. */
  lemma ExampleIncident(v: nat)
    ensures v == 0 ==> Incident([Down0, Right0, Down1, Right2], v) == [Down0, Right0]
    ensures v == 1 ==> Incident([Down0, Right0, Down1, Right2], v) == [Right0, Down1]
    ensures v == 2 ==> Incident([Down0, Right0, Down1, Right2], v) == [Down0, Right2]
    ensures v == 3 ==> Incident([Down0, Right0, Down1, Right2], v) == [Down1, Right2]
  {
    var es := [Down0, Right0, Down1, Right2];
    assert es[1..] == [Right0, Down1, Right2];
    assert es[1..][1..] == [Down1, Right2];
    assert es[1..][1..][1..] == [Right2];
    assert es[1..][1..][1..][1..] == [];
    var i3 := Incident([Right2], v);
    var i2 := Incident([Down1, Right2], v);
    var i1 := Incident([Right0, Down1, Right2], v);
    assert i3 == (if v == 2 || v == 3 then [Right2] else []);
    assert i2 == (if v == 1 || v == 3 then [Down1] else []) + i3;
    assert i1 == (if v == 0 || v == 1 then [Right0] else []) + i2;
    assert Incident(es, v) == (if v == 0 || v == 2 then [Down0] else []) + i1;
  }

  /** `onTick` `n` times, as long as no tick throws. */
  function Ticks(m: Maze, n: nat): Result<Maze, Exception>
    decreases n
  {
    if n == 0 then Ok(m)
    else match OnTick(m)
      case Err(x) => Err(x)
      case Ok(m') => Ticks(m', n - 1)
  }

  /** Breadth-first, tick 1: vertex 0 is expanded and its tree neighbours 2 and 1 queued. */
  lemma BreadthTick1(b: Board)
    requires IsExampleBoard(b)
    ensures OnTick(Maze(b, Breadth, 0, true, false, [], [0], map[], [], {}, {}))
         == Ok(Maze(b, Breadth, 0, true, false, [0], [2, 1], map[2 := Down0, 1 := Right0], [], {0}, {}))
  {
    var m := Maze(b, Breadth, 0, true, false, [], [0], map[], [], {}, {});
    ExampleIncident(0);
    BreadthExpand1(m);
    assert m.frontier[1..] == [] && [] + [0] == [0] && {} + {0} == {0};
  }

  lemma BreadthExpand1(m: Maze)
    requires IsExampleBoard(m.board) && m.mode == Breadth && m.expanded == []
    ensures Expand(m, 0, [Down0, Right0], [], map[]) == ([2, 1], map[2 := Down0, 1 := Right0])
  {
    var inc := [Down0, Right0];
    assert inc[1..] == [Right0] && inc[1..][1..] == [];
    assert Expand(m, 0, inc[1..][1..], [2, 1], map[2 := Down0, 1 := Right0]) == ([2, 1], map[2 := Down0, 1 := Right0]);
    assert Right0 in m.board.tree && Other(Right0, 0) == 1 && 1 !in m.expanded;
    assert [2] + [1] == [2, 1];
    assert Expand(m, 0, inc[1..], [2], map[2 := Down0]) == Expand(m, 0, inc[1..][1..], [2] + [1], map[2 := Down0][1 := Right0]);
    assert Down0 in m.board.tree && Other(Down0, 0) == 2 && 2 !in m.expanded;
    assert [] + [2] == [2];
    assert Expand(m, 0, inc, [], map[]) == Expand(m, 0, inc[1..], [] + [2], map[][2 := Down0]);
  }

  /** Breadth-first, tick 2: vertex 2 is expanded and queues 0 again, already expanded. */
  lemma BreadthTick2(b: Board)
    requires IsExampleBoard(b)
    ensures OnTick(Maze(b, Breadth, 0, true, false, [0], [2, 1], map[2 := Down0, 1 := Right0], [], {0}, {}))
         == Ok(Maze(b, Breadth, 0, true, false, [0, 2], [1, 0], map[2 := Down0, 1 := Right0], [], {0, 2}, {}))
  {
    var m := Maze(b, Breadth, 0, true, false, [0], [2, 1], map[2 := Down0, 1 := Right0], [], {0}, {});
    ExampleIncident(2);
    BreadthExpand2(m);
    assert m.frontier[1..] == [1] && [0] + [2] == [0, 2] && {0} + {2} == {0, 2};
  }

  lemma BreadthExpand2(m: Maze)
    requires IsExampleBoard(m.board) && m.mode == Breadth && m.expanded == [0]
    ensures Expand(m, 2, [Down0, Right2], [1], map[2 := Down0, 1 := Right0]) == ([1, 0], map[2 := Down0, 1 := Right0])
  {
    var inc := [Down0, Right2];
    var cf := map[2 := Down0, 1 := Right0];
    assert inc[1..] == [Right2] && inc[1..][1..] == [];
    assert Expand(m, 2, inc[1..][1..], [1, 0], cf) == ([1, 0], cf);
    assert Right2 !in m.board.tree;
    assert Expand(m, 2, inc[1..], [1, 0], cf) == Expand(m, 2, inc[1..][1..], [1, 0], cf);
    assert Down0 in m.board.tree && Other(Down0, 2) == 0 && 0 in m.expanded;
    assert [1] + [0] == [1, 0];
    assert Expand(m, 2, inc, [1], cf) == Expand(m, 2, inc[1..], [1] + [0], cf);
  }

  /** Breadth-first, tick 3: vertex 1 is expanded, queueing 0 once more and the goal 3 by the edge down from 1. */
  lemma BreadthTick3(b: Board)
    requires IsExampleBoard(b)
    ensures OnTick(Maze(b, Breadth, 0, true, false, [0, 2], [1, 0], map[2 := Down0, 1 := Right0], [], {0, 2}, {}))
         == Ok(Maze(b, Breadth, 0, true, false, [0, 2, 1], [0, 0, 3], map[2 := Down0, 1 := Right0, 3 := Down1], [], {0, 2, 1}, {}))
  {
    var m := Maze(b, Breadth, 0, true, false, [0, 2], [1, 0], map[2 := Down0, 1 := Right0], [], {0, 2}, {});
    ExampleIncident(1);
    BreadthExpand3(m);
    assert m.frontier[1..] == [0] && [0, 2] + [1] == [0, 2, 1] && {0, 2} + {1} == {0, 2, 1};
  }

  lemma BreadthExpand3(m: Maze)
    requires IsExampleBoard(m.board) && m.mode == Breadth && m.expanded == [0, 2]
    ensures Expand(m, 1, [Right0, Down1], [0], map[2 := Down0, 1 := Right0])
         == ([0, 0, 3], map[2 := Down0, 1 := Right0, 3 := Down1])
  {
    var inc := [Right0, Down1];
    var cf := map[2 := Down0, 1 := Right0];
    var cf' := map[2 := Down0, 1 := Right0, 3 := Down1];
    assert inc[1..] == [Down1] && inc[1..][1..] == [];
    assert Expand(m, 1, inc[1..][1..], [0, 0, 3], cf') == ([0, 0, 3], cf');
    assert Down1 in m.board.tree && Other(Down1, 1) == 3 && 3 !in m.expanded;
    assert [0, 0] + [3] == [0, 0, 3];
    assert Expand(m, 1, inc[1..], [0, 0], cf) == Expand(m, 1, inc[1..][1..], [0, 0] + [3], cf[3 := Down1]);
    assert Right0 in m.board.tree && Other(Right0, 1) == 0 && 0 in m.expanded;
    assert [0] + [0] == [0, 0];
    assert Expand(m, 1, inc, [0], cf) == Expand(m, 1, inc[1..], [0] + [0], cf);
  }

  /** Breadth-first, ticks 4 to 6: the two copies of 0 are dropped, then the goal is popped. */
  lemma BreadthTicks4To6(b: Board)
    requires IsExampleBoard(b)
    ensures var cf := map[2 := Down0, 1 := Right0, 3 := Down1];
      && OnTick(Maze(b, Breadth, 0, true, false, [0, 2, 1], [0, 0, 3], cf, [], {0, 2, 1}, {}))
         == Ok(Maze(b, Breadth, 0, true, false, [0, 2, 1], [0, 3], cf, [], {0, 2, 1}, {}))
      && OnTick(Maze(b, Breadth, 0, true, false, [0, 2, 1], [0, 3], cf, [], {0, 2, 1}, {}))
         == Ok(Maze(b, Breadth, 0, true, false, [0, 2, 1], [3], cf, [], {0, 2, 1}, {}))
      && OnTick(Maze(b, Breadth, 0, true, false, [0, 2, 1], [3], cf, [], {0, 2, 1}, {}))
         == Ok(Maze(b, Breadth, 0, false, true, [0, 2, 1], [], cf, [], {0, 2, 1}, {}))
  {
    assert [0, 0, 3][1..] == [0, 3] && [0, 3][1..] == [3] && [3][1..] == [];
  }

  /** `reconstruct` from the goal: 3 was entered from 1, and 1 from the start. */
  lemma ExampleReconstruct(m: Maze)
    requires IsExampleBoard(m.board) && m.path == []
    requires m.cameFrom == map[2 := Down0, 1 := Right0, 3 := Down1]
    ensures Reconstruct(m) == Ok(m.(path := [0, 1, 3]))
  {
    assert Goal(m) == 3;
    assert Other(Down1, 3) == 1 && Other(Right0, 1) == 0;
    assert Chain(m.cameFrom, 1, 3) == Ok([0, 1]);
    assert Chain(m.cameFrom, 3, 4) == Ok([0, 1] + [3]);
    assert [0, 1] + [3] + [] == [0, 1, 3];
  }

  /** Depth-first, tick 1: vertex 0 is expanded and its tree neighbours pushed, 1 on top. */
  lemma DepthTick1(b: Board)
    requires IsExampleBoard(b)
    ensures OnTick(Maze(b, Depth, 0, true, false, [], [0], map[], [], {}, {}))
         == Ok(Maze(b, Depth, 0, true, false, [0], [1, 2], map[2 := Down0, 1 := Right0], [], {0}, {}))
  {
    var m := Maze(b, Depth, 0, true, false, [], [0], map[], [], {}, {});
    ExampleIncident(0);
    DepthExpand1(m);
    assert m.frontier[1..] == [] && [] + [0] == [0] && {} + {0} == {0};
  }

  lemma DepthExpand1(m: Maze)
    requires IsExampleBoard(m.board) && m.mode == Depth && m.expanded == []
    ensures Expand(m, 0, [Down0, Right0], [], map[]) == ([1, 2], map[2 := Down0, 1 := Right0])
  {
    var inc := [Down0, Right0];
    assert inc[1..] == [Right0] && inc[1..][1..] == [];
    assert Expand(m, 0, inc[1..][1..], [1, 2], map[2 := Down0, 1 := Right0]) == ([1, 2], map[2 := Down0, 1 := Right0]);
    assert Right0 in m.board.tree && Other(Right0, 0) == 1 && 1 !in m.expanded;
    assert [1] + [2] == [1, 2];
    assert Expand(m, 0, inc[1..], [2], map[2 := Down0]) == Expand(m, 0, inc[1..][1..], [1] + [2], map[2 := Down0][1 := Right0]);
    assert Down0 in m.board.tree && Other(Down0, 0) == 2 && 2 !in m.expanded;
    assert [2] + [] == [2];
    assert Expand(m, 0, inc, [], map[]) == Expand(m, 0, inc[1..], [2] + [], map[][2 := Down0]);
  }

  /** Depth-first, tick 2: vertex 1 is expanded and pushes 0, then the goal 3 on top. */
  lemma DepthTick2(b: Board)
    requires IsExampleBoard(b)
    ensures OnTick(Maze(b, Depth, 0, true, false, [0], [1, 2], map[2 := Down0, 1 := Right0], [], {0}, {}))
         == Ok(Maze(b, Depth, 0, true, false, [0, 1], [3, 0, 2], map[2 := Down0, 1 := Right0, 3 := Down1], [], {0, 1}, {}))
  {
    var m := Maze(b, Depth, 0, true, false, [0], [1, 2], map[2 := Down0, 1 := Right0], [], {0}, {});
    ExampleIncident(1);
    DepthExpand2(m);
    assert m.frontier[1..] == [2] && [0] + [1] == [0, 1] && {0} + {1} == {0, 1};
  }

  lemma DepthExpand2(m: Maze)
    requires IsExampleBoard(m.board) && m.mode == Depth && m.expanded == [0]
    ensures Expand(m, 1, [Right0, Down1], [2], map[2 := Down0, 1 := Right0])
         == ([3, 0, 2], map[2 := Down0, 1 := Right0, 3 := Down1])
  {
    var inc := [Right0, Down1];
    var cf := map[2 := Down0, 1 := Right0];
    var cf' := map[2 := Down0, 1 := Right0, 3 := Down1];
    assert inc[1..] == [Down1] && inc[1..][1..] == [];
    assert Expand(m, 1, inc[1..][1..], [3, 0, 2], cf') == ([3, 0, 2], cf');
    assert Down1 in m.board.tree && Other(Down1, 1) == 3 && 3 !in m.expanded;
    assert [3] + [0, 2] == [3, 0, 2];
    assert Expand(m, 1, inc[1..], [0, 2], cf) == Expand(m, 1, inc[1..][1..], [3] + [0, 2], cf[3 := Down1]);
    assert Right0 in m.board.tree && Other(Right0, 1) == 0 && 0 in m.expanded;
    assert [0] + [2] == [0, 2];
    assert Expand(m, 1, inc, [2], cf) == Expand(m, 1, inc[1..], [0] + [2], cf);
  }

  /** Depth-first, tick 3: the goal is on top of the stack and is popped. */
  lemma DepthTick3(b: Board)
    requires IsExampleBoard(b)
    ensures var cf := map[2 := Down0, 1 := Right0, 3 := Down1];
      OnTick(Maze(b, Depth, 0, true, false, [0, 1], [3, 0, 2], cf, [], {0, 1}, {}))
      == Ok(Maze(b, Depth, 0, false, true, [0, 1], [0, 2], cf, [], {0, 1}, {}))
  {
    assert [3, 0, 2][1..] == [0, 2];
  }

  // ---------------------------------------------------------------------------
  // `testReconstruct`

  /** Key `1` on a fresh two-by-two maze starts the breadth-first search, `2` the depth-first one. */
  lemma ExampleStart(m: Maze, k: Key)
    requires Initial(m) && m.board.width == 2 && m.board.height == 2
    requires k == One || k == Two
    ensures OnKeyEvent(m, k, Weights)
         == Ok(Maze(m.board, if k == One then Breadth else Depth, 0, true, false, [], [0], map[], [], {}, {}))
  {
  }

  /** A run of states each of which `onTick` turns into the next. */
  predicate IsTrace(states: seq<Maze>)
    decreases |states|
  {
    |states| <= 1 || (OnTick(states[0]) == Ok(states[1]) && IsTrace(states[1..]))
  }

  /** Along a trace, `k` ticks from its first state reach its `k`-th. */
  lemma {:induction false} TraceTicks(states: seq<Maze>)
    requires |states| > 0 && IsTrace(states)
    ensures forall k :: 0 <= k < |states| ==> Ticks(states[0], k) == Ok(states[k])
    decreases |states|
  {
    if |states| > 1 {
      var rest := states[1..];
      TraceTicks(rest);
      forall k | 0 < k < |states|
        ensures Ticks(states[0], k) == Ok(states[k])
      {
        assert Ticks(rest[0], k - 1) == Ok(rest[k - 1]);
      }
    }
  }

  /** A tick in front of a trace extends it. */
  lemma TraceCons(states: seq<Maze>, k: nat)
    requires k < |states| - 1 && OnTick(states[k]) == Ok(states[k + 1])
    requires IsTrace(states[k + 1..])
    ensures IsTrace(states[k..])
  {
    assert states[k..][1..] == states[k + 1..];
  }

  /** The states of the breadth-first search on the example board, tick by tick. */
  function BreadthStates(b: Board): seq<Maze>
  {
    var cf1 := map[2 := Down0, 1 := Right0];
    var cf2 := map[2 := Down0, 1 := Right0, 3 := Down1];
    [ Maze(b, Breadth, 0, true, false, [], [0], map[], [], {}, {}),
      Maze(b, Breadth, 0, true, false, [0], [2, 1], cf1, [], {0}, {}),
      Maze(b, Breadth, 0, true, false, [0, 2], [1, 0], cf1, [], {0, 2}, {}),
      Maze(b, Breadth, 0, true, false, [0, 2, 1], [0, 0, 3], cf2, [], {0, 2, 1}, {}),
      Maze(b, Breadth, 0, true, false, [0, 2, 1], [0, 3], cf2, [], {0, 2, 1}, {}),
      Maze(b, Breadth, 0, true, false, [0, 2, 1], [3], cf2, [], {0, 2, 1}, {}),
      Maze(b, Breadth, 0, false, true, [0, 2, 1], [], cf2, [], {0, 2, 1}, {}) ]
  }

  /** The breadth-first states from the third on form a trace: 0 is dropped twice, then 3 popped. */
  lemma BreadthTrace3(b: Board)
    requires IsExampleBoard(b)
    ensures IsTrace(BreadthStates(b)[3..])
  {
    var s := BreadthStates(b);
    BreadthTicks4To6(b);
    assert IsTrace(s[6..]);
    TraceCons(s, 5);
    TraceCons(s, 4);
    TraceCons(s, 3);
  }

  lemma BreadthTrace2(b: Board)
    requires IsExampleBoard(b)
    ensures IsTrace(BreadthStates(b)[2..])
  {
    BreadthTick3(b);
    BreadthTrace3(b);
    TraceCons(BreadthStates(b), 2);
  }

  lemma BreadthTrace1(b: Board)
    requires IsExampleBoard(b)
    ensures IsTrace(BreadthStates(b)[1..])
  {
    BreadthTick2(b);
    BreadthTrace2(b);
    TraceCons(BreadthStates(b), 1);
  }

  /** The breadth-first states form a trace. */
  lemma BreadthTrace(b: Board)
    requires IsExampleBoard(b)
    ensures IsTrace(BreadthStates(b))
  {
    BreadthTick1(b);
    BreadthTrace1(b);
  }

  /**
   * The breadth-first run on the example board: six ticks, of which only the
   * last solves the maze, with vertex 2 seen on the way; `reconstruct` then
   * gives the path 0, 1, 3.
   */
  lemma BreadthRun(b: Board)
    requires IsExampleBoard(b)
    ensures var s := BreadthStates(b);
      && |s| == 7 && IsTrace(s)
      && (forall k :: 0 <= k < 6 ==> !s[k].solved) && s[6].solved
      && 2 in s[6].seen
      && Reconstruct(s[6]) == Ok(s[6].(path := [0, 1, 3]))
  {
    BreadthTrace(b);
    BreadthUnsolved(b);
    ExampleReconstruct(BreadthStates(b)[6]);
  }

  /** No breadth-first state before the last is solved. */
  lemma BreadthUnsolved(b: Board)
    ensures forall k :: 0 <= k < 6 ==> !BreadthStates(b)[k].solved
  {
  }

  /**
   * `testReconstruct` with key `1`: the search the key starts runs through the
   * breadth-first states, the first state solved is the last, and
   * `reconstruct` gives the path 0, 1, 3.
   */
  lemma BreadthFirstExample()
    ensures var s := BreadthStates(ExampleBoard());
      && OnKeyEvent(Fresh(), One, Weights) == Ok(s[0])
      && IsTrace(s) && s[6].solved && (forall k :: 0 <= k < 6 ==> !s[k].solved)
      && Reconstruct(s[6]).Ok? && Reconstruct(s[6]).value.path == [0, 1, 3]
  {
    ExampleStart(Fresh(), One);
    BreadthRun(ExampleBoard());
  }

  /** The states of the depth-first search on the example board, tick by tick. */
  function DepthStates(b: Board): seq<Maze>
  {
    var cf1 := map[2 := Down0, 1 := Right0];
    var cf2 := map[2 := Down0, 1 := Right0, 3 := Down1];
    [ Maze(b, Depth, 0, true, false, [], [0], map[], [], {}, {}),
      Maze(b, Depth, 0, true, false, [0], [1, 2], cf1, [], {0}, {}),
      Maze(b, Depth, 0, true, false, [0, 1], [3, 0, 2], cf2, [], {0, 1}, {}),
      Maze(b, Depth, 0, false, true, [0, 1], [0, 2], cf2, [], {0, 1}, {}) ]
  }

  /** The depth-first states form a trace. */
  lemma DepthTrace(b: Board)
    requires IsExampleBoard(b)
    ensures IsTrace(DepthStates(b))
  {
    var s := DepthStates(b);
    DepthTick3(b);
    assert IsTrace(s[3..]);
    TraceCons(s, 2);
    DepthTick2(b);
    TraceCons(s, 1);
    DepthTick1(b);
  }

  /** The depth-first run on the example board: three ticks, only the last solving the maze. */
  lemma DepthRun(b: Board)
    requires IsExampleBoard(b)
    ensures var s := DepthStates(b);
      && |s| == 4 && IsTrace(s)
      && (forall k :: 0 <= k < 3 ==> !s[k].solved) && s[3].solved
      && Reconstruct(s[3]) == Ok(s[3].(path := [0, 1, 3]))
  {
    DepthTrace(b);
    ExampleReconstruct(DepthStates(b)[3]);
  }

  /**
   * `testReconstruct` with key `2`: three ticks, of which only the last solves
   * the maze, and `reconstruct` gives the same path 0, 1, 3.
   */
  lemma DepthFirstExample()
    ensures var s := DepthStates(ExampleBoard());
      && OnKeyEvent(Fresh(), Two, Weights) == Ok(s[0])
      && IsTrace(s) && s[3].solved && (forall k :: 0 <= k < 3 ==> !s[k].solved)
      && Reconstruct(s[3]).Ok? && Reconstruct(s[3]).value.path == [0, 1, 3]
  {
    ExampleStart(Fresh(), Two);
    DepthRun(ExampleBoard());
  }
}

=== FILE: grid.dfy ===
/**
 * The maze's candidate graph: a `w` by `h` grid of vertices numbered row-major
 * (vertex `i` sits in column `i % w`, row `i / w`), and the edges `createNodes`
 * builds between horizontally and vertically adjacent vertices.  Edges hold
 * vertex indices instead of the object references of the Java program, and the
 * weights `java.util.Random.nextInt(30)` would draw are passed in as a sequence.
 */
module Grid {
  import opened Wrappers
  import opened JavaLang

  /** An undirected edge between two vertices, with its random weight. */
  datatype Edge = Edge(from: nat, to: nat, weight: int)

  function Col(v: nat, w: nat): nat
    requires w >= 1
  {
    v % w
  }

  function Row(v: nat, w: nat): nat
    requires w >= 1
  {
    v / w
  }

  /** Number of edges of a `w` by `h` grid: horizontal ones plus vertical ones. */
  function EdgeCount(w: nat, h: nat): nat
    requires w >= 1 && h >= 1
  {
    (w - 1) * h + w * (h - 1)
  }

  /** The edge from `e.from` to the vertex directly below it. */
  predicate IsDown(w: nat, h: nat, e: Edge)
    requires w >= 1 && h >= 1
  {
    e.from < w * (h - 1) && e.to == e.from + w
  }

  /** The edge from `e.from` to the vertex directly right of it, in the same row. */
  predicate IsRight(w: nat, h: nat, e: Edge)
    requires w >= 1 && h >= 1
  {
    e.from < w * h && e.from % w < w - 1 && e.to == e.from + 1
  }

  predicate IsGridEdge(w: nat, h: nat, e: Edge)
    requires w >= 1 && h >= 1
  {
    IsDown(w, h, e) || IsRight(w, h, e)
  }

  /** `es` holds the edge from `v` down to `v + w`. */
  predicate HasDown(es: seq<Edge>, w: nat, v: nat)
  {
    exists j :: 0 <= j < |es| && es[j].from == v && es[j].to == v + w
  }

  /** `es` holds the edge from `v` right to `v + 1`. */
  predicate HasRight(es: seq<Edge>, v: nat)
  {
    exists j :: 0 <= j < |es| && es[j].from == v && es[j].to == v + 1
  }

  /**
   * Edges listed by increasing `from`, and for one `from` the downward edge
   * before the rightward one; so no edge is listed twice.
   */
  predicate CreationOrdered(es: seq<Edge>)
  {
    forall j, l :: 0 <= j < l < |es| ==>
      es[j].from < es[l].from || (es[j].from == es[l].from && es[j].to > es[l].to)
  }

  // The second loop of `createNodes` runs over the vertices `i < n`, `n == w * h`,
  // with the last row starting at vertex `last == w * (h - 1)` and vertex `i`
  // in column `c == i % w`.  The functions below take `n`, `last` and `c` as
  // parameters, so that their recursion is free of multiplication and modulus.

  /** The column of the vertex after one in column `c`. */
  function NextColumn(w: nat, c: nat): nat
  {
    if c + 1 == w then 0 else c + 1
  }

  /**
   * How many edges vertex `i`, in column `c`, creates: one down unless it is
   * in the last row, one right unless it is in the last column.
   */
  function OwnCount(w: nat, last: nat, i: nat, c: nat): nat
  {
    (if i < last then 1 else 0) + (if c < w - 1 then 1 else 0)
  }

  /** How many edges the vertices `i`, `i + 1`, ..., `n - 1` create. */
  function Created(w: nat, n: nat, last: nat, i: nat, c: nat): nat
    decreases n - i
  {
    if i >= n then 0 else OwnCount(w, last, i, c) + Created(w, n, last, i + 1, NextColumn(w, c))
  }

  /**
   * The edges vertex `i` creates in the body of `createNodes`' second loop:
   * first the one down to `i + w` (when `i` is not in the last row), then the
   * one right to `i + 1` (when it is not in the last column), each taking the
   * next weight from the `k`-th on.
   */
  function OwnEdges(w: nat, last: nat, weights: seq<int>, i: nat, c: nat, k: nat): (a: seq<Edge>)
    requires k + OwnCount(w, last, i, c) <= |weights|
    ensures |a| == OwnCount(w, last, i, c)
  {
    var down := if i < last then [Edge(i, i + w, weights[k])] else [];
    var right := if c < w - 1 then [Edge(i, i + 1, weights[k + |down|])] else [];
    down + right
  }

  /** Vertex `i`'s own edges all start at `i`. */
  lemma OwnEdgesFrom(w: nat, last: nat, weights: seq<int>, i: nat, c: nat, k: nat)
    requires k + OwnCount(w, last, i, c) <= |weights|
    ensures var a := OwnEdges(w, last, weights, i, c, k);
      forall j :: 0 <= j < |a| ==> a[j].from == i
  {
  }

  /** Vertex `i`'s own edges take the weights from the `k`-th on, in order. */
  lemma OwnEdgesWeights(w: nat, last: nat, weights: seq<int>, i: nat, c: nat, k: nat)
    requires k + OwnCount(w, last, i, c) <= |weights|
    ensures var a := OwnEdges(w, last, weights, i, c, k);
      forall j :: 0 <= j < |a| ==> a[j].weight == weights[k + j]
  {
  }

  /** Vertex `i`'s own edges lead to the vertex below and the one to the right. */
  lemma OwnEdgesLinks(w: nat, n: nat, last: nat, weights: seq<int>, i: nat, c: nat, k: nat)
    requires w >= 1 && i < n && c == Column(w, i)
    requires k + OwnCount(w, last, i, c) <= |weights|
    ensures var a := OwnEdges(w, last, weights, i, c, k);
      forall j :: 0 <= j < |a| ==> Link(w, n, last, a[j])
  {
  }

  /** Vertex `i`'s down edge comes before its right edge. */
  lemma OwnEdgesOrdered(w: nat, last: nat, weights: seq<int>, i: nat, c: nat, k: nat)
    requires k + OwnCount(w, last, i, c) <= |weights|
    ensures CreationOrdered(OwnEdges(w, last, weights, i, c, k))
  {
  }

  /** Vertex `i` creates its down edge unless it is in the last row. */
  lemma OwnEdgesDown(w: nat, last: nat, weights: seq<int>, i: nat, c: nat, k: nat)
    requires k + OwnCount(w, last, i, c) <= |weights|
    ensures i < last ==> HasDown(OwnEdges(w, last, weights, i, c, k), w, i)
  {
    if i < last {
      assert OwnEdges(w, last, weights, i, c, k)[0] == Edge(i, i + w, weights[k]);
    }
  }

  /** Vertex `i` creates its right edge unless it is in the last column. */
  lemma OwnEdgesRight(w: nat, last: nat, weights: seq<int>, i: nat, c: nat, k: nat)
    requires k + OwnCount(w, last, i, c) <= |weights|
    ensures c < w - 1 ==> HasRight(OwnEdges(w, last, weights, i, c, k), i)
  {
    var a := OwnEdges(w, last, weights, i, c, k);
    if c < w - 1 {
      assert a[|a| - 1] == Edge(i, i + 1, weights[k + |a| - 1]);
    }
  }

  /**
   * The body of `createNodes`' second loop from vertex `i` on, `k` counting
   * the weights already drawn: vertex `i`'s own edges, then those of the
   * vertices after it.
   */
  function EdgesFrom(w: nat, n: nat, last: nat, weights: seq<int>, i: nat, c: nat, k: nat): (es: seq<Edge>)
    requires k + Created(w, n, last, i, c) <= |weights|
    ensures |es| == Created(w, n, last, i, c)
    decreases n - i
  {
    if i >= n then []
    else
      var a := OwnEdges(w, last, weights, i, c, k);
      var rest := EdgesFrom(w, n, last, weights, i + 1, NextColumn(w, c), k + |a|);
      a + rest
  }

  /**
   * `createNodes`: the candidate edges of a `w` by `h` maze in creation order,
   * the `j`-th taking the `j`-th weight.
   */
  function CreateEdges(w: nat, h: nat, weights: seq<int>): (es: seq<Edge>)
    requires w >= 1 && h >= 1
    requires |weights| >= EdgeCount(w, h)
    ensures |es| == EdgeCount(w, h)
    ensures forall j :: 0 <= j < |es| ==> es[j].weight == weights[j]
  {
    CreatedCount(w, h);
    EdgesFromWeights(w, w * h, w * (h - 1), weights, 0, 0, 0);
    EdgesFrom(w, w * h, w * (h - 1), weights, 0, 0, 0)
  }

  /**
   * What `createNodes` builds: only grid edges, each one once, and every pair
   * of vertically or horizontally adjacent vertices joined.
   */
  lemma CreateEdgesShape(w: nat, h: nat, weights: seq<int>)
    requires w >= 1 && h >= 1
    requires |weights| >= EdgeCount(w, h)
    ensures var es := CreateEdges(w, h, weights);
      && (forall j :: 0 <= j < |es| ==> IsGridEdge(w, h, es[j]))
      && (forall j, l :: 0 <= j < l < |es| ==> es[j] != es[l])
      && (forall v: nat :: v < w * (h - 1) ==> HasDown(es, w, v))
      && (forall v: nat :: v < w * h && v % w < w - 1 ==> HasRight(es, v))
  {
    CreatedCount(w, h);
    var n, last := w * h, w * (h - 1);
    var es := CreateEdges(w, h, weights);
    assert es == EdgesFrom(w, n, last, weights, 0, 0, 0);
    EdgesFromLinks(w, n, last, weights, 0, 0, 0);
    forall j | 0 <= j < |es|
      ensures IsGridEdge(w, h, es[j])
    {
      assert Link(w, n, last, es[j]);
      ColumnIsMod(w, es[j].from);
    }
    EdgesFromOrdered(w, n, last, weights, 0, 0, 0);
    forall j, l | 0 <= j < l < |es|
      ensures es[j] != es[l]
    {
      assert es[j].from != es[l].from || es[j].to != es[l].to;
    }
    EdgesFromDown(w, n, last, weights, 0, 0, 0);
    EdgesFromRight(w, n, last, weights, 0, 0, 0);
    forall v: nat | v < n && v % w < w - 1
      ensures HasRight(es, v)
    {
      ColumnIsMod(w, v);
    }
  }

  /** `EdgesFrom(.., i, c, k)` as vertex `i`'s own edges followed by the rest. */
  lemma EdgesFromUnfold(w: nat, n: nat, last: nat, weights: seq<int>, i: nat, c: nat, k: nat)
      returns (a: seq<Edge>, rest: seq<Edge>)
    requires i < n && k + Created(w, n, last, i, c) <= |weights|
    ensures k + OwnCount(w, last, i, c) <= |weights| && a == OwnEdges(w, last, weights, i, c, k)
    ensures k + |a| + Created(w, n, last, i + 1, NextColumn(w, c)) <= |weights|
    ensures rest == EdgesFrom(w, n, last, weights, i + 1, NextColumn(w, c), k + |a|)
    ensures EdgesFrom(w, n, last, weights, i, c, k) == a + rest
  {
    a := OwnEdges(w, last, weights, i, c, k);
    rest := EdgesFrom(w, n, last, weights, i + 1, NextColumn(w, c), k + |a|);
  }

  /** The edges created from vertex `i` on take the weights from the `k`-th on, in order. */
  lemma {:induction false} EdgesFromWeights(w: nat, n: nat, last: nat, weights: seq<int>, i: nat, c: nat, k: nat)
    requires k + Created(w, n, last, i, c) <= |weights|
    ensures var es := EdgesFrom(w, n, last, weights, i, c, k);
      forall j :: 0 <= j < |es| ==> es[j].weight == weights[k + j]
    ensures var es := EdgesFrom(w, n, last, weights, i, c, k);
      k == 0 ==> forall j :: 0 <= j < |es| ==> es[j].weight == weights[j]
    decreases n - i
  {
    if i < n {
      var a, rest := EdgesFromUnfold(w, n, last, weights, i, c, k);
      OwnEdgesWeights(w, last, weights, i, c, k);
      EdgesFromWeights(w, n, last, weights, i + 1, NextColumn(w, c), k + |a|);
      var es: seq<Edge> := a + rest;
      forall j | 0 <= j < |es|
        ensures es[j].weight == weights[k + j]
      {
        if j < |a| {
          assert es[j] == a[j];
        } else {
          assert es[j] == rest[j - |a|];
        }
      }
    }
  }

  /** The edges created from vertex `i` on all start at `i` or later. */
  lemma {:induction false} EdgesFromAfter(w: nat, n: nat, last: nat, weights: seq<int>, i: nat, c: nat, k: nat)
    requires k + Created(w, n, last, i, c) <= |weights|
    ensures var es := EdgesFrom(w, n, last, weights, i, c, k);
      forall j :: 0 <= j < |es| ==> i <= es[j].from
    decreases n - i
  {
    if i < n {
      var a, rest := EdgesFromUnfold(w, n, last, weights, i, c, k);
      OwnEdgesFrom(w, last, weights, i, c, k);
      EdgesFromAfter(w, n, last, weights, i + 1, NextColumn(w, c), k + |a|);
      var es: seq<Edge> := a + rest;
      assert forall j :: 0 <= j < |es| ==> i <= es[j].from;
    }
  }

  /**
   * `e` goes down from a vertex above the last row, or right from a vertex
   * left of the last column.
   */
  predicate Link(w: nat, n: nat, last: nat, e: Edge)
    requires w >= 1
  {
    || (e.from < last && e.to == e.from + w)
    || (e.from < n && Column(w, e.from) < w - 1 && e.to == e.from + 1)
  }

  /** Every edge created from vertex `i` on, in column `c`, is a `Link`. */
  lemma {:induction false} EdgesFromLinks(w: nat, n: nat, last: nat, weights: seq<int>, i: nat, c: nat, k: nat)
    requires w >= 1 && c == Column(w, i)
    requires k + Created(w, n, last, i, c) <= |weights|
    ensures var es := EdgesFrom(w, n, last, weights, i, c, k);
      forall j :: 0 <= j < |es| ==> Link(w, n, last, es[j])
    decreases n - i
  {
    if i < n {
      var a, rest := EdgesFromUnfold(w, n, last, weights, i, c, k);
      OwnEdgesLinks(w, n, last, weights, i, c, k);
      ColumnNext(w, i);
      EdgesFromLinks(w, n, last, weights, i + 1, NextColumn(w, c), k + |a|);
      var es: seq<Edge> := a + rest;
      forall j | 0 <= j < |es|
        ensures Link(w, n, last, es[j])
      {
        if j < |a| {
          assert es[j] == a[j];
        } else {
          assert es[j] == rest[j - |a|];
        }
      }
    }
  }

  lemma {:induction false} EdgesFromOrdered(w: nat, n: nat, last: nat, weights: seq<int>, i: nat, c: nat, k: nat)
    requires k + Created(w, n, last, i, c) <= |weights|
    ensures CreationOrdered(EdgesFrom(w, n, last, weights, i, c, k))
    decreases n - i
  {
    if i < n {
      var a, rest := EdgesFromUnfold(w, n, last, weights, i, c, k);
      OwnEdgesFrom(w, last, weights, i, c, k);
      OwnEdgesOrdered(w, last, weights, i, c, k);
      EdgesFromAfter(w, n, last, weights, i + 1, NextColumn(w, c), k + |a|);
      EdgesFromOrdered(w, n, last, weights, i + 1, NextColumn(w, c), k + |a|);
      OrderedAppend(a, rest, i + 1);
    }
  }

  /** An edge of either part is an edge of the whole. */
  lemma HasAppend(a: seq<Edge>, b: seq<Edge>, w: nat, v: nat)
    ensures HasDown(a, w, v) || HasDown(b, w, v) ==> HasDown(a + b, w, v)
    ensures HasRight(a, v) || HasRight(b, v) ==> HasRight(a + b, v)
  {
    var es := a + b;
    if HasDown(b, w, v) {
      var j :| 0 <= j < |b| && b[j].from == v && b[j].to == v + w;
      assert es[|a| + j] == b[j];
    }
    if HasRight(b, v) {
      var j :| 0 <= j < |b| && b[j].from == v && b[j].to == v + 1;
      assert es[|a| + j] == b[j];
    }
    if HasDown(a, w, v) {
      var j :| 0 <= j < |a| && a[j].from == v && a[j].to == v + w;
      assert es[j] == a[j];
    }
    if HasRight(a, v) {
      var j :| 0 <= j < |a| && a[j].from == v && a[j].to == v + 1;
      assert es[j] == a[j];
    }
  }

  /** Two ordered lists, the second's `from`s past the first's, concatenate to an ordered one. */
  lemma OrderedAppend(a: seq<Edge>, b: seq<Edge>, x: nat)
    requires CreationOrdered(a) && CreationOrdered(b)
    requires forall j :: 0 <= j < |a| ==> a[j].from < x
    requires forall l :: 0 <= l < |b| ==> x <= b[l].from
    ensures CreationOrdered(a + b)
  {
    var es := a + b;
    forall j, l | 0 <= j < l < |es|
      ensures es[j].from < es[l].from || (es[j].from == es[l].from && es[j].to > es[l].to)
    {
      if l < |a| {
        assert es[j] == a[j] && es[l] == a[l];
      } else if j < |a| {
        assert es[j] == a[j] && es[l] == b[l - |a|];
      } else {
        assert es[j] == b[j - |a|] && es[l] == b[l - |a|];
      }
    }
  }

  lemma {:induction false} EdgesFromDown(w: nat, n: nat, last: nat, weights: seq<int>, i: nat, c: nat, k: nat)
    requires k + Created(w, n, last, i, c) <= |weights|
    ensures var es := EdgesFrom(w, n, last, weights, i, c, k);
      forall v: nat :: i <= v < last && v < n ==> HasDown(es, w, v)
    decreases n - i
  {
    if i < n {
      var a, rest := EdgesFromUnfold(w, n, last, weights, i, c, k);
      OwnEdgesDown(w, last, weights, i, c, k);
      EdgesFromDown(w, n, last, weights, i + 1, NextColumn(w, c), k + |a|);
      forall v: nat | i <= v < last && v < n
        ensures HasDown(a + rest, w, v)
      {
        if v > i {
          assert HasDown(rest, w, v);
        }
        HasAppend(a, rest, w, v);
      }
    }
  }

  lemma {:induction false} EdgesFromRight(w: nat, n: nat, last: nat, weights: seq<int>, i: nat, c: nat, k: nat)
    requires w >= 1 && c == Column(w, i)
    requires k + Created(w, n, last, i, c) <= |weights|
    ensures var es := EdgesFrom(w, n, last, weights, i, c, k);
      forall v: nat :: i <= v < n && Column(w, v) < w - 1 ==> HasRight(es, v)
    decreases n - i
  {
    if i < n {
      var a, rest := EdgesFromUnfold(w, n, last, weights, i, c, k);
      OwnEdgesRight(w, last, weights, i, c, k);
      ColumnNext(w, i);
      EdgesFromRight(w, n, last, weights, i + 1, NextColumn(w, c), k + |a|);
      forall v: nat | i <= v < n && Column(w, v) < w - 1
        ensures HasRight(a + rest, v)
      {
        if v > i {
          assert HasRight(rest, v);
        }
        HasAppend(a, rest, w, v);
      }
    }
  }

  /** The column of vertex `v`, counted without division. */
  function Column(w: nat, v: nat): nat
    requires w >= 1
    decreases v
  {
    if v < w then v else Column(w, v - w)
  }

  /** The column of vertex `v + 1` follows from that of vertex `v`. */
  lemma {:induction false} ColumnNext(w: nat, v: nat)
    requires w >= 1
    ensures Column(w, v) < w
    ensures Column(w, v + 1) == NextColumn(w, Column(w, v))
    decreases v
  {
    if v >= w {
      ColumnNext(w, v - w);
    }
  }

  /** `Column` is the remainder the source computes with `%`. */
  lemma {:induction false} ColumnIsMod(w: nat, v: nat)
    requires w >= 1
    ensures Column(w, v) == v % w
    decreases v
  {
    if v >= w {
      ColumnIsMod(w, v - w);
      DivUnique(v, w, (v - w) / w + 1, (v - w) % w);
    } else {
      DivUnique(v, w, 0, v);
    }
  }

  /** `es` is a list `createNodes` can produce for a `w` by `h` maze, whatever the draws. */
  ghost predicate IsCandidateList(w: nat, h: nat, es: seq<Edge>)
  {
    && w >= 1 && h >= 1
    && exists weights: seq<int> :: |weights| >= EdgeCount(w, h) && es == CreateEdges(w, h, weights)
  }

  // ---------------------------------------------------------------------------
  // Counting the created edges

  lemma MulAtLeast(a: int, w: int)
    requires a >= 1 && w >= 1
    ensures a * w >= w
  {
    if a > 1 {
      MulAtLeast(a - 1, w);
      assert a * w == (a - 1) * w + w;
    }
  }

  lemma Distrib(a: int, b: int, w: int)
    ensures a * w - b * w == (a - b) * w
  {
  }

  /** Euclidean division is unique: `x == q * w + m` with `0 <= m < w` fixes both. */
  lemma DivUnique(x: int, w: int, q: int, m: int)
    requires w >= 1 && 0 <= m < w && x == q * w + m
    ensures x / w == q && x % w == m
  {
    var q0, m0 := x / w, x % w;
    assert x == q0 * w + m0;
    Distrib(q0, q, w);
    if q0 > q {
      MulAtLeast(q0 - q, w);
    } else if q0 < q {
      Distrib(q, q0, w);
      MulAtLeast(q - q0, w);
    }
  }

  /** Vertex `r * w + c` with `c < w` sits in row `r`, column `c`. */
  lemma RowColumn(w: nat, r: nat, c: nat)
    requires w >= 1 && c < w
    ensures (r * w + c) % w == c && (r * w + c) / w == r
  {
    DivUnique(r * w + c, w, r, c);
  }

  lemma MulMono(a: nat, b: nat, w: nat)
    ensures a <= b ==> a * w <= b * w
  {
    Distrib(b, a, w);
  }

  /** Where vertex `r * w + c` of row `r < h` stands against the grid's bounds. */
  lemma RowBounds(w: nat, h: nat, r: nat, c: nat)
    requires w >= 1 && h >= 1 && r < h && c < w
    ensures r * w + c < w * h
    ensures r * w + c < w * (h - 1) <==> r < h - 1
  {
    var v := r * w + c;
    assert (r + 1) * w == r * w + w;
    MulMono(r + 1, h, w);
    if r < h - 1 {
      MulMono(r + 1, h - 1, w);
    } else {
      assert (h - 1) * w == r * w;
    }
  }

  /** A vertex of the grid lies in one of its `h` rows. */
  lemma RowInGrid(w: nat, h: nat, v: nat)
    requires w >= 1 && h >= 1 && v < w * h
    ensures v / w < h && v == (v / w) * w + v % w
  {
    MulMono(h, v / w, w);
  }

  /** Both endpoints of a grid edge are vertices of the grid. */
  lemma GridEdgeInRange(w: nat, h: nat, e: Edge)
    requires w >= 1 && h >= 1 && IsGridEdge(w, h, e)
    ensures e.from < w * h && e.to < w * h
  {
    if IsDown(w, h, e) {
      Distrib(h, h - 1, w);
    } else {
      var r, c := e.from / w, e.from % w;
      RowInGrid(w, h, e.from);
      RowBounds(w, h, r, c + 1);
    }
  }

  /** The vertices `r * w + c .. r * w + w - 1` of row `r` create their edges. */
  lemma {:induction false} CreatedRowPart(w: nat, h: nat, r: nat, c: nat)
    requires w >= 1 && h >= 1 && r < h && c < w
    ensures Created(w, w * h, w * (h - 1), r * w + c, c) ==
              (if r < h - 1 then w - c else 0) + (w - 1 - c)
              + Created(w, w * h, w * (h - 1), (r + 1) * w, 0)
    decreases w - c
  {
    RowBounds(w, h, r, c);
    if c + 1 < w {
      CreatedRowPart(w, h, r, c + 1);
    } else {
      assert r * w + c + 1 == (r + 1) * w;
    }
  }

  lemma {:induction false} CreatedRows(w: nat, h: nat, r: nat)
    requires w >= 1 && h >= 1 && r <= h
    ensures Created(w, w * h, w * (h - 1), r * w, 0) ==
              (if r < h then (h - 1 - r) * w else 0) + (h - r) * (w - 1)
    decreases h - r
  {
    if r < h {
      CreatedRowPart(w, h, r, 0);
      CreatedRows(w, h, r + 1);
      if r < h - 1 {
        assert (h - 1 - r) * w == w + (h - 1 - (r + 1)) * w;
      }
      assert (h - r) * (w - 1) == (w - 1) + (h - (r + 1)) * (w - 1);
    } else {
      assert r * w == w * h;
    }
  }

  /** `createNodes` creates exactly `(w - 1) * h + w * (h - 1)` edges. */
  lemma CreatedCount(w: nat, h: nat)
    requires w >= 1 && h >= 1
    ensures Created(w, w * h, w * (h - 1), 0, 0) == EdgeCount(w, h)
  {
    CreatedRows(w, h, 0);
    assert (h - 1) * w == w * (h - 1);
  }

  // ---------------------------------------------------------------------------
  // Edge and Vertex helpers

  /**
   * `Edge.getOther(v)`: the endpoint that is not `v`; for an edge not touching
   * `v` `getOther` answers `from`.
   */
  function Other(e: Edge, v: nat): nat
  {
    if v == e.from then e.to else e.from
  }

  /** `CompareEdges.compare`: the `int` difference of the weights. */
  function CompareEdges(e1: Edge, e2: Edge): (r: int)
    ensures 0 <= e1.weight < 30 && 0 <= e2.weight < 30 ==>
              (r < 0 <==> e1.weight < e2.weight) && (r == 0 <==> e1.weight == e2.weight)
  {
    Wrap32(e1.weight - e2.weight)
  }

  /**
   * A vertex's `edges` list: every edge touching `v`, in creation order, since
   * the `Edge` constructor registers itself with both of its endpoints.
   */
  function Incident(es: seq<Edge>, v: nat): (r: seq<Edge>)
    ensures forall e :: e in r <==> e in es && (e.from == v || e.to == v)
    ensures |r| <= |es|
  {
    if |es| == 0 then []
    else (if es[0].from == v || es[0].to == v then [es[0]] else []) + Incident(es[1..], v)
  }

  /**
   * `Vertex.getEdgeTo(u)` on the vertex `v` with edge list `inc`: the first
   * edge leading to `u`, else the first edge of the list, and an index error
   * when the list is empty.
   */
  function GetEdgeTo(inc: seq<Edge>, v: nat, u: nat): (r: Result<Edge, Exception>)
    ensures r.Err? <==> |inc| == 0
    ensures r.Ok? ==> r.value in inc
    ensures r.Ok? && (exists e :: e in inc && Other(e, v) == u) ==> Other(r.value, v) == u
    ensures r.Ok? && (forall e :: e in inc ==> Other(e, v) != u) ==> r.value == inc[0]
  {
    if |inc| == 0 then Err(IndexOutOfBounds)
    else match FirstLeadingTo(inc, v, u)
      case Some(e) => Ok(e)
      case None => Ok(inc[0])
  }

  function FirstLeadingTo(inc: seq<Edge>, v: nat, u: nat): (r: Option<Edge>)
    ensures r.Some? ==> r.value in inc && Other(r.value, v) == u
    ensures r.None? ==> forall e :: e in inc ==> Other(e, v) != u
  {
    if |inc| == 0 then None
    else if Other(inc[0], v) == u then Some(inc[0])
    else FirstLeadingTo(inc[1..], v, u)
  }
}

=== FILE: histogram.dfy ===
/**
 * `model.histogram.HistogramModel`: four lists of 256 counters (red, green,
 * blue, intensity) that `fillFrequencies` bumps once per pixel of the current
 * image, using each channel value as the list index.  Counts are never reset,
 * and a value outside 0..255 makes `ArrayList.get` throw part-way through,
 * keeping the increments made so far.
 */
module Histograms {
  import opened Wrappers
  import opened JavaLang
  import opened Pixels
  import opened Editor

  const Buckets: nat := 256

  /** The four bars, in the order `fillFrequencies` bumps them. */
  datatype Channel = RedBar | GreenBar | BlueBar | IntensityBar

  datatype Histogram = Histogram(red: seq<nat>, green: seq<nat>, blue: seq<nat>,
                                 intensity: seq<nat>, image: Option<Image>)

  /** `getRedBar`, `getGreenBar`, `getBlueBar` and `getIntensityBar`. */
  function Bar(h: Histogram, c: Channel): (r: seq<nat>)
    ensures WellFormed(h) ==> |r| == Buckets
  {
    match c
      case RedBar => h.red
      case GreenBar => h.green
      case BlueBar => h.blue
      case IntensityBar => h.intensity
  }

  /** The list index a pixel bumps in each bar. */
  function Level(p: Pixel, c: Channel): int
  {
    match c
      case RedBar => p.red
      case GreenBar => p.green
      case BlueBar => p.blue
      case IntensityBar => IntensityLevel(p)
  }

  /** Every bar has the 256 entries the constructor gave it. */
  predicate WellFormed(h: Histogram)
  {
    |h.red| == Buckets && |h.green| == Buckets && |h.blue| == Buckets && |h.intensity| == Buckets
  }

  /** The constructor: four lists of 256 zeros and no image. */
  /** A histogram is well formed exactly when every getter returns 256 counters. */
  lemma BarsShape(h: Histogram)
    ensures WellFormed(h) <==> forall c :: |Bar(h, c)| == Buckets
  {
    if forall c :: |Bar(h, c)| == Buckets {
      assert |Bar(h, RedBar)| == |Bar(h, GreenBar)| == |Bar(h, BlueBar)| == |Bar(h, IntensityBar)| == Buckets;
    }
  }

  function NewHistogram(): (h: Histogram)
    ensures WellFormed(h) && h.image.None?
    ensures forall c, k :: 0 <= k < Buckets ==> Bar(h, c)[k] == 0
  {
    var zeros := seq(Buckets, _ => 0);
    Histogram(zeros, zeros, zeros, zeros, None)
  }

  /** The model after a call, and the exception that escaped it, if any. */
  datatype Filled = Filled(histogram: Histogram, escaped: Option<Exception>)

  /** `bar.set(k, bar.get(k) + 1)` once `get` has accepted the index. */
  function Inc(bar: seq<nat>, k: int): seq<nat>
    requires 0 <= k < |bar|
  {
    bar[k := bar[k] + 1]
  }

  /**
   * The loop body of `fillFrequencies` for one pixel: bump the red, green,
   * blue and intensity bars in that order.  An index outside a list makes
   * `get` throw, and the bumps already made stay.
   */
  function CountPixel(h: Histogram, p: Pixel): (r: Filled)
    ensures r.histogram.image == h.image
    ensures WellFormed(h) ==> WellFormed(r.histogram)
  {
    var k := IntensityLevel(p);
    if !(0 <= p.red < |h.red|) then Filled(h, Some(IndexOutOfBounds))
    else
      var h1 := h.(red := Inc(h.red, p.red));
      if !(0 <= p.green < |h1.green|) then Filled(h1, Some(IndexOutOfBounds))
      else
        var h2 := h1.(green := Inc(h1.green, p.green));
        if !(0 <= p.blue < |h2.blue|) then Filled(h2, Some(IndexOutOfBounds))
        else
          var h3 := h2.(blue := Inc(h2.blue, p.blue));
          if !(0 <= k < |h3.intensity|) then Filled(h3, Some(IndexOutOfBounds))
          else Filled(h3.(intensity := Inc(h3.intensity, k)), None)
  }

  /** The loop body of `fillFrequencies` for a list of pixels. */
  function CountPixels(h: Histogram, ps: seq<Pixel>): (r: Filled)
    ensures r.histogram.image == h.image
    ensures WellFormed(h) ==> WellFormed(r.histogram)
    decreases |ps|
  {
    if |ps| == 0 then Filled(h, None)
    else
      var f := CountPixel(h, ps[0]);
      if f.escaped.Some? then f else CountPixels(f.histogram, ps[1..])
  }

  /** `fillFrequencies()`: count every pixel of the current image, if there is one. */
  function FillFrequencies(h: Histogram): (r: Filled)
    ensures h.image.None? ==> r == Filled(h, None)
    ensures r.histogram.image == h.image
    ensures WellFormed(h) ==> WellFormed(r.histogram)
  {
    if h.image.None? then Filled(h, None)
    else CountPixels(h, Flatten(h.image.value))
  }

  /** `setImage(image)`: replace the image and count it on top of the existing counts. */
  function SetImage(h: Histogram, img: Option<Image>): (r: Filled)
    ensures r.histogram.image == img
    ensures WellFormed(h) ==> WellFormed(r.histogram)
    ensures img.None? ==> r == Filled(h.(image := None), None)
  {
    FillFrequencies(h.(image := img))
  }

  // ---------------------------------------------------------------------------
  // What the counting amounts to

  /** Channels 0..255: a pixel whose every bump hits a list entry. */
  predicate InByte(p: Pixel)
  {
    0 <= p.red < 256 && 0 <= p.green < 256 && 0 <= p.blue < 256
  }

  /** How many of the pixels have level `k` in bar `c`. */
  function Count(ps: seq<Pixel>, c: Channel, k: int): nat
  {
    if |ps| == 0 then 0 else (if Level(ps[0], c) == k then 1 else 0) + Count(ps[1..], c, k)
  }

  function Sum(bar: seq<nat>): nat
  {
    if |bar| == 0 then 0 else bar[0] + Sum(bar[1..])
  }

  lemma {:induction false} SumBump(bar: seq<nat>, k: nat)
    requires k < |bar|
    ensures Sum(bar[k := bar[k] + 1]) == Sum(bar) + 1
  {
    if k > 0 {
      SumBump(bar[1..], k - 1);
      assert bar[k := bar[k] + 1][1..] == bar[1..][k - 1 := bar[k] + 1];
    }
  }

  /** One in-range pixel adds one to the entry at its level in each of the four bars, and nothing else. */
  lemma CountOnePixel(h: Histogram, p: Pixel, c: Channel)
    requires WellFormed(h) && InByte(p)
    ensures 0 <= Level(p, c) < Buckets
    ensures var f := CountPixel(h, p);
      && f.escaped.None?
      && Bar(f.histogram, c) == Bar(h, c)[Level(p, c) := Bar(h, c)[Level(p, c)] + 1]
  {
    IntensityInByte(p);
    match c
      case RedBar =>
      case GreenBar =>
      case BlueBar =>
      case IntensityBar =>
  }

  /** Every pixel of the list has its channels in 0..255. */
  predicate AllInByte(ps: seq<Pixel>)
  {
    forall i :: 0 <= i < |ps| ==> InByte(ps[i])
  }

  /** Every pixel of the image has its channels in 0..255. */
  predicate ImageInByte(img: Image)
  {
    forall i, j :: 0 <= i < |img| && 0 <= j < |img[i]| ==> InByte(img[i][j])
  }

  /** Counting a list that starts with an in-range pixel: bump that pixel's entries, then count the rest. */
  lemma CountStep(h: Histogram, ps: seq<Pixel>, c: Channel, k: nat)
    requires WellFormed(h) && |ps| > 0 && InByte(ps[0]) && k < Buckets
    ensures var f := CountPixel(h, ps[0]);
      && f.escaped.None? && WellFormed(f.histogram)
      && CountPixels(h, ps) == CountPixels(f.histogram, ps[1..])
      && Bar(f.histogram, c)[k] == Bar(h, c)[k] + (if Level(ps[0], c) == k then 1 else 0)
      && Count(ps, c, k) == (if Level(ps[0], c) == k then 1 else 0) + Count(ps[1..], c, k)
  {
    CountOnePixel(h, ps[0], c);
  }

  /** The same step, seen through the total of bar `c`. */
  lemma TotalStep(h: Histogram, ps: seq<Pixel>, c: Channel)
    requires WellFormed(h) && |ps| > 0 && InByte(ps[0])
    ensures var f := CountPixel(h, ps[0]);
      && f.escaped.None? && WellFormed(f.histogram)
      && CountPixels(h, ps) == CountPixels(f.histogram, ps[1..])
      && Sum(Bar(f.histogram, c)) == Sum(Bar(h, c)) + 1
  {
    CountOnePixel(h, ps[0], c);
    SumBump(Bar(h, c), Level(ps[0], c));
  }

  /**
   * Counting in-range pixels throws nothing and adds to entry `k` of each bar
   * the number of pixels at that level.
   */
  lemma {:induction false} CountPixelsAdds(h: Histogram, ps: seq<Pixel>)
    requires WellFormed(h) && AllInByte(ps)
    decreases |ps|
    ensures var f := CountPixels(h, ps);
      && f.escaped.None?
      && forall c, k :: 0 <= k < Buckets ==> Bar(f.histogram, c)[k] == Bar(h, c)[k] + Count(ps, c, k)
  {
    if |ps| > 0 {
      CountStep(h, ps, RedBar, 0);
      var h1 := CountPixel(h, ps[0]).histogram;
      assert AllInByte(ps[1..]);
      CountPixelsAdds(h1, ps[1..]);
      forall c, k | 0 <= k < Buckets
        ensures Bar(CountPixels(h, ps).histogram, c)[k] == Bar(h, c)[k] + Count(ps, c, k)
      {
        CountStep(h, ps, c, k);
      }
    }
  }

  /** Counting in-range pixels adds the number of pixels to the total of each bar. */
  lemma {:induction false} CountPixelsTotal(h: Histogram, ps: seq<Pixel>, c: Channel)
    requires WellFormed(h) && AllInByte(ps)
    decreases |ps|
    ensures Sum(Bar(CountPixels(h, ps).histogram, c)) == Sum(Bar(h, c)) + |ps|
  {
    if |ps| > 0 {
      TotalStep(h, ps, c);
      assert AllInByte(ps[1..]);
      CountPixelsTotal(CountPixel(h, ps[0]).histogram, ps[1..], c);
    }
  }

  /** The counting throws exactly when some pixel has a channel outside 0..255. */
  lemma {:induction false} CountPixelsThrows(h: Histogram, ps: seq<Pixel>)
    requires WellFormed(h)
    decreases |ps|
    ensures var f := CountPixels(h, ps);
      && (f.escaped.Some? <==> !AllInByte(ps))
      && (f.escaped.Some? ==> f.escaped.value == IndexOutOfBounds)
  {
    if |ps| > 0 {
      var p := ps[0];
      if InByte(p) {
        CountStep(h, ps, RedBar, 0);
        CountPixelsThrows(CountPixel(h, p).histogram, ps[1..]);
        assert AllInByte(ps) <==> AllInByte(ps[1..]) by {
          if !AllInByte(ps[1..]) {
            var i :| 0 <= i < |ps[1..]| && !InByte(ps[1..][i]);
            assert !InByte(ps[i + 1]);
          }
        }
      } else {
        CountPixelFails(h, p);
      }
    }
  }

  /** Whether or not it throws, the counting only adds, and never more than the pixels' counts. */
  lemma {:induction false} CountPixelsBounded(h: Histogram, ps: seq<Pixel>)
    requires WellFormed(h)
    decreases |ps|
    ensures var f := CountPixels(h, ps);
      forall c, k :: 0 <= k < Buckets ==> Bar(h, c)[k] <= Bar(f.histogram, c)[k] <= Bar(h, c)[k] + Count(ps, c, k)
  {
    if |ps| > 0 {
      var p := ps[0];
      if InByte(p) {
        CountStep(h, ps, RedBar, 0);
        CountPixelsBounded(CountPixel(h, p).histogram, ps[1..]);
        forall c, k | 0 <= k < Buckets
          ensures Bar(h, c)[k] <= Bar(CountPixels(h, ps).histogram, c)[k] <= Bar(h, c)[k] + Count(ps, c, k)
        {
          CountStep(h, ps, c, k);
        }
      } else {
        CountPixelFails(h, p);
        assert CountPixels(h, ps) == CountPixel(h, p);
        forall c, k | 0 <= k < Buckets
          ensures Count(ps, c, k) == (if Level(p, c) == k then 1 else 0) + Count(ps[1..], c, k)
        {
        }
      }
    }
  }

  /** Bumping an out-of-range pixel throws, having bumped only bars it had already passed. */
  lemma CountPixelFails(h: Histogram, p: Pixel)
    requires WellFormed(h) && !InByte(p)
    ensures var f := CountPixel(h, p);
      && f.escaped == Some(IndexOutOfBounds)
      && forall c, k :: 0 <= k < Buckets ==>
           Bar(h, c)[k] <= Bar(f.histogram, c)[k] <= Bar(h, c)[k] + (if Level(p, c) == k then 1 else 0)
  {
  }

  /** The pixels of a rectangular image, row-major, and their number. */
  lemma {:induction false} FlattenImage(img: seq<seq<Pixel>>)
    ensures |Flatten(img)| == SumOfRows(img)
    ensures (forall i, j :: 0 <= i < |img| && 0 <= j < |img[i]| ==> InByte(img[i][j])) ==> AllInByte(Flatten(img))
  {
    if |img| > 0 {
      FlattenImage(img[1..]);
      var rest := Flatten(img[1..]);
      if forall i, j :: 0 <= i < |img| && 0 <= j < |img[i]| ==> InByte(img[i][j]) {
        forall n | 0 <= n < |Flatten(img)|
          ensures InByte(Flatten(img)[n])
        {
          if n < |img[0]| {
            assert Flatten(img)[n] == img[0][n];
          } else {
            assert Flatten(img)[n] == rest[n - |img[0]|];
            assert forall i, j :: 0 <= i < |img[1..]| && 0 <= j < |img[1..][i]| ==> img[1..][i][j] == img[i + 1][j];
          }
        }
      }
    }
  }

  function SumOfRows(img: seq<seq<Pixel>>): nat
  {
    if |img| == 0 then 0 else |img[0]| + SumOfRows(img[1..])
  }

  /** `setImage` on an image of in-range pixels adds, in every bar, one count per pixel at its level. */
  lemma SetImageCounts(h: Histogram, img: Image)
    requires WellFormed(h) && ImageInByte(img)
    ensures var f := SetImage(h, Some(img));
      && f.escaped.None? && WellFormed(f.histogram) && f.histogram.image == Some(img)
      && forall c, k :: 0 <= k < Buckets ==> Bar(f.histogram, c)[k] == Bar(h, c)[k] + Count(Flatten(img), c, k)
  {
    var h0 := h.(image := Some(img));
    assert SetImage(h, Some(img)) == CountPixels(h0, Flatten(img));
    FlattenImage(img);
    CountPixelsAdds(h0, Flatten(img));
  }

  /** `setImage` on an image of in-range pixels adds the number of pixels to the total of every bar. */
  lemma SetImageTotal(h: Histogram, img: Image, c: Channel)
    requires WellFormed(h) && ImageInByte(img)
    ensures Sum(Bar(SetImage(h, Some(img)).histogram, c)) == Sum(Bar(h, c)) + SumOfRows(img)
  {
    var h0 := h.(image := Some(img));
    assert SetImage(h, Some(img)) == CountPixels(h0, Flatten(img));
    FlattenImage(img);
    CountPixelsTotal(h0, Flatten(img), c);
  }

  /** Counts accumulate: two `setImage` calls add both images' counts to the starting bars. */
  lemma SetImageTwice(h: Histogram, a: Image, b: Image)
    requires WellFormed(h) && ImageInByte(a) && ImageInByte(b)
    ensures var f := SetImage(SetImage(h, Some(a)).histogram, Some(b));
      && f.escaped.None? && WellFormed(f.histogram)
      && forall c, k :: 0 <= k < Buckets ==>
           Bar(f.histogram, c)[k] == Bar(h, c)[k] + Count(Flatten(a), c, k) + Count(Flatten(b), c, k)
  {
    SetImageCounts(h, a);
    SetImageCounts(SetImage(h, Some(a)).histogram, b);
  }

  /** Calling `fillFrequencies` again counts the same image a second time. */
  lemma FillTwice(h: Histogram, img: Image, c: Channel)
    requires WellFormed(h) && ImageInByte(img)
    ensures var h1 := SetImage(h, Some(img)).histogram;
      Sum(Bar(FillFrequencies(h1).histogram, c)) == Sum(Bar(h, c)) + 2 * SumOfRows(img)
  {
    SetImageCounts(h, img);
    SetImageTotal(h, img, c);
    var h1 := SetImage(h, Some(img)).histogram;
    assert FillFrequencies(h1) == SetImage(h1, Some(img));
    SetImageTotal(h1, img, c);
  }
}

=== FILE: java_lang.dfy ===
/**
 * The fragments of the Java platform that both programs lean on, stated as pure
 * functions: 32-bit `int` arithmetic, `Integer.parseInt`, `Integer.toString`,
 * `String.split(" ")`, `String.endsWith`, and the whitespace tokenising done by
 * `java.util.Scanner`.
 */
module JavaLang {
  import opened Wrappers

  /** The exceptions the modelled code can throw or let escape. */
  datatype Exception =
    | IllegalArgument    // IllegalArgumentException
    | IllegalState       // IllegalStateException
    | IndexOutOfBounds   // array, string and list index errors
    | NullPointer        // dereferencing a missing map entry
    | NoSuchElement      // a Scanner with no further token
    | InputMismatch      // Scanner.nextInt on a token that is not an int
    | NegativeArraySize  // `new Pixel[h][w]` with a negative dimension
    | StackOverflow      // StackOverflowError: recursion that never returns
    | OutOfMemory        // OutOfMemoryError: a loop that keeps growing a list

  const IntMin: int := -0x8000_0000
  const IntMax: int := 0x7fff_ffff
  const TwoTo32: int := 0x1_0000_0000

  /** The values of Java's `int`. */
  predicate IsInt(x: int) { IntMin <= x <= IntMax }

  /** A Java `int` variable or field. */
  type Int32 = x: int | IsInt(x)

  /** Java `int` addition and subtraction: the exact result reduced modulo 2^32. */
  function Wrap32(x: int): (r: int)
    ensures IsInt(r)
    ensures (x - r) % TwoTo32 == 0
    ensures IsInt(x) ==> r == x
  {
    var q := (x - IntMin) / TwoTo32;
    var r := (x - IntMin) % TwoTo32 + IntMin;
    assert x - r == q * TwoTo32;
    r
  }

  // ---------------------------------------------------------------------------
  // Integer.parseInt and Integer.toString

  predicate IsDigit(c: char) { '0' <= c <= '9' }

  predicate AllDigits(s: string) { forall i :: 0 <= i < |s| ==> IsDigit(s[i]) }

  function DigitValue(c: char): nat
    requires IsDigit(c)
  {
    c as int - '0' as int
  }

  function DigitChar(d: nat): char
    requires d < 10
  {
    ('0' as int + d) as char
  }

  /** The value of a decimal numeral, most significant digit first. */
  function DigitsValue(s: string): nat
    requires AllDigits(s)
  {
    if |s| == 0 then 0 else DigitsValue(s[..|s| - 1]) * 10 + DigitValue(s[|s| - 1])
  }

  /**
   * `Integer.parseInt(s)`: an optional `-` or `+` followed by at least one
   * decimal digit, whose value must fit in an `int`; anything else is a
   * NumberFormatException, here `None`.
   */
  function ParseInt(s: string): (r: Option<int>)
    ensures r.Some? ==> IsInt(r.value) && |s| > 0
    ensures r.Some? && s[0] != '-' ==> r.value >= 0
    ensures r.Some? && s[0] == '-' ==> r.value <= 0
  {
    if |s| == 0 then None
    else
      var body := if s[0] == '-' || s[0] == '+' then s[1..] else s;
      match Numeral(body)
      case None => None
      case Some(m) =>
        var v: int := if s[0] == '-' then -(m as int) else m;
        if IsInt(v) then Some(v) else None
  }

  /** The value of a non-empty run of decimal digits, or `None` when some character is not a digit. */
  function Numeral(s: string): Option<nat>
    decreases |s|
  {
    if |s| == 0 || !IsDigit(s[|s| - 1]) then None
    else if |s| == 1 then Some(DigitValue(s[0]))
    else
      match Numeral(s[..|s| - 1])
      case None => None
      case Some(m) => Some(10 * m + DigitValue(s[|s| - 1]))
  }

  /** `Numeral` accepts exactly the non-empty digit strings, with their decimal value. */
  lemma {:induction false} NumeralIsDigits(s: string)
    ensures Numeral(s).Some? <==> |s| > 0 && AllDigits(s)
    ensures Numeral(s).Some? ==> Numeral(s).value == DigitsValue(s)
    decreases |s|
  {
    if |s| > 1 {
      var prefix := s[..|s| - 1];
      NumeralIsDigits(prefix);
      assert forall i :: 0 <= i < |prefix| ==> prefix[i] == s[i];
    } else if |s| == 1 {
      assert s[..0] == "";
    }
  }

  /** What `Integer.parseInt` accepts: a sign or a digit, then digits only. */
  lemma ParseIntShape(s: string)
    requires ParseInt(s).Some?
    ensures s[0] == '-' || s[0] == '+' || IsDigit(s[0])
    ensures forall i :: 0 < i < |s| ==> IsDigit(s[i])
  {
    var body := if s[0] == '-' || s[0] == '+' then s[1..] else s;
    NumeralIsDigits(body);
    if body == s[1..] {
      assert forall i :: 0 < i < |s| ==> s[i] == body[i - 1];
    }
  }

  /** The decimal numeral of `n` without leading zeros, as `Integer.toString` writes it. */
  function NatToString(n: nat): (s: string)
    ensures |s| >= 1 && AllDigits(s)
    ensures DigitsValue(s) == n
    ensures s[0] == '0' ==> n == 0
  {
    if n < 10 then [DigitChar(n)]
    else
      var prefix := NatToString(n / 10);
      var s := prefix + [DigitChar(n % 10)];
      assert s[..|s| - 1] == prefix;
      s
  }

  /** `Integer.toString(n)`. */
  function IntToString(n: int): (s: string)
    ensures |s| >= 1
    ensures n < 0 <==> s[0] == '-'
    ensures forall i :: 0 < i < |s| ==> IsDigit(s[i])
  {
    if n < 0 then "-" + NatToString(-n) else NatToString(n)
  }

  /** Parsing what `Integer.toString` printed gives the number back. */
  lemma ParseIntToString(n: int)
    requires IsInt(n)
    ensures ParseInt(IntToString(n)) == Some(n)
  {
    var s := IntToString(n);
    if n < 0 {
      assert s[1..] == NatToString(-n);
      NumeralIsDigits(NatToString(-n));
    } else {
      NumeralIsDigits(s);
    }
  }

  // ---------------------------------------------------------------------------
  // String.endsWith and String.split(" ")

  /** `s.endsWith(suffix)`: `s` is some prefix followed by `suffix`. */
  function EndsWith(s: string, suffix: string): (b: bool)
    ensures b <==> exists stem :: stem + suffix == s
  {
    assert forall stem :: stem + suffix == s ==> s[|stem|..] == suffix;
    if |suffix| <= |s| && s[|s| - |suffix|..] == suffix then
      assert s[..|s| - |suffix|] + suffix == s;
      true
    else
      false
  }

  /** Appending `suffix` to any string gives one that ends with it. */
  lemma EndsWithAppend(stem: string, suffix: string)
    ensures EndsWith(stem + suffix, suffix)
  {
  }

  /** Index of the first occurrence of `c` in `s`. */
  function IndexOf(s: string, c: char): (i: nat)
    requires c in s
    ensures i < |s| && s[i] == c && c !in s[..i]
  {
    if s[0] == c then 0 else 1 + IndexOf(s[1..], c)
  }

  /** Every piece between spaces, empty pieces included. */
  function SplitAll(s: string): (parts: seq<string>)
    ensures |parts| >= 1
    ensures forall i :: 0 <= i < |parts| ==> ' ' !in parts[i]
    decreases |s|
  {
    if ' ' !in s then [s]
    else
      var i := IndexOf(s, ' ');
      [s[..i]] + SplitAll(s[i + 1..])
  }

  function DropTrailingEmpty(parts: seq<string>): (r: seq<string>)
    ensures |r| <= |parts| && r == parts[..|r|]
    ensures |r| > 0 ==> r[|r| - 1] != ""
    ensures forall i :: |r| <= i < |parts| ==> parts[i] == ""
  {
    if |parts| == 0 || parts[|parts| - 1] != "" then parts
    else DropTrailingEmpty(parts[..|parts| - 1])
  }

  /**
   * `s.split(" ")`: split on every space and drop trailing empty strings; a
   * string without a space splits into itself (so "" gives [""], while "  "
   * gives the empty array).
   */
  function SplitOnSpace(s: string): (parts: seq<string>)
    ensures forall i :: 0 <= i < |parts| ==> ' ' !in parts[i]
    ensures ' ' !in s ==> parts == [s]
  {
    if ' ' !in s then [s] else DropTrailingEmpty(SplitAll(s))
  }

  /** Nothing but spaces. */
  predicate Blank(s: string) { forall i :: 0 <= i < |s| ==> s[i] == ' ' }

  /** Every piece is the empty string. */
  predicate AllEmpty(parts: seq<string>) { forall k :: 0 <= k < |parts| ==> parts[k] == "" }

  /** `split(" ")` returns no pieces exactly for a non-empty line of spaces. */
  lemma SplitOnSpaceEmpty(s: string)
    ensures |SplitOnSpace(s)| == 0 <==> |s| > 0 && Blank(s)
  {
    if ' ' in s {
      SplitAllBlank(s);
      var parts := SplitAll(s);
      var r := DropTrailingEmpty(parts);
      if |r| > 0 {
        assert r[|r| - 1] == parts[|r| - 1];
      }
    } else if |s| > 0 {
      assert s[0] in s;
    }
  }

  /** Every piece between the spaces is empty exactly when there is nothing but spaces. */
  lemma {:induction false} SplitAllBlank(s: string)
    ensures AllEmpty(SplitAll(s)) <==> Blank(s)
    decreases |s|
  {
    if ' ' in s {
      var i := IndexOf(s, ' ');
      SplitAllBlank(s[i + 1..]);
      AllEmptyCons(s[..i], SplitAll(s[i + 1..]));
      BlankAfterSpace(s, i);
    } else {
      assert SplitAll(s) == [s];
      if |s| > 0 {
        assert SplitAll(s)[0] != "";
        assert s[0] != ' ' by { assert s[0] in s; }
      }
    }
  }

  lemma AllEmptyCons(head: string, tail: seq<string>)
    ensures AllEmpty([head] + tail) <==> head == "" && AllEmpty(tail)
  {
    var parts := [head] + tail;
    assert parts[0] == head;
    assert forall k :: 0 <= k < |tail| ==> tail[k] == parts[k + 1];
  }

  /** A string whose first space is at `i` is blank exactly when `i` is 0 and the rest is blank. */
  lemma BlankAfterSpace(s: string, i: nat)
    requires i < |s| && s[i] == ' ' && ' ' !in s[..i]
    ensures Blank(s) <==> i == 0 && Blank(s[i + 1..])
  {
    var rest := s[i + 1..];
    if i > 0 {
      assert s[0] in s[..i];
    }
    if Blank(s) {
      assert forall k :: 0 <= k < |rest| ==> rest[k] == s[k + i + 1];
    }
    if i == 0 && Blank(rest) {
      assert forall k :: 1 <= k < |s| ==> s[k] == rest[k - 1];
    }
  }

  lemma SplitAllCons(a: string, rest: string)
    requires ' ' !in a
    ensures SplitAll(a + " " + rest) == [a] + SplitAll(rest)
  {
    var s := a + " " + rest;
    assert s[|a|] == ' ';
    assert forall k :: 0 <= k < |a| ==> s[k] == a[k];
    var i := IndexOf(s, ' ');
    assert s[..i] == a;
    assert s[i + 1..] == rest;
  }

  /** A line of words separated by single spaces splits into exactly those words. */
  lemma SplitWords(words: seq<string>)
    requires |words| >= 1
    requires forall i :: 0 <= i < |words| ==> words[i] != "" && ' ' !in words[i]
    ensures SplitOnSpace(JoinWords(words)) == words
  {
    SplitAllWords(words);
    var s := JoinWords(words);
    if |words| > 1 {
      SplitAllCons(words[0], JoinWords(words[1..]));
      assert ' ' in s by { assert s[|words[0]|] == ' '; }
    }
  }

  function JoinWords(words: seq<string>): string
    requires |words| >= 1
  {
    if |words| == 1 then words[0] else words[0] + " " + JoinWords(words[1..])
  }

  lemma {:induction false} SplitAllWords(words: seq<string>)
    requires |words| >= 1
    requires forall i :: 0 <= i < |words| ==> ' ' !in words[i]
    ensures SplitAll(JoinWords(words)) == words
  {
    if |words| > 1 {
      var rest := words[1..];
      assert forall i :: 0 <= i < |rest| ==> rest[i] == words[i + 1];
      SplitAllWords(rest);
      SplitAllCons(words[0], JoinWords(rest));
      assert JoinWords(words) == words[0] + " " + JoinWords(rest);
      assert [words[0]] + rest == words;
    }
  }

  // ---------------------------------------------------------------------------
  // Scanner tokens

  /** `Character.isWhitespace`, which is what a Scanner's default delimiter matches. */
  predicate IsWhitespace(c: char)
  {
    var k := c as int;
    || (9 <= k <= 13) || (28 <= k <= 32)
    || k == 0x1680 || (0x2000 <= k <= 0x2006) || (0x2008 <= k <= 0x200A)
    || k == 0x2028 || k == 0x2029 || k == 0x205F || k == 0x3000
  }

  predicate NoWhitespace(s: string) { forall i :: 0 <= i < |s| ==> !IsWhitespace(s[i]) }

  /** Length of the run of non-whitespace characters at the start of `s`. */
  function WordLength(s: string): (n: nat)
    ensures n <= |s|
    ensures NoWhitespace(s[..n])
    ensures n < |s| ==> IsWhitespace(s[n])
  {
    if |s| == 0 || IsWhitespace(s[0]) then 0
    else
      var n := 1 + WordLength(s[1..]);
      assert s[..n] == [s[0]] + s[1..][..n - 1];
      n
  }

  /** The tokens a Scanner with the default delimiter returns from `s`, in order. */
  function Tokens(s: string): (ts: seq<string>)
    ensures forall i :: 0 <= i < |ts| ==> ts[i] != "" && NoWhitespace(ts[i])
    decreases |s|
  {
    if |s| == 0 then []
    else if IsWhitespace(s[0]) then Tokens(s[1..])
    else
      var n := WordLength(s);
      [s[..n]] + Tokens(s[n..])
  }

  /** Text that ends in whitespace cannot glue its last token to what follows. */
  lemma {:induction false} TokensAppend(a: string, b: string)
    requires |a| == 0 || IsWhitespace(a[|a| - 1])
    ensures Tokens(a + b) == Tokens(a) + Tokens(b)
    decreases |a|
  {
    if |a| == 0 {
      assert a + b == b;
    } else if IsWhitespace(a[0]) {
      assert (a + b)[1..] == a[1..] + b;
      TokensAppend(a[1..], b);
    } else {
      var n := WordLength(a);
      assert n < |a|;
      WordLengthAppend(a, b);
      assert (a + b)[..n] == a[..n];
      assert (a + b)[n..] == a[n..] + b;
      TokensAppend(a[n..], b);
    }
  }

  lemma WordLengthAppend(a: string, b: string)
    requires WordLength(a) < |a|
    ensures WordLength(a + b) == WordLength(a)
  {
    var n := WordLength(a);
    assert forall k :: 0 <= k < n ==> a[k] == a[..n][k];
    WordLengthIs(a + b, n);
  }

  /** `WordLength` is the first whitespace position, or the length when there is none. */
  lemma {:induction false} WordLengthIs(s: string, n: nat)
    requires n <= |s|
    requires forall k :: 0 <= k < n ==> !IsWhitespace(s[k])
    requires n < |s| ==> IsWhitespace(s[n])
    ensures WordLength(s) == n
  {
    if n > 0 {
      WordLengthIs(s[1..], n - 1);
    }
  }

  /** A word followed by one whitespace character is that single token. */
  lemma TokensOfWordThen(w: string, c: char)
    requires w != "" && NoWhitespace(w) && IsWhitespace(c)
    ensures Tokens(w + [c]) == [w]
  {
    var s := w + [c];
    assert forall k :: 0 <= k < |w| ==> s[k] == w[k];
    WordLengthIs(s, |w|);
    assert s[..|w|] == w;
    assert s[|w|..] == [c];
    assert Tokens([c]) == Tokens([c][1..]);
  }

  /** `Integer.toString` writes a non-empty word: a sign and digits, never whitespace or '#'. */
  lemma IntToStringIsWord(n: int)
    ensures IntToString(n) != "" && NoWhitespace(IntToString(n)) && IntToString(n)[0] != '#'
  {
    var s := IntToString(n);
    forall i | 0 <= i < |s|
      ensures !IsWhitespace(s[i])
    {
      assert s[i] == '-' || IsDigit(s[i]);
    }
  }

  /** A word without whitespace is a single token. */
  lemma TokensOfWord(w: string)
    requires w != "" && NoWhitespace(w)
    ensures Tokens(w) == [w]
  {
    WordLengthIs(w, |w|);
    assert w[..|w|] == w;
    assert w[|w|..] == "";
  }
}

=== FILE: kruskal.dfy ===
/**
 * `Maze.spanningTree`: randomised Kruskal over the sorted candidate edges,
 * using the union/find map of `HashMapUtils`.  The lemmas show the loop never
 * closes a cycle, that two vertices share a representative exactly when the
 * tree joins them, and that on a maze grid the result spans every vertex.
 */
module Kruskal {
  import opened Wrappers
  import opened JavaLang
  import opened Grid
  import opened EdgeSort
  import opened UnionFind

  /** The representatives map and `edgesInTree`. */
  datatype Forest = Forest(reps: Reps, tree: seq<Edge>)

  /**
   * The `while` loop of `spanningTree` from the current worklist position on:
   * it stops once the tree has `n - 1` edges or the worklist is used up, and
   * keeps an edge only when `find` gives its endpoints different roots.
   */
  function Grow(n: nat, todo: seq<Edge>, f: Forest): (r: Result<Forest, Exception>)
    ensures r.Ok? ==> |f.tree| <= |r.value.tree| && r.value.tree[..|f.tree|] == f.tree
    ensures r.Ok? ==> forall i :: |f.tree| <= i < |r.value.tree| ==> r.value.tree[i] in todo
    ensures r.Ok? ==> |r.value.tree| <= |f.tree| + |todo|
    ensures r.Ok? ==> |r.value.tree| >= n - 1 || |r.value.tree| - |f.tree| <= |todo|
    decreases |todo|
  {
    if |f.tree| >= n - 1 || |todo| == 0 then Ok(f)
    else
      var e := todo[0];
      match Find(f.reps, e.from)
      case Err(x) => Err(x)
      case Ok(ra) =>
        match Find(f.reps, e.to)
        case Err(x) => Err(x)
        case Ok(rb) =>
          if ra != rb then
            var r := Grow(n, todo[1..], Forest(Union(f.reps, ra, rb), f.tree + [e]));
            assert r.Ok? ==> r.value.tree[..|f.tree|] == (r.value.tree[..|f.tree| + 1])[..|f.tree|];
            r
          else Grow(n, todo[1..], f)
  }

  /** `spanningTree` on `n` vertices whose candidate edges are `edges`. */
  function SpanningTree(n: nat, edges: seq<Edge>): (r: Result<Forest, Exception>)
    ensures r.Ok? ==> forall i :: 0 <= i < |r.value.tree| ==> r.value.tree[i] in edges
  {
    var r := Grow(n, Sort(edges), Forest(Singletons(n), []));
    assert r.Ok? ==> forall i :: 0 <= i < |r.value.tree| ==> r.value.tree[i] in Sort(edges);
    assert forall e :: e in Sort(edges) ==> e in edges by {
      forall e | e in Sort(edges)
        ensures e in edges
      {
        assert e in multiset(Sort(edges));
      }
    }
    r
  }

  // ---------------------------------------------------------------------------
  // Walks through a set of edges

  predicate Joins(e: Edge, a: nat, b: nat)
  {
    (e.from == a && e.to == b) || (e.from == b && e.to == a)
  }

  predicate Adjacent(es: seq<Edge>, a: nat, b: nat)
  {
    exists e :: e in es && Joins(e, a, b)
  }

  /** `p` visits vertices each joined to the next by an edge of `es`. */
  predicate IsWalk(es: seq<Edge>, p: seq<nat>)
  {
    |p| >= 1 && forall i :: 0 <= i < |p| - 1 ==> Adjacent(es, p[i], p[i + 1])
  }

  /** The edges `es` join `a` to `b`. */
  ghost predicate Connected(es: seq<Edge>, a: nat, b: nat)
  {
    exists p :: IsWalk(es, p) && p[0] == a && p[|p| - 1] == b
  }

  lemma ConnectedRefl(es: seq<Edge>, a: nat)
    ensures Connected(es, a, a)
  {
    assert IsWalk(es, [a]);
  }

  lemma ConnectedEdge(es: seq<Edge>, e: Edge)
    requires e in es
    ensures Connected(es, e.from, e.to) && Connected(es, e.to, e.from)
  {
    assert Joins(e, e.from, e.to) && Joins(e, e.to, e.from);
    assert IsWalk(es, [e.from, e.to]);
    assert IsWalk(es, [e.to, e.from]);
  }

  lemma ConnectedSym(es: seq<Edge>, a: nat, b: nat)
    requires Connected(es, a, b)
    ensures Connected(es, b, a)
  {
    var p :| IsWalk(es, p) && p[0] == a && p[|p| - 1] == b;
    var q := seq(|p|, i requires 0 <= i < |p| => p[|p| - 1 - i]);
    forall i | 0 <= i < |q| - 1
      ensures Adjacent(es, q[i], q[i + 1])
    {
      var j := |p| - 2 - i;
      assert Adjacent(es, p[j], p[j + 1]);
      var e :| e in es && Joins(e, p[j], p[j + 1]);
      assert Joins(e, q[i], q[i + 1]);
    }
    assert IsWalk(es, q);
  }

  lemma ConnectedTrans(es: seq<Edge>, a: nat, b: nat, c: nat)
    requires Connected(es, a, b) && Connected(es, b, c)
    ensures Connected(es, a, c)
  {
    var p :| IsWalk(es, p) && p[0] == a && p[|p| - 1] == b;
    var q :| IsWalk(es, q) && q[0] == b && q[|q| - 1] == c;
    var r := p + q[1..];
    forall i | 0 <= i < |r| - 1
      ensures Adjacent(es, r[i], r[i + 1])
    {
      if i < |p| - 1 {
        assert r[i] == p[i] && r[i + 1] == p[i + 1];
      } else {
        var j := i - |p| + 1;
        assert r[i] == q[j] && r[i + 1] == q[j + 1];
      }
    }
    assert IsWalk(es, r);
  }

  /** More edges keep every connection. */
  lemma ConnectedMono(es: seq<Edge>, more: seq<Edge>, a: nat, b: nat)
    requires Connected(es, a, b)
    requires forall e :: e in es ==> e in more
    ensures Connected(more, a, b)
  {
    var p :| IsWalk(es, p) && p[0] == a && p[|p| - 1] == b;
    forall i | 0 <= i < |p| - 1
      ensures Adjacent(more, p[i], p[i + 1])
    {
      assert Adjacent(es, p[i], p[i + 1]);
    }
    assert IsWalk(more, p);
  }

  /** Every edge of `es` joins vertices with the same root. */
  predicate Merged(m: Reps, es: seq<Edge>)
  {
    forall i :: 0 <= i < |es| ==> Find(m, es[i].from) == Find(m, es[i].to)
  }

  /** A walk through merged edges stays inside one root's class. */
  lemma {:induction false} WalkSameRoot(m: Reps, es: seq<Edge>, p: seq<nat>)
    requires Merged(m, es) && IsWalk(es, p)
    ensures Find(m, p[0]) == Find(m, p[|p| - 1])
    decreases |p|
  {
    if |p| > 1 {
      WalkSameRoot(m, es, p[1..]);
      assert Adjacent(es, p[0], p[1]);
      var e :| e in es && Joins(e, p[0], p[1]);
      var i :| 0 <= i < |es| && es[i] == e;
      assert Find(m, es[i].from) == Find(m, es[i].to);
    }
  }

  lemma ConnectedSameRoot(m: Reps, es: seq<Edge>, a: nat, b: nat)
    requires Merged(m, es) && Connected(es, a, b)
    ensures Find(m, a) == Find(m, b)
  {
    var p :| IsWalk(es, p) && p[0] == a && p[|p| - 1] == b;
    WalkSameRoot(m, es, p);
  }

  // ---------------------------------------------------------------------------
  // The loop invariant

  /**
   * The bookkeeping of the loop: the map holds exactly the `n` vertices, every
   * vertex reaches its root in at most one link per union made so far, and
   * each union removed one root.
   */
  ghost predicate WellFormed(n: nat, f: Forest)
  {
    && n >= 1
    && (forall k: nat :: k in f.reps <==> k < n)
    && |f.reps| == n
    && |f.tree| <= n - 1
    && (forall k: nat :: k < n ==> FindFuel(f.reps, k, |f.tree|).Ok?)
    && |Roots(f.reps)| == n - |f.tree|
    && (forall i :: 0 <= i < |f.tree| ==> f.tree[i].from < n && f.tree[i].to < n)
  }

  /** Two vertices share a root exactly when the tree joins them. */
  ghost predicate Partitions(n: nat, f: Forest)
  {
    forall a: nat, b: nat :: a < n && b < n ==>
      (Find(f.reps, a) == Find(f.reps, b) <==> Connected(f.tree, a, b))
  }

  /** No edge of `t` joins two vertices its predecessors already joined. */
  ghost predicate Acyclic(t: seq<Edge>)
  {
    forall i :: 0 <= i < |t| ==> !Connected(t[..i], t[i].from, t[i].to)
  }

  ghost predicate Invariant(n: nat, f: Forest)
  {
    WellFormed(n, f) && Partitions(n, f) && Acyclic(f.tree)
  }

  /** In a well-formed forest `find` answers within the links already made. */
  lemma FindWithinUnions(n: nat, f: Forest, k: nat)
    requires WellFormed(n, f) && k < n
    ensures Find(f.reps, k) == FindFuel(f.reps, k, |f.tree|)
    ensures Find(f.reps, k).Ok? && Find(f.reps, k).value < n
  {
    FindFuelMono(f.reps, k, |f.tree|, |f.reps|);
  }

  function Redirect(r: nat, ra: nat, rb: nat): nat
  {
    if r == ra then rb else r
  }

  /** After linking root `ra` under root `rb`, the roots move as `Redirect` says. */
  lemma AddEdgeFind(n: nat, f: Forest, e: Edge, ra: nat, rb: nat)
    requires WellFormed(n, f) && e.from < n && e.to < n && |f.tree| < n - 1
    requires Find(f.reps, e.from) == Ok(ra) && Find(f.reps, e.to) == Ok(rb) && ra != rb
    ensures var f' := Forest(Union(f.reps, ra, rb), f.tree + [e]);
      && WellFormed(n, f')
      && forall k: nat :: k < n ==>
           Find(f.reps, k).Ok? && Find(f'.reps, k) == Ok(Redirect(Find(f.reps, k).value, ra, rb))
  {
    var m' := Union(f.reps, ra, rb);
    var f' := Forest(m', f.tree + [e]);
    assert m'.Keys == f.reps.Keys;
    forall k: nat | k < n
      ensures FindFuel(m', k, |f'.tree|).Ok?
      ensures Find(f.reps, k).Ok? && Find(m', k) == Ok(Redirect(Find(f.reps, k).value, ra, rb))
    {
      FindWithinUnions(n, f, k);
      FindAfterUnion(f.reps, ra, rb, k, |f.tree|);
      FindFuelMono(m', k, |f'.tree|, |m'|);
    }
    RootsAfterUnion(f.reps, ra, rb);
  }

  /** Adding an edge between two classes merges exactly those two classes. */
  lemma AddEdgePartitions(n: nat, f: Forest, e: Edge, ra: nat, rb: nat)
    requires Invariant(n, f) && e.from < n && e.to < n && |f.tree| < n - 1
    requires Find(f.reps, e.from) == Ok(ra) && Find(f.reps, e.to) == Ok(rb) && ra != rb
    ensures Partitions(n, Forest(Union(f.reps, ra, rb), f.tree + [e]))
  {
    var f' := Forest(Union(f.reps, ra, rb), f.tree + [e]);
    AddEdgeFind(n, f, e, ra, rb);
    var t, t' := f.tree, f'.tree;
    assert forall x :: x in t ==> x in t';
    assert e in t';
    forall a: nat, b: nat | a < n && b < n
      ensures Find(f'.reps, a) == Find(f'.reps, b) <==> Connected(t', a, b)
    {
      FindWithinUnions(n, f, a);
      FindWithinUnions(n, f, b);
      var fa, fb := Find(f.reps, a).value, Find(f.reps, b).value;
      if Connected(t', a, b) {
        assert Merged(f'.reps, t') by {
          forall i | 0 <= i < |t'|
            ensures Find(f'.reps, t'[i].from) == Find(f'.reps, t'[i].to)
          {
            if i < |t| {
              assert t'[i] == t[i] && t[i] in t;
              ConnectedEdge(t, t[i]);
              FindWithinUnions(n, f, t[i].from);
              FindWithinUnions(n, f, t[i].to);
            }
          }
        }
        ConnectedSameRoot(f'.reps, t', a, b);
      }
      if Find(f'.reps, a) == Find(f'.reps, b) {
        if fa == fb {
          ConnectedMono(t, t', a, b);
        } else if fa == ra {
          assert fb == rb;
          ConnectedMono(t, t', a, e.from);
          ConnectedEdge(t', e);
          ConnectedMono(t, t', e.to, b);
          ConnectedTrans(t', a, e.from, e.to);
          ConnectedTrans(t', a, e.to, b);
        } else {
          assert fa == rb && fb == ra;
          ConnectedMono(t, t', a, e.to);
          ConnectedEdge(t', e);
          ConnectedMono(t, t', e.from, b);
          ConnectedTrans(t', a, e.to, e.from);
          ConnectedTrans(t', a, e.from, b);
        }
      }
    }
  }

  /** An edge between two classes closes no cycle. */
  lemma AddEdgeAcyclic(n: nat, f: Forest, e: Edge, ra: nat, rb: nat)
    requires Invariant(n, f) && e.from < n && e.to < n
    requires Find(f.reps, e.from) == Ok(ra) && Find(f.reps, e.to) == Ok(rb) && ra != rb
    ensures Acyclic(f.tree + [e])
  {
    var t' := f.tree + [e];
    forall i | 0 <= i < |t'|
      ensures !Connected(t'[..i], t'[i].from, t'[i].to)
    {
      if i < |f.tree| {
        assert t'[..i] == f.tree[..i] && t'[i] == f.tree[i];
      } else {
        assert t'[..i] == f.tree && t'[i] == e;
      }
    }
  }

  /** Keeping an edge preserves the whole invariant and every merged edge. */
  lemma AddEdge(n: nat, f: Forest, e: Edge, ra: nat, rb: nat, done: seq<Edge>)
    requires Invariant(n, f) && e.from < n && e.to < n && |f.tree| < n - 1
    requires Find(f.reps, e.from) == Ok(ra) && Find(f.reps, e.to) == Ok(rb) && ra != rb
    requires Merged(f.reps, done)
    requires forall i :: 0 <= i < |done| ==> done[i].from < n && done[i].to < n
    ensures var f' := Forest(Union(f.reps, ra, rb), f.tree + [e]);
      Invariant(n, f') && Merged(f'.reps, done + [e])
  {
    var f' := Forest(Union(f.reps, ra, rb), f.tree + [e]);
    AddEdgeFind(n, f, e, ra, rb);
    AddEdgePartitions(n, f, e, ra, rb);
    AddEdgeAcyclic(n, f, e, ra, rb);
    var d := done + [e];
    forall i | 0 <= i < |d|
      ensures Find(f'.reps, d[i].from) == Find(f'.reps, d[i].to)
    {
      FindWithinUnions(n, f, d[i].from);
      FindWithinUnions(n, f, d[i].to);
    }
  }

  /**
   * The loop keeps the invariant, never throws, and ends with `n - 1` tree
   * edges or with every examined edge inside one class.
   */
  lemma {:induction false} GrowCorrect(n: nat, todo: seq<Edge>, f: Forest, done: seq<Edge>)
    requires Invariant(n, f) && Merged(f.reps, done)
    requires forall i :: 0 <= i < |done| ==> done[i].from < n && done[i].to < n
    requires forall i :: 0 <= i < |todo| ==> todo[i].from < n && todo[i].to < n
    ensures Grow(n, todo, f).Ok?
    ensures var f' := Grow(n, todo, f).value;
      Invariant(n, f') && (|f'.tree| == n - 1 || Merged(f'.reps, done + todo))
    decreases |todo|, 2
  {
    if |f.tree| >= n - 1 {
    } else if |todo| == 0 {
      assert done + todo == done;
    } else {
      var e := todo[0];
      FindWithinUnions(n, f, e.from);
      FindWithinUnions(n, f, e.to);
      if Find(f.reps, e.from) != Find(f.reps, e.to) {
        GrowKeepCorrect(n, todo, f, done);
      } else {
        GrowSkipCorrect(n, todo, f, done);
      }
    }
  }

  /** The step of `GrowCorrect` that keeps the worklist's head. */
  lemma {:induction false} GrowKeepCorrect(n: nat, todo: seq<Edge>, f: Forest, done: seq<Edge>)
    requires Invariant(n, f) && Merged(f.reps, done) && |f.tree| < n - 1 && |todo| > 0
    requires forall i :: 0 <= i < |done| ==> done[i].from < n && done[i].to < n
    requires forall i :: 0 <= i < |todo| ==> todo[i].from < n && todo[i].to < n
    requires Find(f.reps, todo[0].from).Ok? && Find(f.reps, todo[0].to).Ok?
    requires Find(f.reps, todo[0].from) != Find(f.reps, todo[0].to)
    ensures Grow(n, todo, f).Ok?
    ensures var f' := Grow(n, todo, f).value;
      Invariant(n, f') && (|f'.tree| == n - 1 || Merged(f'.reps, done + todo))
    decreases |todo|, 0
  {
    var e, rest := todo[0], todo[1..];
    var ra, rb := Find(f.reps, e.from).value, Find(f.reps, e.to).value;
    MoveHead(done, todo);
    AddEdge(n, f, e, ra, rb, done);
    var f' := Forest(Union(f.reps, ra, rb), f.tree + [e]);
    GrowKeeps(n, todo, f, ra, rb);
    GrowCorrect(n, rest, f', done + [e]);
    assert Grow(n, todo, f) == Grow(n, rest, f');
  }

  /** The step of `GrowCorrect` that drops the worklist's head. */
  lemma {:induction false} GrowSkipCorrect(n: nat, todo: seq<Edge>, f: Forest, done: seq<Edge>)
    requires Invariant(n, f) && Merged(f.reps, done) && |f.tree| < n - 1 && |todo| > 0
    requires forall i :: 0 <= i < |done| ==> done[i].from < n && done[i].to < n
    requires forall i :: 0 <= i < |todo| ==> todo[i].from < n && todo[i].to < n
    requires Find(f.reps, todo[0].from).Ok? && Find(f.reps, todo[0].from) == Find(f.reps, todo[0].to)
    ensures Grow(n, todo, f).Ok?
    ensures var f' := Grow(n, todo, f).value;
      Invariant(n, f') && (|f'.tree| == n - 1 || Merged(f'.reps, done + todo))
    decreases |todo|, 1
  {
    GrowSkips(n, todo, f);
    GrowRestCorrect(n, todo, f, done);
  }

  /** `GrowCorrect` on the rest of the worklist, once its dropped head counts as examined. */
  lemma {:induction false} GrowRestCorrect(n: nat, todo: seq<Edge>, f: Forest, done: seq<Edge>)
    requires Invariant(n, f) && Merged(f.reps, done) && |todo| > 0
    requires Find(f.reps, todo[0].from) == Find(f.reps, todo[0].to)
    requires forall i :: 0 <= i < |done| ==> done[i].from < n && done[i].to < n
    requires forall i :: 0 <= i < |todo| ==> todo[i].from < n && todo[i].to < n
    ensures Grow(n, todo[1..], f).Ok?
    ensures var f' := Grow(n, todo[1..], f).value;
      Invariant(n, f') && (|f'.tree| == n - 1 || Merged(f'.reps, done + todo))
    decreases |todo|, 0
  {
    var e, rest := todo[0], todo[1..];
    MoveHead(done, todo);
    MergedAppend(f.reps, done, e);
    GrowCorrect(n, rest, f, done + [e]);
  }

  /** Moving the head of the worklist to the end of the examined edges keeps their concatenation. */
  lemma MoveHead<T>(done: seq<T>, todo: seq<T>)
    requires |todo| > 0
    ensures done + todo == (done + [todo[0]]) + todo[1..]
  {
  }

  /** `Grow` keeping the head of the worklist. */
  lemma GrowKeeps(n: nat, todo: seq<Edge>, f: Forest, ra: nat, rb: nat)
    requires |f.tree| < n - 1 && |todo| > 0
    requires Find(f.reps, todo[0].from) == Ok(ra) && Find(f.reps, todo[0].to) == Ok(rb) && ra != rb
    ensures Grow(n, todo, f) == Grow(n, todo[1..], Forest(Union(f.reps, ra, rb), f.tree + [todo[0]]))
  {
  }

  /** `Grow` dropping the head of the worklist, whose ends share a root. */
  lemma GrowSkips(n: nat, todo: seq<Edge>, f: Forest)
    requires |f.tree| < n - 1 && |todo| > 0
    requires Find(f.reps, todo[0].from).Ok? && Find(f.reps, todo[0].from) == Find(f.reps, todo[0].to)
    ensures Grow(n, todo, f) == Grow(n, todo[1..], f)
  {
  }

  lemma MergedAppend(m: Reps, done: seq<Edge>, e: Edge)
    requires Merged(m, done) && Find(m, e.from) == Find(m, e.to)
    ensures Merged(m, done + [e])
  {
    var d := done + [e];
    assert forall i :: 0 <= i < |done| ==> d[i] == done[i];
  }

  lemma InitialInvariant(n: nat)
    requires n >= 1
    ensures Invariant(n, Forest(Singletons(n), []))
  {
    var f := Forest(Singletons(n), []);
    SingletonsCount(n);
    forall a: nat, b: nat | a < n && b < n
      ensures Find(f.reps, a) == Find(f.reps, b) <==> Connected(f.tree, a, b)
    {
      if Connected(f.tree, a, b) {
        var p :| IsWalk(f.tree, p) && p[0] == a && p[|p| - 1] == b;
        assert |p| == 1 || Adjacent(f.tree, p[0], p[1]);
      }
      if a == b {
        ConnectedRefl(f.tree, a);
      }
    }
  }

  /**
   * `spanningTree` on `n >= 1` vertices never throws; its tree is acyclic and
   * joins two vertices exactly when they share a representative; and unless
   * it reached `n - 1` edges, every candidate edge lies inside one class.
   */
  lemma SpanningTreeCorrect(n: nat, edges: seq<Edge>)
    requires n >= 1
    requires forall i :: 0 <= i < |edges| ==> edges[i].from < n && edges[i].to < n
    ensures SpanningTree(n, edges).Ok?
    ensures var f := SpanningTree(n, edges).value;
      && Invariant(n, f)
      && (|f.tree| == n - 1 || Merged(f.reps, edges))
  {
    var sorted := Sort(edges);
    SortedInRange(n, edges);
    InitialInvariant(n);
    GrowCorrect(n, sorted, Forest(Singletons(n), []), []);
    var f := SpanningTree(n, edges).value;
    if |f.tree| != n - 1 {
      assert [] + sorted == sorted;
      MergedSorted(f.reps, edges);
    }
  }

  /** Sorting keeps every edge's ends among the `n` vertices. */
  lemma SortedInRange(n: nat, edges: seq<Edge>)
    requires forall i :: 0 <= i < |edges| ==> edges[i].from < n && edges[i].to < n
    ensures forall i :: 0 <= i < |Sort(edges)| ==> Sort(edges)[i].from < n && Sort(edges)[i].to < n
  {
    var sorted := Sort(edges);
    SortSameEdges(edges);
    forall i | 0 <= i < |sorted|
      ensures sorted[i].from < n && sorted[i].to < n
    {
      assert sorted[i] in edges;
    }
  }

  /** Sorting keeps exactly the same edges. */
  lemma SortSameEdges(edges: seq<Edge>)
    ensures forall e :: e in Sort(edges) <==> e in edges
  {
    forall e
      ensures e in Sort(edges) <==> e in edges
    {
      assert e in Sort(edges) <==> e in multiset(Sort(edges));
    }
  }

  /** Whether every edge lies inside one class does not depend on their order. */
  lemma MergedSorted(m: Reps, edges: seq<Edge>)
    requires Merged(m, Sort(edges))
    ensures Merged(m, edges)
  {
    var sorted := Sort(edges);
    SortSameEdges(edges);
    forall i | 0 <= i < |edges|
      ensures Find(m, edges[i].from) == Find(m, edges[i].to)
    {
      assert edges[i] in sorted;
      var j :| 0 <= j < |sorted| && sorted[j] == edges[i];
    }
  }

  // ---------------------------------------------------------------------------
  // The maze grid

  /** Every vertex but the first has a candidate edge to an earlier vertex. */
  lemma EarlierNeighbour(w: nat, h: nat, es: seq<Edge>, v: nat) returns (u: nat, i: nat)
    requires w >= 1 && h >= 1 && 0 < v < w * h
    requires forall x: nat :: x < w * (h - 1) ==> HasDown(es, w, x)
    requires forall x: nat :: x < w * h && x % w < w - 1 ==> HasRight(es, x)
    ensures u < v && i < |es| && Joins(es[i], u, v)
  {
    if v % w > 0 {
      LeftNeighbour(w, h, v);
      u := v - 1;
      assert HasRight(es, u);
      i :| 0 <= i < |es| && es[i].from == u && es[i].to == u + 1;
    } else {
      UpNeighbour(w, h, v);
      u := v - w;
      assert HasDown(es, w, u);
      i :| 0 <= i < |es| && es[i].from == u && es[i].to == u + w;
    }
  }

  /** The vertex left of one off the first column is in the grid, off the last column. */
  lemma LeftNeighbour(w: nat, h: nat, v: nat)
    requires w >= 1 && h >= 1 && v < w * h && v % w > 0
    ensures v >= 1 && (v - 1) % w < w - 1
  {
    var r, c := v / w, v % w;
    assert v == r * w + c;
    RowColumn(w, r, c - 1);
  }

  /** The vertex above one in the first column, past the first row, is above the last row. */
  lemma UpNeighbour(w: nat, h: nat, v: nat)
    requires w >= 1 && h >= 1 && 0 < v < w * h && v % w == 0
    ensures v >= w && v - w < w * (h - 1)
  {
    var r := v / w;
    assert v == r * w;
    assert r >= 1;
    MulMono(h, r, w);
    assert r < h;
    RowBounds(w, h, r - 1, 0);
    assert v - w == (r - 1) * w + 0;
  }

  /**
   * On the candidate edges of a `w` by `h` maze, `spanningTree` yields a
   * spanning tree: `w * h - 1` edges, acyclic, and every vertex shares the
   * top-left vertex's representative and is joined to it by the tree.
   */
  lemma MazeSpanningTree(w: nat, h: nat, weights: seq<int>)
    requires w >= 1 && h >= 1
    requires |weights| >= EdgeCount(w, h)
    ensures SpanningTree(w * h, CreateEdges(w, h, weights)).Ok?
    ensures var f := SpanningTree(w * h, CreateEdges(w, h, weights)).value;
      && |f.tree| == w * h - 1
      && Acyclic(f.tree)
      && (forall v: nat :: v < w * h ==> Find(f.reps, v) == Find(f.reps, 0))
      && (forall v: nat :: v < w * h ==> Connected(f.tree, 0, v))
  {
    var n := w * h;
    var es := CreateEdges(w, h, weights);
    CreateEdgesShape(w, h, weights);
    forall i | 0 <= i < |es|
      ensures es[i].from < n && es[i].to < n
    {
      GridEdgeInRange(w, h, es[i]);
    }
    SpanningTreeCorrect(n, es);
    var f := SpanningTree(n, es).value;
    FindWithinUnions(n, f, 0);
    var root := Find(f.reps, 0).value;
    assert root in Roots(f.reps);
    if |f.tree| == n - 1 {
      forall v: nat | v < n
        ensures Find(f.reps, v) == Find(f.reps, 0)
      {
        FindWithinUnions(n, f, v);
        OneRoot(Roots(f.reps), root, Find(f.reps, v).value);
      }
    } else {
      AllJoinedToStart(w, h, es, f.reps);
    }
    assert Roots(f.reps) == {root} by {
      forall r | r in Roots(f.reps)
        ensures r == root
      {
        assert Find(f.reps, r) == Ok(r);
      }
    }
    forall v: nat | v < n
      ensures Connected(f.tree, 0, v)
    {
      assert Find(f.reps, 0) == Find(f.reps, v);
    }
  }

  lemma OneRoot(s: set<nat>, a: nat, b: nat)
    requires |s| == 1 && a in s && b in s
    ensures a == b
  {
    var rest := s - {a};
    assert |rest| == 0;
    assert b !in rest;
  }

  /** With every grid edge merged, every vertex shares vertex 0's root. */
  lemma AllJoinedToStart(w: nat, h: nat, es: seq<Edge>, m: Reps)
    requires w >= 1 && h >= 1
    requires forall x: nat :: x < w * (h - 1) ==> HasDown(es, w, x)
    requires forall x: nat :: x < w * h && x % w < w - 1 ==> HasRight(es, x)
    requires Merged(m, es)
    ensures forall v: nat :: v < w * h ==> Find(m, v) == Find(m, 0)
  {
    forall v: nat | v < w * h
      ensures Find(m, v) == Find(m, 0)
    {
      JoinedToStart(w, h, es, m, v);
    }
  }

  lemma {:induction false} JoinedToStart(w: nat, h: nat, es: seq<Edge>, m: Reps, v: nat)
    requires w >= 1 && h >= 1 && v < w * h
    requires forall x: nat :: x < w * (h - 1) ==> HasDown(es, w, x)
    requires forall x: nat :: x < w * h && x % w < w - 1 ==> HasRight(es, x)
    requires Merged(m, es)
    ensures Find(m, v) == Find(m, 0)
    decreases v
  {
    if v > 0 {
      var u, i := EarlierNeighbour(w, h, es, v);
      JoinedToStart(w, h, es, m, u);
      assert Find(m, es[i].from) == Find(m, es[i].to);
    }
  }
}

=== FILE: openings.dfy ===
/**
 * `Vertex.changeBools`: which of a cell's four sides are open, read off the
 * spanning tree.  A vertex's position is (column, row) = (`v % w`, `v / w`).
 */
module Openings {
  import opened Grid
  import opened Kruskal

  /** The `left`, `right`, `top` and `bottom` flags of a `Vertex`. */
  datatype Sides = Sides(left: bool, right: bool, top: bool, bottom: bool)

  /** A new `Vertex` has every side closed. */
  const Closed: Sides := Sides(false, false, false, false)

  /** The first branch of `changeBools` that the offset to `u` selects. */
  function OpenTowards(s: Sides, w: nat, v: nat, u: nat): Sides
    requires w >= 1
  {
    if Col(u, w) < Col(v, w) then s.(left := true)
    else if Col(u, w) > Col(v, w) then s.(right := true)
    else if Row(u, w) > Row(v, w) then s.(bottom := true)
    else if Row(u, w) < Row(v, w) then s.(top := true)
    else s
  }

  /**
   * `v.changeBools(tree)` where `inc` is `v`'s edge list: a flag is set when
   * some edge of the list is in the tree and leads to that side, and flags are
   * never cleared.
   */
  function ChangeBools(s: Sides, w: nat, v: nat, inc: seq<Edge>, tree: seq<Edge>): (r: Sides)
    requires w >= 1
    ensures r.left <==>
      (s.left || exists e :: e in inc && e in tree && Col(Other(e, v), w) < Col(v, w))
    ensures r.right <==>
      (s.right || exists e :: e in inc && e in tree && Col(Other(e, v), w) > Col(v, w))
    ensures r.bottom <==>
      (s.bottom || exists e :: e in inc && e in tree && Col(Other(e, v), w) == Col(v, w)
                                && Row(Other(e, v), w) > Row(v, w))
    ensures r.top <==>
      (s.top || exists e :: e in inc && e in tree && Col(Other(e, v), w) == Col(v, w)
                             && Row(Other(e, v), w) < Row(v, w))
    decreases |inc|
  {
    if |inc| == 0 then s
    else
      var e := inc[0];
      var s' := if e in tree then OpenTowards(s, w, v, Other(e, v)) else s;
      var r := ChangeBools(s', w, v, inc[1..], tree);
      assert inc == [e] + inc[1..];
      r
  }

  /** The flags of every vertex after `spanningTree`'s final loop. */
  function OpeningsOf(w: nat, n: nat, edges: seq<Edge>, tree: seq<Edge>): (sides: seq<Sides>)
    requires w >= 1
    ensures |sides| == n
    ensures forall v :: 0 <= v < n ==> sides[v] == ChangeBools(Closed, w, v, Incident(edges, v), tree)
  {
    seq(n, v requires 0 <= v < n => ChangeBools(Closed, w, v, Incident(edges, v), tree))
  }

  /** The two ends of a rightward grid edge share a row, in adjacent columns. */
  lemma RightEdgeEnds(w: nat, h: nat, e: Edge)
    requires w >= 1 && h >= 1 && IsRight(w, h, e)
    ensures Col(e.from, w) + 1 == Col(e.to, w) && Row(e.from, w) == Row(e.to, w)
  {
    var r, c := e.from / w, e.from % w;
    RowColumn(w, r, c + 1);
    assert e.to == r * w + (c + 1);
  }

  /** The two ends of a downward grid edge share a column, in adjacent rows. */
  lemma DownEdgeEnds(w: nat, h: nat, e: Edge)
    requires w >= 1 && h >= 1 && IsDown(w, h, e)
    ensures Col(e.from, w) == Col(e.to, w) && Row(e.from, w) + 1 == Row(e.to, w)
  {
    var r, c := e.from / w, e.from % w;
    RowColumn(w, r + 1, c);
    assert e.to == (r + 1) * w + c;
  }

  /**
   * On a grid whose tree uses only candidate edges, each flag of `v` is set
   * exactly when the tree holds the edge to the neighbour on that side: left
   * and right are the horizontal edges ending and starting at `v`, top and
   * bottom the vertical ones.
   */
  lemma OpeningsMatchTree(w: nat, h: nat, edges: seq<Edge>, tree: seq<Edge>, v: nat)
    requires w >= 1 && h >= 1
    requires forall i :: 0 <= i < |edges| ==> IsGridEdge(w, h, edges[i])
    requires forall e :: e in tree ==> e in edges
    ensures var s := ChangeBools(Closed, w, v, Incident(edges, v), tree);
      && (s.left <==> exists e :: e in tree && IsRight(w, h, e) && e.to == v)
      && (s.right <==> exists e :: e in tree && IsRight(w, h, e) && e.from == v)
      && (s.top <==> exists e :: e in tree && IsDown(w, h, e) && e.to == v)
      && (s.bottom <==> exists e :: e in tree && IsDown(w, h, e) && e.from == v)
  {
    var inc := Incident(edges, v);
    forall e | e in inc && e in tree
      ensures var u := Other(e, v);
        && (Col(u, w) < Col(v, w) <==> IsRight(w, h, e) && e.to == v)
        && (Col(u, w) > Col(v, w) <==> IsRight(w, h, e) && e.from == v)
        && (Col(u, w) == Col(v, w) && Row(u, w) < Row(v, w) <==> IsDown(w, h, e) && e.to == v)
        && (Col(u, w) == Col(v, w) && Row(u, w) > Row(v, w) <==> IsDown(w, h, e) && e.from == v)
    {
      var i :| 0 <= i < |edges| && edges[i] == e;
      EdgeEnds(w, h, e);
    }
    forall e | e in tree && (e.from == v || e.to == v)
      ensures e in inc
    {
    }
  }

  /** Where the far end of a grid edge lies, seen from either end. */
  lemma EdgeEnds(w: nat, h: nat, e: Edge)
    requires w >= 1 && h >= 1 && IsGridEdge(w, h, e)
    ensures IsRight(w, h, e) <==> !IsDown(w, h, e)
    ensures e.from != e.to
    ensures IsRight(w, h, e) ==>
      Col(e.from, w) + 1 == Col(e.to, w) && Row(e.from, w) == Row(e.to, w)
    ensures IsDown(w, h, e) ==>
      Col(e.from, w) == Col(e.to, w) && Row(e.from, w) + 1 == Row(e.to, w)
  {
    if IsRight(w, h, e) {
      RightEdgeEnds(w, h, e);
    } else {
      DownEdgeEnds(w, h, e);
    }
  }
}

=== FILE: pixel.dfy ===
/**
 * `model.Pixel`: a mutable record of three `int` colour channels.  The
 * constructor refuses negative channels, the setters do not, and `clone`
 * goes back through the constructor.  Mutation is modelled by returning the
 * updated record.
 */
module Pixels {
  import opened Wrappers
  import opened JavaLang

  datatype Pixel = Pixel(red: Int32, green: Int32, blue: Int32)

  /** What the constructor accepts: no channel below zero. */
  predicate NonNegative(p: Pixel)
  {
    p.red >= 0 && p.green >= 0 && p.blue >= 0
  }

  /** `new Pixel(red, green, blue)`; the getters read the fields back. */
  function NewPixel(red: Int32, green: Int32, blue: Int32): (r: Result<Pixel, Exception>)
    ensures r.Ok? <==> red >= 0 && green >= 0 && blue >= 0
    ensures r.Ok? ==> r.value.red == red && r.value.green == green && r.value.blue == blue
    ensures r.Err? ==> r.error == IllegalArgument
  {
    if red < 0 || green < 0 || blue < 0 then Err(IllegalArgument)
    else Ok(Pixel(red, green, blue))
  }

  function SetRed(p: Pixel, v: Int32): (q: Pixel)
    ensures q.red == v && q.green == p.green && q.blue == p.blue
  {
    p.(red := v)
  }

  function SetGreen(p: Pixel, v: Int32): (q: Pixel)
    ensures q.green == v && q.red == p.red && q.blue == p.blue
  {
    p.(green := v)
  }

  function SetBlue(p: Pixel, v: Int32): (q: Pixel)
    ensures q.blue == v && q.red == p.red && q.green == p.green
  {
    p.(blue := v)
  }

  /** `setRGB` overwrites all three channels, whatever they held. */
  function SetRGB(p: Pixel, r: Int32, g: Int32, b: Int32): (q: Pixel)
    ensures q == Pixel(r, g, b)
  {
    Pixel(r, g, b)
  }

  /** `clone()` re-runs the constructor on the current channels. */
  function Clone(p: Pixel): (r: Result<Pixel, Exception>)
    ensures r.Ok? <==> NonNegative(p)
    ensures r.Ok? ==> r.value == p
    ensures r.Err? ==> r.error == IllegalArgument
  {
    NewPixel(p.red, p.green, p.blue)
  }

  /** `setRGB` is the three single-channel setters in a row. */
  lemma SetRGBIsSetters(p: Pixel, r: Int32, g: Int32, b: Int32)
    ensures SetRGB(p, r, g, b) == SetBlue(SetGreen(SetRed(p, r), g), b)
  {
  }

  /** A constructed pixel clones to itself; a setter that writes a negative value makes `clone` throw. */
  lemma CloneAfterSet(red: Int32, green: Int32, blue: Int32, v: Int32)
    requires NewPixel(red, green, blue).Ok?
    ensures var p := NewPixel(red, green, blue).value;
      && Clone(p) == Ok(p)
      && (Clone(SetRed(p, v)).Ok? <==> v >= 0)
      && (Clone(SetGreen(p, v)).Ok? <==> v >= 0)
      && (Clone(SetBlue(p, v)).Ok? <==> v >= 0)
  {
  }

  // ---------------------------------------------------------------------------
  // Channel arithmetic shared by the editor and the histogram

  /**
   * `(int) Math.round(s / 3.0)` for an `int` sum `s`.  `Math.round(x)` is
   * `floor(x + 1/2)`, and with `s = 3q + k` (`k` in 0..2) that is `q` for
   * `k` of 0 or 1 and `q + 1` for `k == 2`, which is `(s + 1)` divided by 3
   * rounding down.  The double `s / 3.0` is exact when `k == 0` and otherwise at
   * least 1/6 away from a half, so its rounding error changes nothing.
   */
  function RoundThird(s: int): (k: int)
    ensures -1 <= s - 3 * k <= 1
  {
    (s + 1) / 3
  }

  /** The integer nearest to a third is unique, so `RoundThird` is the only rounding. */
  lemma RoundThirdUnique(s: int, k: int)
    requires -1 <= s - 3 * k <= 1
    ensures k == RoundThird(s)
  {
  }

  /**
   * The `int` intensity of a pixel as `component` and `fillFrequencies` compute
   * it: the channel sum wraps like Java `int` addition before it is divided.
   */
  function IntensityLevel(p: Pixel): (k: Int32)
    ensures IsInt(p.red + p.green + p.blue) ==> -1 <= p.red + p.green + p.blue - 3 * k <= 1
  {
    var s := Wrap32(Wrap32(p.red + p.green) + p.blue);
    WrapSum(p.red, p.green, p.blue);
    RoundThird(s)
  }

  /** Two wrapped additions are one wrapped sum. */
  lemma WrapSum(a: Int32, b: Int32, c: Int32)
    ensures Wrap32(Wrap32(a + b) + c) == Wrap32(a + b + c)
  {
    var ab := Wrap32(a + b);
    var t := Wrap32(ab + c);
    var u := Wrap32(a + b + c);
    assert (a + b + c - t) % TwoTo32 == 0 by {
      assert (a + b - ab) % TwoTo32 == 0;
      assert (ab + c - t) % TwoTo32 == 0;
      var x, y := (a + b - ab) / TwoTo32, (ab + c - t) / TwoTo32;
      assert a + b + c - t == (x + y) * TwoTo32;
    }
    assert (t - u) % TwoTo32 == 0 by {
      var x, y := (a + b + c - t) / TwoTo32, (a + b + c - u) / TwoTo32;
      assert t - u == (y - x) * TwoTo32;
    }
    assert -TwoTo32 < t - u < TwoTo32;
  }

  /** For channels in 0..255 the intensity is again in 0..255. */
  lemma IntensityInByte(p: Pixel)
    requires 0 <= p.red < 256 && 0 <= p.green < 256 && 0 <= p.blue < 256
    ensures 0 <= IntensityLevel(p) < 256
  {
  }

  /** `Math.max(Math.max(r, g), b)`: the largest channel. */
  function MaxChannel(p: Pixel): (m: Int32)
    ensures m >= p.red && m >= p.green && m >= p.blue
    ensures m == p.red || m == p.green || m == p.blue
  {
    var rg := if p.red >= p.green then p.red else p.green;
    if rg >= p.blue then rg else p.blue
  }
}

=== FILE: ppm.dfy ===
/**
 * Plain PPM ("P3") text, as `ImageUtil.readPPM` and the controller's
 * `loadPPM` read it and the controller's `savePPM` writes it.  A file is the
 * sequence of its lines.  Reading keeps the lines that do not start with '#',
 * each followed by a line separator, and reads Scanner tokens from that text:
 * "P3", the width, the height, a maximum value that is read and ignored, then
 * an r g b triple per pixel, row by row.
 */
module Ppm {
  import opened Wrappers
  import opened JavaLang
  import opened Pixels
  import opened Editor

  const Magic: string := "P3"
  const Banner: string := "#" + " Created by SimpleImage program. OOD Assignment 4"
  const MaxLevel: string := "255"

  // ---------------------------------------------------------------------------
  // Reading

  /** Lines, each followed by the line separator. */
  function Joined(lines: seq<string>): string
  {
    if |lines| == 0 then "" else lines[0] + "\n" + Joined(lines[1..])
  }

  /**
   * The first loop of `readPPM`: every line whose first character is not '#',
   * each followed by a line separator.  `charAt(0)` throws on an empty line.
   */
  function Uncommented(lines: seq<string>): (r: Result<string, Exception>)
    ensures r.Err? <==> "" in lines
    ensures r.Err? ==> r.error == IndexOutOfBounds
  {
    if |lines| == 0 then Ok("")
    else
      assert lines == [lines[0]] + lines[1..];
      if lines[0] == "" then Err(IndexOutOfBounds)
      else match Uncommented(lines[1..])
        case Err(e) => Err(e)
        case Ok(rest) => Ok((if lines[0][0] == '#' then "" else lines[0] + "\n") + rest)
  }

  /** The text of two blocks of lines is the text of each, one after the other. */
  lemma {:induction false} UncommentedAppend(a: seq<string>, b: seq<string>)
    requires "" !in a && "" !in b
    ensures Uncommented(a + b) == Ok(Uncommented(a).value + Uncommented(b).value)
  {
    if |a| > 0 {
      assert (a + b)[0] == a[0];
      assert (a + b)[1..] == a[1..] + b;
      assert "" !in a[1..] by { assert a == [a[0]] + a[1..]; }
      UncommentedAppend(a[1..], b);
      var head := if a[0][0] == '#' then "" else a[0] + "\n";
      assert Uncommented(a).value == head + Uncommented(a[1..]).value;
      assert Uncommented(a + b).value == head + Uncommented(a[1..] + b).value;
      assert head + (Uncommented(a[1..]).value + Uncommented(b).value)
        == (head + Uncommented(a[1..]).value) + Uncommented(b).value;
    } else {
      assert a + b == b;
      assert Uncommented(a) == Ok("");
      assert "" + Uncommented(b).value == Uncommented(b).value;
    }
  }

  /** A comment line can be inserted anywhere without changing what is read. */
  lemma CommentIgnored(a: seq<string>, comment: string, b: seq<string>)
    requires "" !in a && "" !in b && comment != "" && comment[0] == '#'
    ensures Uncommented(a + ([comment] + b)) == Uncommented(a + b)
  {
    UncommentedAppend(a, [comment] + b);
    var cb := [comment] + b;
    assert cb[0] == comment && cb[1..] == b;
    assert "" + Uncommented(b).value == Uncommented(b).value;
    assert Uncommented(cb) == Uncommented(b);
    UncommentedAppend(a, b);
  }

  /** `Scanner.nextInt()`: the next token as an `int`. */
  function NextInt(ts: seq<string>): (r: Result<Int32, Exception>)
    ensures |ts| == 0 ==> r == Err(NoSuchElement)
    ensures |ts| > 0 ==> (r.Ok? <==> ParseInt(ts[0]).Some?)
    ensures r.Ok? ==> ParseInt(ts[0]) == Some(r.value)
    ensures r.Err? && |ts| > 0 ==> r.error == InputMismatch
  {
    if |ts| == 0 then Err(NoSuchElement)
    else match ParseInt(ts[0])
      case None => Err(InputMismatch)
      case Some(v) => Ok(v)
  }

  /** The body of the pixel loop: three `nextInt`s, then the `Pixel` constructor. */
  function ReadPixel(ts: seq<string>): (r: Result<Pixel, Exception>)
    ensures r.Ok? ==> |ts| >= 3 && NonNegative(r.value)
    ensures r.Ok? ==> && ParseInt(ts[0]) == Some(r.value.red)
                      && ParseInt(ts[1]) == Some(r.value.green)
                      && ParseInt(ts[2]) == Some(r.value.blue)
  {
    match NextInt(ts)
    case Err(e) => Err(e)
    case Ok(red) =>
      match NextInt(ts[1..])
      case Err(e) => Err(e)
      case Ok(green) =>
        match NextInt(ts[2..])
        case Err(e) => Err(e)
        case Ok(blue) => NewPixel(red, green, blue)
  }

  /** One row of the pixel loop: `w` pixels, three tokens each. */
  function ReadRow(ts: seq<string>, w: nat): (r: Result<(seq<Pixel>, seq<string>), Exception>)
    ensures r.Ok? ==> |r.value.0| == w && 3 * w <= |ts| && r.value.1 == ts[3 * w..]
    decreases w
  {
    if w == 0 then Ok(([], ts))
    else match ReadPixel(ts)
      case Err(e) => Err(e)
      case Ok(p) =>
        match ReadRow(ts[3..], w - 1)
        case Err(e) => Err(e)
        case Ok(rest) => Ok(([p] + rest.0, rest.1))
  }

  /** `h` rows of `w` pixels, and the tokens left after them. */
  function ReadRows(ts: seq<string>, h: nat, w: nat): (r: Result<(seq<seq<Pixel>>, seq<string>), Exception>)
    ensures r.Ok? ==> |r.value.0| == h && AllWidth(r.value.0, w)
    decreases h
  {
    if h == 0 then Ok(([], ts))
    else match ReadRow(ts, w)
      case Err(e) => Err(e)
      case Ok(row) =>
        match ReadRows(row.1, h - 1, w)
        case Err(e) => Err(e)
        case Ok(rest) => Ok(([row.0] + rest.0, rest.1))
  }

  /** What follows "P3": width, height, the array allocation, the ignored maximum, the pixels. */
  function ReadBody(ts: seq<string>): (r: Result<Image, Exception>)
  {
    match NextInt(ts)
    case Err(e) => Err(e)
    case Ok(width) =>
      match NextInt(ts[1..])
      case Err(e) => Err(e)
      case Ok(height) =>
        if width < 0 || height < 0 then Err(NegativeArraySize)
        else if NextInt(ts[2..]).Err? then Err(NextInt(ts[2..]).error)
        else
          match ReadRows(ts[3..], height, width)
          case Err(e) => Err(e)
          case Ok(rows) => AllWidthRows(rows.0, width); Ok(rows.0)
  }

  /** The token-reading part shared by both readers; they differ in what a file without tokens raises. */
  function ReadTokens(ts: seq<string>, onEmpty: Exception): (r: Result<Image, Exception>)
    ensures |ts| == 0 ==> r == Err(onEmpty)
    ensures |ts| > 0 && ts[0] != Magic ==> r == Err(IllegalState)
  {
    if |ts| == 0 then Err(onEmpty)
    else if ts[0] != Magic then Err(IllegalState)
    else ReadBody(ts[1..])
  }

  /** `ImageUtil.readPPM` on the lines of an existing file. */
  function ReadPPM(lines: seq<string>): (r: Result<Image, Exception>)
    ensures "" in lines ==> r == Err(IndexOutOfBounds)
    ensures "" !in lines && Tokens(Uncommented(lines).value) == [] ==> r == Err(NoSuchElement)
    ensures "" !in lines ==> var ts := Tokens(Uncommented(lines).value);
      |ts| > 0 && ts[0] != Magic ==> r == Err(IllegalState)
  {
    var text :- Uncommented(lines);
    ReadTokens(Tokens(text), NoSuchElement)
  }

  /** The parsing in the controller's `loadPPM`: as `readPPM`, except that a file without tokens is IllegalState. */
  function LoadPPMText(lines: seq<string>): (r: Result<Image, Exception>)
    ensures "" in lines ==> r == Err(IndexOutOfBounds)
    ensures "" !in lines && Tokens(Uncommented(lines).value) == [] ==> r == Err(IllegalState)
    ensures "" !in lines ==> var ts := Tokens(Uncommented(lines).value);
      |ts| > 0 && ts[0] != Magic ==> r == Err(IllegalState)
    ensures r.Ok? ==> r == ReadPPM(lines)
  {
    var text :- Uncommented(lines);
    ReadTokens(Tokens(text), IllegalState)
  }

  // ---------------------------------------------------------------------------
  // What a successful read returns

  /** What `Integer.parseInt` makes of each token, `None` where it throws. */
  function Parsed(ts: seq<string>): (vs: seq<Option<int>>)
    ensures |vs| == |ts|
  {
    if |ts| == 0 then [] else [ParseInt(ts[0])] + Parsed(ts[1..])
  }

  /** The red, green and blue values of each pixel, in order. */
  function Channels(ps: seq<Pixel>): (vs: seq<Option<int>>)
    ensures |vs| == 3 * |ps|
  {
    if |ps| == 0 then []
    else [Some(ps[0].red), Some(ps[0].green), Some(ps[0].blue)] + Channels(ps[1..])
  }

  /** `ts` is the r g b tokens of `ps`, three per pixel, in order. */
  ghost predicate Triples(ts: seq<string>, ps: seq<Pixel>)
    decreases |ps|
  {
    if |ps| == 0 then |ts| == 0
    else
      && |ts| >= 3
      && ParseInt(ts[0]) == Some(ps[0].red)
      && ParseInt(ts[1]) == Some(ps[0].green)
      && ParseInt(ts[2]) == Some(ps[0].blue)
      && Triples(ts[3..], ps[1..])
  }

  /** Parsing the tokens one by one gives the channel values of the pixels, and nothing more. */
  lemma {:induction false} TriplesIsParsed(ts: seq<string>, ps: seq<Pixel>)
    ensures Triples(ts, ps) <==> Parsed(ts) == Channels(ps)
    decreases |ps|
  {
    if |ps| > 0 && |ts| >= 3 {
      TriplesIsParsed(ts[3..], ps[1..]);
      ParsedCons3(ts);
      ConsEqual([ParseInt(ts[0]), ParseInt(ts[1]), ParseInt(ts[2])], Parsed(ts[3..]),
                [Some(ps[0].red), Some(ps[0].green), Some(ps[0].blue)], Channels(ps[1..]));
    }
  }

  /** `Parsed` of at least three tokens, unfolded three times. */
  lemma ParsedCons3(ts: seq<string>)
    requires |ts| >= 3
    ensures Parsed(ts) == [ParseInt(ts[0]), ParseInt(ts[1]), ParseInt(ts[2])] + Parsed(ts[3..])
  {
    ParsedCons(ts);
    ParsedCons(ts[1..]);
    ParsedCons(ts[2..]);
    assert ts[1..][1..] == ts[2..] && ts[2..][1..] == ts[3..];
    Regroup3(ParseInt(ts[0]), ParseInt(ts[1]), ParseInt(ts[2]), Parsed(ts[3..]));
  }

  lemma ParsedCons(ts: seq<string>)
    requires |ts| > 0
    ensures Parsed(ts) == [ParseInt(ts[0])] + Parsed(ts[1..])
  {
  }

  lemma Regroup3<T>(a: T, b: T, c: T, s: seq<T>)
    ensures [a] + ([b] + ([c] + s)) == [a, b, c] + s
  {
  }

  /** Two concatenations with equally long fronts are equal exactly when the parts are. */
  lemma ConsEqual<T>(a: seq<T>, b: seq<T>, c: seq<T>, d: seq<T>)
    requires |a| == |c|
    ensures a + b == c + d <==> a == c && b == d
  {
    if a + b == c + d {
      assert a == (a + b)[..|a|] && c == (c + d)[..|a|];
      assert b == (a + b)[|a|..] && d == (c + d)[|a|..];
    }
  }

  /** Entry `i` of `Parsed` is the parse of token `i`. */
  lemma {:induction false} ParsedAt(ts: seq<string>, i: nat)
    requires i < |ts|
    ensures Parsed(ts)[i] == ParseInt(ts[i])
    decreases i
  {
    if i > 0 {
      ParsedAt(ts[1..], i - 1);
    }
  }

  /** Entries `3 n`, `3 n + 1` and `3 n + 2` of `Channels` are pixel `n`'s. */
  lemma {:induction false} ChannelsAt(ps: seq<Pixel>, n: nat)
    requires n < |ps|
    ensures && Channels(ps)[3 * n] == Some(ps[n].red)
            && Channels(ps)[3 * n + 1] == Some(ps[n].green)
            && Channels(ps)[3 * n + 2] == Some(ps[n].blue)
    decreases n
  {
    if n > 0 {
      ChannelsAt(ps[1..], n - 1);
    }
  }

  lemma {:induction false} TriplesAppend(a: seq<string>, p: seq<Pixel>, b: seq<string>, q: seq<Pixel>)
    requires Triples(a, p) && Triples(b, q)
    ensures Triples(a + b, p + q)
    decreases |p|
  {
    if |p| == 0 {
      AppendEmpty(a, b);
      AppendEmpty(p, q);
    } else {
      TriplesAppend(a[3..], p[1..], b, q);
      DropAppend(a, b, 3);
      DropAppend(p, q, 1);
    }
  }

  /** Appending to an empty sequence. */
  lemma AppendEmpty<T>(a: seq<T>, b: seq<T>)
    requires |a| == 0
    ensures a + b == b
  {
  }

  /** Dropping a prefix of the first part of a concatenation; the kept prefix is unchanged. */
  lemma DropAppend<T>(a: seq<T>, b: seq<T>, k: nat)
    requires k <= |a|
    ensures (a + b)[k..] == a[k..] + b
    ensures forall i :: 0 <= i < k ==> (a + b)[i] == a[i]
  {
  }

  /** Cutting `a` then `b` elements off the front is cutting `a + b`. */
  lemma SliceSplit(ts: seq<string>, a: nat, b: nat)
    requires a + b <= |ts|
    ensures ts[..a] + ts[a..][..b] == ts[..a + b]
    ensures ts[a..][b..] == ts[a + b..]
  {
  }

  /** The first three tokens spell a pixel's channels. */
  lemma TriplesOne(ts: seq<string>, p: Pixel)
    requires |ts| >= 3
    requires ParseInt(ts[0]) == Some(p.red) && ParseInt(ts[1]) == Some(p.green) && ParseInt(ts[2]) == Some(p.blue)
    ensures Triples(ts[..3], [p])
  {
  }

  /** The pixels of some rows are those of the first row, then those of the others. */
  lemma FlattenCons(first: seq<Pixel>, others: seq<seq<Pixel>>)
    ensures Flatten([first] + others) == first + Flatten(others)
  {
    assert ([first] + others)[1..] == others;
  }

  /** Triples for the first `k` tokens and for the `m` after them are triples for all `k + m`. */
  lemma TriplesJoin(ts: seq<string>, k: nat, m: nat, a: seq<Pixel>, b: seq<Pixel>)
    requires k + m <= |ts| && Triples(ts[..k], a) && Triples(ts[k..][..m], b)
    ensures Triples(ts[..k + m], a + b)
  {
    TriplesAppend(ts[..k], a, ts[k..][..m], b);
    SliceSplit(ts, k, m);
  }

  /** A successful read of rows is a successful first row followed by a successful read of the others. */
  lemma ReadRowsOk(ts: seq<string>, h: nat, w: nat) returns (first: seq<Pixel>, mid: seq<string>, others: seq<seq<Pixel>>)
    requires h > 0 && ReadRows(ts, h, w).Ok?
    ensures ReadRow(ts, w) == Ok((first, mid))
    ensures ReadRows(mid, h - 1, w).Ok? && ReadRows(mid, h - 1, w).value.0 == others
    ensures ReadRows(ts, h, w).value == ([first] + others, ReadRows(mid, h - 1, w).value.1)
  {
    ReadRowsCons(ts, h, w);
    first, mid := ReadRow(ts, w).value.0, ReadRow(ts, w).value.1;
    others := ReadRows(mid, h - 1, w).value.0;
  }

  /** A row read from tokens holds, in order, the pixels whose channels the first `3 w` tokens spell. */
  lemma {:induction false} ReadRowTriples(ts: seq<string>, w: nat)
    requires ReadRow(ts, w).Ok?
    ensures Triples(ts[..3 * w], ReadRow(ts, w).value.0)
    decreases w
  {
    if w > 0 {
      ReadRowCons(ts, w);
      var p := ReadPixel(ts).value;
      var rest := ReadRow(ts[3..], w - 1).value;
      ReadRowTriples(ts[3..], w - 1);
      TriplesOne(ts, p);
      TriplesAppend(ts[..3], [p], ts[3..][..3 * (w - 1)], rest.0);
      SliceSplit(ts, 3, 3 * (w - 1));
    }
  }

  /** Each row's pixels are spelled by the next `3 |row|` tokens of `ts`, row after row. */
  ghost predicate RowsSpelled(ts: seq<string>, rows: seq<seq<Pixel>>)
    decreases |rows|
  {
    |rows| == 0 ||
      var k := 3 * |rows[0]|;
      k <= |ts| && Triples(ts[..k], rows[0]) && RowsSpelled(ts[k..], rows[1..])
  }

  /** The rows read hold, row by row, the pixels whose channels the consumed tokens spell. */
  lemma {:induction false} ReadRowsTriples(ts: seq<string>, h: nat, w: nat)
    requires ReadRows(ts, h, w).Ok?
    ensures RowsSpelled(ts, ReadRows(ts, h, w).value.0)
    decreases h
  {
    if h > 0 {
      var first, mid, others := ReadRowsOk(ts, h, w);
      ReadRowsTriples(mid, h - 1, w);
      ReadRowTriples(ts, w);
      RowsSpelledCons(ts, first, others);
    }
  }

  lemma RowsSpelledCons(ts: seq<string>, first: seq<Pixel>, others: seq<seq<Pixel>>)
    requires 3 * |first| <= |ts| && Triples(ts[..3 * |first|], first)
    requires RowsSpelled(ts[3 * |first|..], others)
    ensures RowsSpelled(ts, [first] + others)
  {
    assert ([first] + others)[1..] == others;
  }

  /** Rows spelled one after another are their flattened pixels spelled by the tokens they use. */
  lemma {:induction false} RowsSpelledFlat(ts: seq<string>, rows: seq<seq<Pixel>>)
    requires RowsSpelled(ts, rows)
    ensures 3 * |Flatten(rows)| <= |ts| && Triples(ts[..3 * |Flatten(rows)|], Flatten(rows))
    decreases |rows|
  {
    if |rows| > 0 {
      var k := 3 * |rows[0]|;
      RowsSpelledFlat(ts[k..], rows[1..]);
      FlattenCons(rows[0], rows[1..]);
      HeadTail(rows);
      TriplesJoin(ts, k, 3 * |Flatten(rows[1..])|, rows[0], Flatten(rows[1..]));
    }
  }

    /**
   * `ts` starts with a width token, a height token and one more token, and
   * then `height` rows of `width` pixels whose channels are the following
   * tokens, three per pixel, row by row.
   */
  ghost predicate BodyShape(ts: seq<string>, img: Image)
  {
    var n := 3 * |Flatten(img)|;
    && |ts| >= 3 + n
    && ParseInt(ts[1]) == Some(|img|)
    && (forall i :: 0 <= i < |img| ==> ParseInt(ts[0]) == Some(|img[i]|))
    && Triples(ts[3..3 + n], Flatten(img))
  }

  /** What a successful read of the body consumed. */
  lemma ReadBodyShape(ts: seq<string>)
    requires ReadBody(ts).Ok?
    ensures BodyShape(ts, ReadBody(ts).value)
  {
    var w, h := NextInt(ts).value, NextInt(ts[1..]).value;
    ReadBodyRows(ts, w, h);
    ReadRowsTriples(ts[3..], h, w);
    RowsSpelledFlat(ts[3..], ReadRows(ts[3..], h, w).value.0);
    var n := 3 * |Flatten(ReadBody(ts).value)|;
    SliceSplit(ts, 3, n);
  }

  /** A successful read is "P3" followed by a body of the shape above. */
  lemma ReadPPMShape(lines: seq<string>)
    requires ReadPPM(lines).Ok?
    ensures Uncommented(lines).Ok?
    ensures var ts := Tokens(Uncommented(lines).value);
      |ts| > 0 && ts[0] == Magic && BodyShape(ts[1..], ReadPPM(lines).value)
  {
    ReadPPMBody(lines);
    ReadBodyShape(Tokens(Uncommented(lines).value)[1..]);
  }

  /** A successful read starts with the magic number and reads the body from the tokens after it. */
  lemma ReadPPMBody(lines: seq<string>)
    requires ReadPPM(lines).Ok?
    ensures Uncommented(lines).Ok?
    ensures var ts := Tokens(Uncommented(lines).value);
      |ts| > 0 && ts[0] == Magic && ReadBody(ts[1..]) == ReadPPM(lines)
  {
  }

  // ---------------------------------------------------------------------------
  // Writing

  /** Each pixel's red, green and blue on a line of its own. */
  function RowLines(row: seq<Pixel>): (lines: seq<string>)
    ensures |lines| == 3 * |row|
  {
    if |row| == 0 then []
    else [IntToString(row[0].red), IntToString(row[0].green), IntToString(row[0].blue)] + RowLines(row[1..])
  }

  function SampleLines(rows: seq<seq<Pixel>>): seq<string>
  {
    if |rows| == 0 then [] else RowLines(rows[0]) + SampleLines(rows[1..])
  }

  /** The "width height" line. */
  function SizeLine(img: Image): string
  {
    IntToString(Width(img)) + " " + IntToString(|img|)
  }

  /** What follows the banner: the size line, the maximum value and the samples. */
  function BodyLines(img: Image): (lines: seq<string>)
    ensures |lines| == 2 + 3 * |Flatten(img)|
  {
    FlattenSamples(img);
    [SizeLine(img), MaxLevel] + SampleLines(img)
  }

  /** The lines `savePPM` writes for a non-empty image. */
  function PpmLines(img: Image): (lines: seq<string>)
    requires |img| > 0
    ensures |lines| == 4 + 3 * |Flatten(img)|
    ensures lines[0] == Magic
  {
    [Magic] + ([Banner] + BodyLines(img))
  }

  lemma {:induction false} FlattenSamples(rows: seq<seq<Pixel>>)
    ensures |SampleLines(rows)| == 3 * |Flatten(rows)|
  {
    if |rows| > 0 {
      FlattenSamples(rows[1..]);
    }
  }

  /**
   * `savePPM`'s text for the named image: `releaseImage` throws IllegalState
   * for an unknown name, and `image[0].length` throws for an image without rows.
   */
  function SavePPMText(store: Store, name: string): (r: Result<seq<string>, Exception>)
    ensures r.Ok? <==> name in store && |store[name]| > 0
    ensures name !in store ==> r == Err(IllegalState)
    ensures r.Ok? ==> r.value == PpmLines(store[name])
  {
    var img :- ReleaseImage(store, Some(name));
    if |img| == 0 then Err(IndexOutOfBounds) else Ok(PpmLines(img))
  }

  // ---------------------------------------------------------------------------
  // Round trip

  /** The sample lines are words, none empty and none a comment. */
  lemma {:induction false} SamplesAreWords(rows: seq<seq<Pixel>>)
    ensures forall i :: 0 <= i < |SampleLines(rows)| ==>
      var l := SampleLines(rows)[i]; l != "" && NoWhitespace(l) && l[0] != '#'
  {
    if |rows| > 0 {
      RowsAreWords(rows[0]);
      SamplesAreWords(rows[1..]);
    }
  }

  lemma {:induction false} RowsAreWords(row: seq<Pixel>)
    ensures forall i :: 0 <= i < |RowLines(row)| ==>
      var l := RowLines(row)[i]; l != "" && NoWhitespace(l) && l[0] != '#'
  {
    if |row| > 0 {
      IntToStringIsWord(row[0].red);
      IntToStringIsWord(row[0].green);
      IntToStringIsWord(row[0].blue);
      RowsAreWords(row[1..]);
    }
  }

  /** Lines that are neither empty nor comments are all kept. */
  lemma {:induction false} UncommentedWords(lines: seq<string>)
    requires forall i :: 0 <= i < |lines| ==> lines[i] != "" && lines[i][0] != '#'
    ensures Uncommented(lines) == Ok(Joined(lines))
  {
    if |lines| > 0 {
      UncommentedWords(lines[1..]);
    }
  }

  /** Words written one per line come back as exactly those tokens. */
  lemma {:induction false} TokensJoined(words: seq<string>)
    requires forall i :: 0 <= i < |words| ==> words[i] != "" && NoWhitespace(words[i])
    ensures Tokens(Joined(words)) == words
  {
    if |words| > 0 {
      TokensOfWordThen(words[0], '\n');
      TokensAppend(words[0] + "\n", Joined(words[1..]));
      TokensJoined(words[1..]);
      assert Joined(words) == (words[0] + "\n") + Joined(words[1..]);
    }
  }

  /** A word on a line of its own is one token, and the line break separates it from what follows. */
  lemma TokensWordLine(w: string, rest: string)
    requires w != "" && NoWhitespace(w)
    ensures Tokens(w + "\n" + rest) == [w] + Tokens(rest)
  {
    TokensOfWordThen(w, '\n');
    TokensAppend(w + "\n", rest);
  }

  /** The "width height" line gives two tokens. */
  lemma TokensSizeLine(ws: string, hs: string, rest: string)
    requires ws != "" && NoWhitespace(ws) && hs != "" && NoWhitespace(hs)
    ensures Tokens(ws + " " + hs + "\n" + rest) == [ws, hs] + Tokens(rest)
  {
    var a, b := ws + " ", hs + "\n" + rest;
    assert ws + " " + hs + "\n" + rest == a + b;
    assert Tokens(a + b) == [ws] + ([hs] + Tokens(rest)) by {
      TokensOfWordThen(ws, ' ');
      TokensWordLine(hs, rest);
      TokensAppend(a, b);
    }
    assert [ws] + ([hs] + Tokens(rest)) == [ws, hs] + Tokens(rest);
  }

  /** A line that is not empty and not a comment, a second one, then sample lines: all kept. */
  lemma BodyLinesKept(size: string, level: string, samples: seq<string>)
    requires size != "" && size[0] != '#' && level != "" && level[0] != '#'
    requires forall i :: 0 <= i < |samples| ==> samples[i] != "" && samples[i][0] != '#'
    ensures "" !in [size, level] + samples
    ensures Uncommented([size, level] + samples) == Ok(size + "\n" + (level + "\n" + Joined(samples)))
  {
    UncommentedWords(samples);
    var l1, l2 := size + "\n", level + "\n";
    assert Uncommented([level]) == Ok(l2) by {
      assert [level][1..] == [];
      assert l2 + "" == l2;
    }
    assert Uncommented([size, level]) == Ok(l1 + l2) by {
      assert [size, level][1..] == [level];
    }
    UncommentedAppend([size, level], samples);
    assert l1 + l2 + Joined(samples) == l1 + (l2 + Joined(samples));
  }

  /** Of what `savePPM` writes, only the banner comment is dropped. */
  lemma SavedText(img: Image)
    requires |img| > 0
    ensures Uncommented(PpmLines(img))
      == Ok(Magic + "\n" + (SizeLine(img) + "\n" + (MaxLevel + "\n" + Joined(SampleLines(img)))))
  {
    IntToStringIsWord(Width(img));
    SamplesAreWords(img);
    BodyLinesKept(SizeLine(img), MaxLevel, SampleLines(img));
    assert Uncommented(PpmLines(img)) == Uncommented([Magic] + BodyLines(img)) by {
      assert Banner != "" && Banner[0] == '#';
      CommentIgnored([Magic], Banner, BodyLines(img));
    }
    assert ([Magic] + BodyLines(img))[0] == Magic && ([Magic] + BodyLines(img))[1..] == BodyLines(img);
  }

  /** The header lines and the sample lines come back as their words, in order. */
  lemma TokensOfHeader(magic: string, ws: string, hs: string, level: string, samples: seq<string>)
    requires magic != "" && NoWhitespace(magic) && level != "" && NoWhitespace(level)
    requires ws != "" && NoWhitespace(ws) && hs != "" && NoWhitespace(hs)
    requires forall i :: 0 <= i < |samples| ==> samples[i] != "" && NoWhitespace(samples[i])
    ensures Tokens(magic + "\n" + (ws + " " + hs + "\n" + (level + "\n" + Joined(samples))))
      == [magic, ws, hs, level] + samples
  {
    TokensJoined(samples);
    TokensWordLine(level, Joined(samples));
    var rest := level + "\n" + Joined(samples);
    TokensSizeLine(ws, hs, rest);
    TokensWordLine(magic, ws + " " + hs + "\n" + rest);
    HeaderRegroup(magic, ws, hs, level, samples);
  }

  /** Four header words in front of the samples, regrouped. */
  lemma HeaderRegroup<T>(a: T, b: T, c: T, d: T, s: seq<T>)
    ensures [a] + ([b, c] + ([d] + s)) == [a, b, c, d] + s
  {
  }

  /** The magic number and the maximum value are single words. */
  lemma LiteralWords()
    ensures Magic != "" && NoWhitespace(Magic) && MaxLevel != "" && NoWhitespace(MaxLevel)
  {
  }

  /** The tokens of everything `savePPM` writes. */
  lemma SavedTokens(img: Image)
    requires |img| > 0
    ensures Uncommented(PpmLines(img)).Ok?
    ensures Tokens(Uncommented(PpmLines(img)).value)
      == [Magic, IntToString(Width(img)), IntToString(|img|), MaxLevel] + SampleLines(img)
  {
    var samples := SampleLines(img);
    var ws, hs := IntToString(Width(img)), IntToString(|img|);
    SavedText(img);
    assert Tokens(Magic + "\n" + (ws + " " + hs + "\n" + (MaxLevel + "\n" + Joined(samples))))
        == [Magic, ws, hs, MaxLevel] + samples by {
      IntToStringIsWord(Width(img));
      IntToStringIsWord(|img|);
      SamplesAreWords(img);
      LiteralWords();
      TokensOfHeader(Magic, ws, hs, MaxLevel, samples);
    }
  }

  /** Every pixel of the row has non-negative channels, stated pixel by pixel from the left. */
  predicate RowNonNegative(row: seq<Pixel>)
  {
    |row| == 0 || (NonNegative(row[0]) && RowNonNegative(row[1..]))
  }

  /** The three lines written for a pixel read back as that pixel, or IllegalArgument. */
  lemma ReadPixelLines(p: Pixel, rest: seq<string>)
    ensures ReadPixel([IntToString(p.red), IntToString(p.green), IntToString(p.blue)] + rest)
      == if NonNegative(p) then Ok(p) else Err(IllegalArgument)
  {
    var ts := [IntToString(p.red), IntToString(p.green), IntToString(p.blue)] + rest;
    ParseIntToString(p.red);
    ParseIntToString(p.green);
    ParseIntToString(p.blue);
    assert ts[1..][0] == IntToString(p.green) && ts[2..][0] == IntToString(p.blue);
  }

  /** A non-empty sequence is its first element followed by the rest. */
  lemma HeadTail<T>(s: seq<T>)
    requires |s| > 0
    ensures s == [s[0]] + s[1..]
  {
  }

  /** Regrouping a concatenation of three sequences, and dropping the first. */
  lemma Regroup<T>(head: seq<T>, more: seq<T>, rest: seq<T>)
    ensures (head + more) + rest == head + (more + rest)
    ensures (head + (more + rest))[|head|..] == more + rest
  {
  }

  /** The sample lines of some rows are those of the first row, then those of the rest. */
  lemma SampleLinesCons(rows: seq<seq<Pixel>>, rest: seq<string>)
    requires |rows| > 0
    ensures SampleLines(rows) + rest == RowLines(rows[0]) + (SampleLines(rows[1..]) + rest)
  {
    Regroup(RowLines(rows[0]), SampleLines(rows[1..]), rest);
  }

  /** The lines of a row are those of its first pixel, then those of the rest. */
  lemma RowLinesCons(row: seq<Pixel>, rest: seq<string>)
    requires |row| > 0
    ensures var ts := RowLines(row) + rest;
      && ts == [IntToString(row[0].red), IntToString(row[0].green), IntToString(row[0].blue)]
                 + (RowLines(row[1..]) + rest)
      && ts[3..] == RowLines(row[1..]) + rest
  {
    var head := [IntToString(row[0].red), IntToString(row[0].green), IntToString(row[0].blue)];
    assert RowLines(row) == head + RowLines(row[1..]);
    Regroup(head, RowLines(row[1..]), rest);
  }

  /** One step of the row loop: a failing pixel stops it, otherwise the rest of the row follows. */
  lemma ReadRowCons(ts: seq<string>, w: nat)
    requires w > 0
    ensures ReadPixel(ts).Err? ==> ReadRow(ts, w) == Err(ReadPixel(ts).error)
    ensures ReadPixel(ts).Ok? ==> |ts| >= 3 && match ReadRow(ts[3..], w - 1)
      case Err(e) => ReadRow(ts, w) == Err(e)
      case Ok(rest) => ReadRow(ts, w) == Ok(([ReadPixel(ts).value] + rest.0, rest.1))
  {
  }

  /** One step of the rows loop: a failing row stops it, otherwise the remaining rows follow. */
  lemma ReadRowsCons(ts: seq<string>, h: nat, w: nat)
    requires h > 0
    ensures match ReadRow(ts, w)
      case Err(e) => ReadRows(ts, h, w) == Err(e)
      case Ok(row) => match ReadRows(row.1, h - 1, w)
        case Err(e) => ReadRows(ts, h, w) == Err(e)
        case Ok(rest) => ReadRows(ts, h, w) == Ok(([row.0] + rest.0, rest.1))
  {
  }

  /** The lines written for a row of non-negative pixels read back as that row. */
  lemma {:induction false} ReadRowLinesOk(row: seq<Pixel>, rest: seq<string>)
    requires RowNonNegative(row)
    ensures ReadRow(RowLines(row) + rest, |row|) == Ok((row, rest))
  {
    if |row| > 0 {
      RowLinesCons(row, rest);
      ReadPixelLines(row[0], RowLines(row[1..]) + rest);
      ReadRowLinesOk(row[1..], rest);
      ReadRowCons(RowLines(row) + rest, |row|);
      HeadTail(row);
    } else {
      assert RowLines(row) + rest == rest;
    }
  }

  /** The lines written for a row with a negative channel somewhere make the `Pixel` constructor throw. */
  lemma {:induction false} ReadRowLinesErr(row: seq<Pixel>, rest: seq<string>)
    requires !RowNonNegative(row)
    ensures ReadRow(RowLines(row) + rest, |row|) == Err(IllegalArgument)
  {
    RowLinesCons(row, rest);
    ReadPixelLines(row[0], RowLines(row[1..]) + rest);
    ReadRowCons(RowLines(row) + rest, |row|);
    if NonNegative(row[0]) {
      ReadRowLinesErr(row[1..], rest);
    }
  }

  /** Reading back the lines written for a row gives the row, or IllegalArgument at a negative channel. */
  lemma ReadRowLines(row: seq<Pixel>, rest: seq<string>)
    ensures ReadRow(RowLines(row) + rest, |row|)
      == if RowNonNegative(row) then Ok((row, rest)) else Err(IllegalArgument)
  {
    if RowNonNegative(row) {
      ReadRowLinesOk(row, rest);
    } else {
      ReadRowLinesErr(row, rest);
    }
  }


  /** Every row has non-negative channels, stated row by row from the top. */
  predicate RowsNonNegative(rows: seq<seq<Pixel>>)
  {
    |rows| == 0 || (RowNonNegative(rows[0]) && RowsNonNegative(rows[1..]))
  }

  /** Every row has `w` pixels, stated row by row from the top. */
  predicate AllWidth(rows: seq<seq<Pixel>>, w: nat)
  {
    |rows| == 0 || (|rows[0]| == w && AllWidth(rows[1..], w))
  }

  /** Rows that all have width `w`, seen one at a time. */
  lemma {:induction false} AllWidthRows(rows: seq<seq<Pixel>>, w: nat)
    requires AllWidth(rows, w)
    ensures forall i :: 0 <= i < |rows| ==> |rows[i]| == w
  {
    if |rows| > 0 {
      AllWidthRows(rows[1..], w);
      assert forall i :: 1 <= i < |rows| ==> rows[i] == rows[1..][i - 1];
    }
  }

  /** The rows of an image all have its width. */
  lemma {:induction false} ImageWidth(rows: seq<seq<Pixel>>, w: nat)
    requires forall i :: 0 <= i < |rows| ==> |rows[i]| == w
    ensures AllWidth(rows, w)
  {
    if |rows| > 0 {
      assert forall i :: 0 <= i < |rows[1..]| ==> rows[1..][i] == rows[i + 1];
      ImageWidth(rows[1..], w);
    }
  }

  /** The sample lines of rows of width `w` with no negative channel read back as those rows. */
  lemma {:induction false} ReadRowsLinesOk(rows: seq<seq<Pixel>>, w: nat, rest: seq<string>)
    requires AllWidth(rows, w)
    requires RowsNonNegative(rows)
    ensures ReadRows(SampleLines(rows) + rest, |rows|, w) == Ok((rows, rest))
  {
    if |rows| > 0 {
      SampleLinesCons(rows, rest);
      ReadRowLinesOk(rows[0], SampleLines(rows[1..]) + rest);
      ReadRowsLinesOk(rows[1..], w, rest);
      ReadRowsCons(SampleLines(rows) + rest, |rows|, w);
      HeadTail(rows);
    } else {
      assert SampleLines(rows) + rest == rest;
    }
  }

  /** Sample lines with a negative channel somewhere make the `Pixel` constructor throw. */
  lemma {:induction false} ReadRowsLinesErr(rows: seq<seq<Pixel>>, w: nat, rest: seq<string>)
    requires AllWidth(rows, w)
    requires !RowsNonNegative(rows)
    ensures ReadRows(SampleLines(rows) + rest, |rows|, w) == Err(IllegalArgument)
  {
    SampleLinesCons(rows, rest);
    ReadRowsCons(SampleLines(rows) + rest, |rows|, w);
    if RowNonNegative(rows[0]) {
      ReadRowLinesOk(rows[0], SampleLines(rows[1..]) + rest);
      ReadRowsLinesErr(rows[1..], w, rest);
    } else {
      ReadRowLinesErr(rows[0], SampleLines(rows[1..]) + rest);
    }
  }

  /** Reading back the sample lines of rows of width `w` gives the rows, or IllegalArgument. */
  lemma ReadRowsLines(rows: seq<seq<Pixel>>, w: nat, rest: seq<string>)
    requires AllWidth(rows, w)
    ensures ReadRows(SampleLines(rows) + rest, |rows|, w)
      == if RowsNonNegative(rows) then Ok((rows, rest)) else Err(IllegalArgument)
  {
    if RowsNonNegative(rows) {
      ReadRowsLinesOk(rows, w, rest);
    } else {
      ReadRowsLinesErr(rows, w, rest);
    }
  }


  lemma {:induction false} RowNonNegativeAll(row: seq<Pixel>)
    ensures RowNonNegative(row) <==> forall j :: 0 <= j < |row| ==> NonNegative(row[j])
  {
    if |row| > 0 {
      RowNonNegativeAll(row[1..]);
      assert forall j :: 0 < j < |row| ==> row[j] == row[1..][j - 1];
    }
  }

  lemma {:induction false} RowsNonNegativeAll(rows: seq<seq<Pixel>>)
    ensures RowsNonNegative(rows) <==> forall i :: 0 <= i < |rows| ==> RowNonNegative(rows[i])
  {
    if |rows| > 0 {
      RowsNonNegativeAll(rows[1..]);
      assert forall i :: 0 < i < |rows| ==> rows[i] == rows[1..][i - 1];
    }
  }

  /** An image is clonable exactly when each of its rows is. */
  lemma ClonableRows(img: Image)
    ensures Clonable(img) <==> RowsNonNegative(img)
  {
    RowsNonNegativeAll(img);
    forall i | 0 <= i < |img| ensures RowNonNegative(img[i]) <==> forall j :: 0 <= j < |img[i]| ==> NonNegative(img[i][j]) {
      RowNonNegativeAll(img[i]);
    }
  }

  /** The maximum-value line is the numeral of 255. */
  lemma MaxLevelNumeral()
    ensures IntToString(255) == MaxLevel
  {
    assert NatToString(2) == "2";
    assert NatToString(25) == "25";
  }

  /** The size line and the maximum value written by `savePPM` read back as numbers. */
  lemma HeaderInts(w: nat, h: nat, samples: seq<string>)
    requires IsInt(w) && IsInt(h)
    ensures var ts := [IntToString(w), IntToString(h), MaxLevel] + samples;
      NextInt(ts) == Ok(w) && NextInt(ts[1..]) == Ok(h) && NextInt(ts[2..]).Ok?
  {
    var ts := [IntToString(w), IntToString(h), MaxLevel] + samples;
    assert NextInt(ts) == Ok(w) by {
      ParseIntToString(w);
    }
    assert NextInt(ts[1..]) == Ok(h) by {
      ParseIntToString(h);
      assert ts[1..][0] == IntToString(h);
    }
    assert NextInt(ts[2..]).Ok? by {
      ParseIntToString(255);
      MaxLevelNumeral();
      assert ts[2..][0] == MaxLevel;
    }
  }

  /** With a valid header, the body is whatever the pixel rows give. */
  lemma ReadBodyRows(ts: seq<string>, w: nat, h: nat)
    requires NextInt(ts) == Ok(w) && NextInt(ts[1..]) == Ok(h) && NextInt(ts[2..]).Ok?
    ensures ReadRows(ts[3..], h, w).Ok? ==> ReadBody(ts) == Ok(ReadRows(ts[3..], h, w).value.0)
    ensures ReadRows(ts[3..], h, w).Err? ==> ReadBody(ts) == Err(ReadRows(ts[3..], h, w).error)
  {
  }

  /** The sample lines of an image read back as its rows, or IllegalArgument. */
  lemma SampleRows(img: Image)
    ensures ReadRows(SampleLines(img) + [], |img|, Width(img))
      == if Clonable(img) then Ok((img, [])) else Err(IllegalArgument)
  {
    ImageWidth(img, Width(img));
    ReadRowsLines(img, Width(img), []);
    ClonableRows(img);
  }

  /** The header numbers of a written image read back as its size, and the samples as its rows. */
  lemma ReadBodyLines(img: Image)
    requires |img| > 0 && IsInt(|img|) && IsInt(Width(img))
    ensures ReadBody([IntToString(Width(img)), IntToString(|img|), MaxLevel] + SampleLines(img))
      == if Clonable(img) then Ok(img) else Err(IllegalArgument)
  {
    var w, h := Width(img), |img|;
    var ts := [IntToString(w), IntToString(h), MaxLevel] + SampleLines(img);
    HeaderInts(w, h, SampleLines(img));
    ReadBodyRows(ts, w, h);
    SampleRows(img);
    assert ts[3..] == SampleLines(img) + [];
  }

  /**
   * Reading what `savePPM` wrote gives the image back exactly when every
   * channel is non-negative; otherwise the `Pixel` constructor refuses it.
   * Both readers agree on it.
   */
  lemma SaveThenRead(img: Image)
    requires |img| > 0 && IsInt(|img|) && IsInt(Width(img))
    ensures ReadPPM(PpmLines(img)) == if Clonable(img) then Ok(img) else Err(IllegalArgument)
    ensures LoadPPMText(PpmLines(img)) == ReadPPM(PpmLines(img))
  {
    SavedTokens(img);
    var ts := [Magic, IntToString(Width(img)), IntToString(|img|), MaxLevel] + SampleLines(img);
    assert ts[1..] == [IntToString(Width(img)), IntToString(|img|), MaxLevel] + SampleLines(img);
    ReadBodyLines(img);
  }
}

=== FILE: search.dfy ===
/**
 * The `Maze` world: building a maze, the breadth-first and depth-first searches
 * `onTick` carries out, the path `reconstruct` recovers, and the arrow-key moves
 * of `onKeyEvent`.  Vertex `v` is the cell in column `v % width` and row
 * `v / width`, the position `createNodes` gives the `v`-th vertex it adds.
 */
module Game {
  import opened Wrappers
  import opened JavaLang
  import opened Grid
  import opened Kruskal
  import opened Openings

  /** `searchMode` 1, 2 and 3. */
  datatype Mode = Breadth | Depth | Manual

  /** A maze dimension the constructor accepts: `createNodes` needs a vertex 0. */
  type Dim = x: nat | x >= 1 witness 1

  /**
   * What the constructor builds and only the `r` key replaces: the grid's
   * dimensions, every candidate edge in creation order (from which each
   * vertex's own edge list is filtered), `representatives`, `edgesInTree`,
   * and the wall flags of each vertex of `graph.vertices`.
   */
  datatype Board = Board(
    width: Dim,
    height: Dim,
    edges: seq<Edge>,
    reps: map<nat, nat>,          // representatives
    tree: seq<Edge>,              // edgesInTree
    sides: seq<Sides>)

  /**
   * The fields of `Maze`.  `seen` and `entered` are the vertices whose `seen`
   * and `current` flags are set.
   */
  datatype Maze = Maze(
    board: Board,
    mode: Mode,                   // searchMode
    current: int,
    searching: bool,              // isSearching
    solved: bool,                 // isSolved
    expanded: seq<nat>,           // alreadySeen
    frontier: seq<nat>,           // worklistSeen
    cameFrom: map<nat, Edge>,     // cameFromEdge
    path: seq<nat>,               // correctPath
    seen: set<nat>,
    entered: set<nat>)

  /** The number of vertices. */
  function Size(m: Maze): (n: nat)
    ensures n >= 1
  {
    MulAtLeast(m.board.height, m.board.width);
    m.board.width * m.board.height
  }

  /** The bottom-right vertex, which the searches look for. */
  function Goal(m: Maze): nat
  {
    Size(m) - 1
  }

  // ---------------------------------------------------------------------------
  // Building a maze

  /** The state the constructor and the `r` key leave around a freshly built maze. */
  predicate Initial(m: Maze)
  {
    && m.mode == Manual && m.current == 0
    && !m.searching && !m.solved
    && m.expanded == [] && m.frontier == [0] && m.cameFrom == map[]
    && m.path == [] && m.seen == {} && m.entered == {}
  }

  /** The board is what `createNodes` and `spanningTree` produce. */
  ghost predicate Built(b: Board)
  {
    var n := b.width * b.height;
    && IsCandidateList(b.width, b.height, b.edges)
    && SpanningTree(n, b.edges) == Ok(Forest(b.reps, b.tree))
    && b.sides == OpeningsOf(b.width, n, b.edges, b.tree)
  }

  /** A maze whose board was built and whose player stands on one of its cells. */
  ghost predicate Valid(m: Maze)
  {
    Built(m.board) && 0 <= m.current < Size(m)
  }

  /**
   * `new Maze(width, height, rand)` where `weights` are the values
   * `rand.nextInt(30)` returns, in order.  Without a vertex 0 the constructor
   * fails on `vertices.get(0)`; otherwise the maze is a spanning tree of the
   * grid, every vertex joined to the start.
   */
  function NewMaze(w: int, h: int, weights: seq<int>): (r: Result<Maze, Exception>)
    requires w >= 1 && h >= 1 ==> |weights| >= EdgeCount(w, h)
    ensures r.Err? <==> w < 1 || h < 1
    ensures r.Err? ==> r.error == IndexOutOfBounds
    ensures r.Ok? ==> r.value.board.width == w && r.value.board.height == h
    ensures r.Ok? ==> Valid(r.value) && Initial(r.value)
    ensures r.Ok? ==> r.value.board.edges == CreateEdges(w, h, weights)
    ensures r.Ok? ==> |r.value.board.tree| == Size(r.value) - 1
    ensures r.Ok? ==> forall v: nat :: v < Size(r.value) ==> Connected(r.value.board.tree, 0, v)
  {
    if w < 1 || h < 1 then Err(IndexOutOfBounds)
    else
      var edges := CreateEdges(w, h, weights);
      MazeSpanningTree(w, h, weights);
      assert IsCandidateList(w, h, edges);
      var f := SpanningTree(w * h, edges).value;
      var b := Board(w, h, edges, f.reps, f.tree, OpeningsOf(w, w * h, edges, f.tree));
      Ok(Maze(b, Manual, 0, false, false, [], [0], map[], [], {}, {}))
  }

  /** The tree of a valid maze: grid edges, each with two different ends. */
  lemma ValidTree(m: Maze)
    requires Valid(m)
    ensures |m.board.tree| == Size(m) - 1
    ensures forall e :: e in m.board.tree ==> e in m.board.edges && IsGridEdge(m.board.width, m.board.height, e)
    ensures forall e :: e in m.board.tree ==> e.from != e.to && e.from < Size(m) && e.to < Size(m)
    ensures forall v: nat :: v < Size(m) ==> Connected(m.board.tree, 0, v)
  {
    var w, h := m.board.width, m.board.height;
    var weights :| |weights| >= EdgeCount(w, h) && m.board.edges == CreateEdges(w, h, weights);
    MazeSpanningTree(w, h, weights);
    CreateEdgesShape(w, h, weights);
    forall e | e in m.board.tree
      ensures e in m.board.edges && IsGridEdge(w, h, e)
      ensures e.from != e.to && e.from < Size(m) && e.to < Size(m)
    {
      TreeEdgeShape(w, h, m.board.edges, m.board.tree, e);
    }
  }

  lemma TreeEdgeShape(w: nat, h: nat, edges: seq<Edge>, tree: seq<Edge>, e: Edge)
    requires w >= 1 && h >= 1
    requires forall j :: 0 <= j < |edges| ==> IsGridEdge(w, h, edges[j])
    requires forall i :: 0 <= i < |tree| ==> tree[i] in edges
    requires e in tree
    ensures e in edges && IsGridEdge(w, h, e)
    ensures e.from != e.to && e.from < w * h && e.to < w * h
  {
    var i :| 0 <= i < |tree| && tree[i] == e;
    var j :| 0 <= j < |edges| && edges[j] == e;
    EdgeEnds(w, h, e);
    GridEdgeInRange(w, h, e);
  }

  // ---------------------------------------------------------------------------
  // The searches of `onTick`

  /** The far ends of the tree edges among `inc`, in list order. */
  function TreeNeighbours(tree: seq<Edge>, v: nat, inc: seq<Edge>): (r: seq<nat>)
    ensures forall x :: x in r <==> exists e :: e in inc && e in tree && Other(e, v) == x
  {
    if |inc| == 0 then []
    else
      var rest := TreeNeighbours(tree, v, inc[1..]);
      assert forall e :: e in inc <==> e == inc[0] || e in inc[1..];
      (if inc[0] in tree then [Other(inc[0], v)] else []) + rest
  }

  function Reversed(s: seq<nat>): (r: seq<nat>)
    ensures |r| == |s| && forall i :: 0 <= i < |s| ==> r[i] == s[|s| - 1 - i]
  {
    if |s| == 0 then [] else Reversed(s[1..]) + [s[0]]
  }

  /** Popping `v` records the tree edge to `k`: `k` is a tree neighbour not yet expanded. */
  predicate Discovers(m: Maze, v: nat, inc: seq<Edge>, k: nat)
  {
    k !in m.expanded && exists e :: e in inc && e in m.board.tree && Other(e, v) == k
  }

  /**
   * The `for` loop of `onTick` over the edge list `inc` of the popped vertex
   * `v`: the far end of every tree edge joins the frontier, at the back when
   * breadth-first and at the front when depth-first, and the edge is recorded
   * as the way into that end unless the end was expanded already.
   */
  function Expand(m: Maze, v: nat, inc: seq<Edge>, frontier: seq<nat>, cf: map<nat, Edge>)
    : (r: (seq<nat>, map<nat, Edge>))
    ensures m.mode == Breadth ==> r.0 == frontier + TreeNeighbours(m.board.tree, v, inc)
    ensures m.mode == Depth ==> r.0 == Reversed(TreeNeighbours(m.board.tree, v, inc)) + frontier
    ensures m.mode == Manual ==> r.0 == frontier
    ensures forall k :: k in r.1 <==> k in cf || Discovers(m, v, inc, k)
    ensures forall k :: k in r.1 && !Discovers(m, v, inc, k) ==> r.1[k] == cf[k]
    ensures forall k :: k in r.1 && Discovers(m, v, inc, k) ==>
      r.1[k] in inc && r.1[k] in m.board.tree && Other(r.1[k], v) == k
    decreases |inc|
  {
    if |inc| == 0 then (frontier, cf)
    else
      var e := inc[0];
      assert forall x :: x in inc <==> x == e || x in inc[1..];
      if e in m.board.tree then
        var adj := Other(e, v);
        var f' := match m.mode
          case Breadth => frontier + [adj]
          case Depth => [adj] + frontier
          case Manual => frontier;
        var cf' := if adj !in m.expanded then cf[adj := e] else cf;
        var r := Expand(m, v, inc[1..], f', cf');
        assert TreeNeighbours(m.board.tree, v, inc) == [adj] + TreeNeighbours(m.board.tree, v, inc[1..]);
        assert m.mode == Depth ==>
          (Reversed([adj] + TreeNeighbours(m.board.tree, v, inc[1..]))
           == Reversed(TreeNeighbours(m.board.tree, v, inc[1..])) + [adj]);
        r
      else
        var r := Expand(m, v, inc[1..], frontier, cf);
        assert TreeNeighbours(m.board.tree, v, inc) == TreeNeighbours(m.board.tree, v, inc[1..]);
        r
  }

  /**
   * `onTick`.  While searching, it pops the head of the frontier: the goal ends
   * the search, a vertex expanded before is dropped, and any other vertex is
   * expanded.  Once solved and before any path exists, it marks the goal seen,
   * starts the path with the start vertex and calls `reconstruct`.
   */
  function OnTick(m: Maze): (r: Result<Maze, Exception>)
    ensures r.Ok? ==> r.value.board == m.board && r.value.mode == m.mode && r.value.current == m.current
    ensures r.Ok? ==> m.seen <= r.value.seen && m.cameFrom.Keys <= r.value.cameFrom.Keys
    ensures r.Ok? ==> |m.expanded| <= |r.value.expanded| && r.value.expanded[..|m.expanded|] == m.expanded
    ensures m.searching && |m.frontier| > 0 ==> r.Ok? && r.value.path == m.path
    ensures m.searching && |m.frontier| > 0 ==>
      (r.value.solved <==> m.solved || m.frontier[0] == Goal(m))
    ensures !m.searching && m.solved && |m.path| == 0 && r.Ok? ==>
      |r.value.path| >= 3 && r.value.path[0] == 0 && r.value.path[|r.value.path| - 1] == 0
    ensures !(m.searching && |m.frontier| > 0) && !(m.solved && |m.path| == 0) ==> r == Ok(m)
  {
    if m.searching && |m.frontier| > 0 then
      var next := m.frontier[0];
      if next == Goal(m) then Ok(FoundGoal(m))
      else if next in m.expanded then Ok(Pop(m))
      else Ok(ExpandHead(m))
    else if m.solved && |m.path| == 0 then Reconstruct(StartPath(m))
    else Ok(m)
  }

  /** `onTick` dropping the head of the frontier. */
  function Pop(m: Maze): Maze
    requires |m.frontier| > 0
  {
    m.(frontier := m.frontier[1..])
  }

  /** `onTick` popping the goal: the search stops, solved. */
  function FoundGoal(m: Maze): Maze
    requires |m.frontier| > 0
  {
    Pop(m).(searching := false, solved := true)
  }

  /** `onTick` once solved: the goal is marked seen and the path starts at the start. */
  function StartPath(m: Maze): Maze
  {
    m.(seen := m.seen + {Goal(m)}, path := [0])
  }

  /** `onTick` expanding the head of the frontier. */
  function ExpandHead(m: Maze): Maze
    requires |m.frontier| > 0
  {
    var next := m.frontier[0];
    var x := Expand(m, next, Incident(m.board.edges, next), m.frontier[1..], m.cameFrom);
    m.(frontier := x.0, cameFrom := x.1, expanded := m.expanded + [next], seen := m.seen + {next})
  }

  /**
   * The `while` loop of `reconstruct`, run from vertex `v`: it follows
   * `cameFrom` entries back until one leads to the start.  The result is the
   * chain of vertices `reconstruct` puts in front of the path, from the start
   * to `v`.  A vertex without an entry is Java's
   * `NullPointerException`; running out of `fuel` stands for a chain of
   * entries that never reaches the start, where `reconstruct` loops forever.
   */
  function Chain(cf: map<nat, Edge>, v: nat, fuel: nat): (r: Result<seq<nat>, Exception>)
    ensures r.Ok? ==> |r.value| >= 2 && r.value[0] == 0 && r.value[|r.value| - 1] == v
    ensures r.Ok? ==> ChainsBack(cf, r.value, |r.value| - 1)
    ensures v !in cf ==> r == Err(NullPointer)
    decreases fuel
  {
    if v !in cf then Err(NullPointer)
    else
      var u := Other(cf[v], v);
      if u == 0 then Ok([0, v])
      else if fuel == 0 then Err(OutOfMemory)
      else
        match Chain(cf, u, fuel - 1)
        case Err(x) => Err(x)
        case Ok(c) =>
          assert forall i :: 0 <= i < |c| ==> (c + [v])[i] == c[i];
          Ok(c + [v])
  }

  /** Each of `p[1..k + 1]` has an entry in `cf` whose far end is its predecessor in `p`. */
  predicate ChainsBack(cf: map<nat, Edge>, p: seq<nat>, k: nat)
    requires k < |p|
  {
    forall i :: 1 <= i <= k ==> p[i] in cf && Other(cf[p[i]], p[i]) == p[i - 1]
  }

  /**
   * `reconstruct`: puts the goal in front of the path, then the chain back to
   * the start.  A chain of more than `Size(m)` links would repeat a vertex.
   */
  function Reconstruct(m: Maze): (r: Result<Maze, Exception>)
    ensures r.Ok? ==> r.value == m.(path := r.value.path)
    ensures r.Ok? ==> var p := r.value.path;
      && |p| >= |m.path| + 2 && p[|p| - |m.path|..] == m.path
      && p[0] == 0 && p[|p| - |m.path| - 1] == Goal(m)
      && ChainsBack(m.cameFrom, p, |p| - |m.path| - 1)
  {
    match Chain(m.cameFrom, Goal(m), Size(m))
    case Err(x) => Err(x)
    case Ok(c) =>
      assert forall i :: 0 <= i < |c| ==> (c + m.path)[i] == c[i];
      assert (c + m.path)[|c|..] == m.path;
      Ok(m.(path := c + m.path))
  }

  // ---------------------------------------------------------------------------
  // What the automatic searches maintain

  predicate Distinct(s: seq<nat>)
  {
    forall i, j :: 0 <= i < j < |s| ==> s[i] != s[j]
  }

  /** The position of the first `v` in `s`. */
  function IndexIn(s: seq<nat>, v: nat): (i: nat)
    requires v in s
    ensures i < |s| && s[i] == v
    ensures forall j :: 0 <= j < i ==> s[j] != v
  {
    if s[0] == v then 0 else 1 + IndexIn(s[1..], v)
  }

  lemma IndexInAppend(s: seq<nat>, x: nat, v: nat)
    requires v in s + [x]
    ensures v in s ==> IndexIn(s + [x], v) == IndexIn(s, v)
    ensures v !in s ==> IndexIn(s + [x], v) == |s|
  {
    var i := IndexIn(s + [x], v);
    if v in s {
      var j := IndexIn(s, v);
      assert (s + [x])[j] == v;
    } else {
      assert (s + [x])[|s|] == v;
    }
  }

  /** Distinct values below `n` are at most `n` many. */
  lemma {:induction false} DistinctBelow(s: seq<nat>, n: nat)
    requires Distinct(s) && forall i :: 0 <= i < |s| ==> s[i] < n
    ensures |s| <= n
    decreases n
  {
    assert |s| > 0 ==> s[0] < n;
    if n > 0 {
      if n - 1 in s {
        var k := IndexIn(s, n - 1);
        var t := s[..k] + s[k + 1..];
        assert forall i :: 0 <= i < |t| ==> t[i] == (if i < k then s[i] else s[i + 1]);
        forall i | 0 <= i < |t|
          ensures t[i] < n - 1
        {
          if i < k {
            assert s[i] != s[k];
          } else {
            assert s[i + 1] != s[k];
          }
        }
        forall i, j | 0 <= i < j < |t|
          ensures t[i] != t[j]
        {
          var i', j' := if i < k then i else i + 1, if j < k then j else j + 1;
          assert t[i] == s[i'] && t[j] == s[j'] && i' < j';
        }
        DistinctBelow(t, n - 1);
      } else {
        DistinctBelow(s, n - 1);
      }
    }
  }

  /**
   * The entry `cameFrom[v]` is a tree edge at `v` whose far end was expanded,
   * before `v` itself if `v` was expanded too.
   */
  ghost predicate Feeds(m: Maze, v: nat)
    requires v in m.cameFrom
  {
    var e := m.cameFrom[v];
    && e in m.board.tree && (e.from == v || e.to == v)
    && Other(e, v) in m.expanded
    && (v in m.expanded ==> IndexIn(m.expanded, Other(e, v)) < IndexIn(m.expanded, v))
  }

  /** Tree edges join two different vertices of a maze with at least two cells. */
  ghost predicate TreeEdges(m: Maze)
  {
    && Size(m) >= 2
    && forall e :: e in m.board.tree ==> e.from != e.to && e.from < Size(m) && e.to < Size(m)
  }

  /** `v` has a `cameFrom` entry that leads back through the search. */
  ghost predicate Entered(m: Maze, v: nat)
  {
    v in m.cameFrom && Feeds(m, v)
  }

  /**
   * The bookkeeping of a breadth-first or depth-first search: vertices are
   * expanded once each and never the goal, and every expanded or waiting
   * vertex other than the start, and the goal once found, has an entry leading
   * back through earlier expansions.
   */
  ghost predicate Tracks(m: Maze)
  {
    && Distinct(m.expanded)
    && (forall i :: 0 <= i < |m.expanded| ==> m.expanded[i] < Goal(m))
    && (forall i :: 0 <= i < |m.frontier| ==> m.frontier[i] < Size(m))
    && (forall i :: 0 <= i < |m.expanded| ==> m.expanded[i] == 0 || Entered(m, m.expanded[i]))
    && (forall i :: 0 <= i < |m.frontier| ==> m.frontier[i] == 0 || Entered(m, m.frontier[i]))
    && (m.solved ==> !m.searching && Entered(m, Goal(m)))
  }

  /** The invariant of the automatic searches on a maze of at least two cells. */
  ghost predicate SearchInv(m: Maze)
  {
    Valid(m) && TreeEdges(m) && Tracks(m)
  }

  /**
   * Before any search step, with the start alone in the frontier, the search
   * invariant holds: on a fresh maze, and after arrow-key moves that did not
   * reach the goal.
   */
  lemma InitialSearchInv(m: Maze)
    requires Valid(m) && Size(m) >= 2
    requires m.expanded == [] && m.frontier == [0] && !m.solved
    ensures SearchInv(m)
  {
    ValidTree(m);
    assert TreeEdges(m);
    InitialTracks(m);
  }

  /** With the start alone in the frontier and nothing expanded, the bookkeeping is trivially right. */
  lemma InitialTracks(m: Maze)
    requires Size(m) >= 2 && m.expanded == [] && m.frontier == [0] && !m.solved
    ensures Tracks(m)
  {
  }

  /** The far end of an edge, seen from there, is where one started. */
  lemma OtherBack(e: Edge, v: nat)
    requires e.from != e.to && (e.from == v || e.to == v)
    ensures Other(e, v) != v && Other(e, Other(e, v)) == v
    ensures Joins(e, v, Other(e, v)) && Joins(e, Other(e, v), v)
  {
  }

  /** What expanding a vertex `next` that is neither expanded nor the goal needs. */
  ghost predicate ExpandReady(m: Maze)
  {
    && TreeEdges(m) && Tracks(m) && m.searching && |m.frontier| > 0
    && m.frontier[0] != Goal(m) && m.frontier[0] !in m.expanded
  }

  /** The far end of a tree edge at `v` is another vertex of the maze. */
  lemma TreeNeighbour(m: Maze, e: Edge, v: nat)
    requires TreeEdges(m) && e in m.board.tree && (e.from == v || e.to == v)
    ensures Other(e, v) < Size(m) && Other(e, v) != v && Other(e, Other(e, v)) == v
    ensures e.from == Other(e, v) || e.to == Other(e, v)
  {
    OtherBack(e, v);
  }

  /** An entry the expansion writes, or one it keeps that led back before, leads back after. */
  lemma ExpandFeeds(m: Maze, v: nat)
    requires ExpandReady(m) && v in ExpandHead(m).cameFrom
    requires Discovers(m, m.frontier[0], Incident(m.board.edges, m.frontier[0]), v) || Entered(m, v)
    ensures Entered(ExpandHead(m), v)
  {
    var m' := ExpandHead(m);
    var next := m.frontier[0];
    var inc := Incident(m.board.edges, next);
    assert m'.expanded == m.expanded + [next] && m'.board.tree == m.board.tree;
    var e := m'.cameFrom[v];
    if Discovers(m, next, inc, v) {
      TreeNeighbour(m, e, next);
      assert v !in m'.expanded;
    } else {
      assert e == m.cameFrom[v];
      var u := Other(e, v);
      IndexInAppend(m.expanded, next, u);
      if v in m'.expanded {
        IndexInAppend(m.expanded, next, v);
      }
    }
  }

  lemma ExpandKeepsExpanded(m: Maze)
    requires ExpandReady(m)
    ensures var m' := ExpandHead(m);
      && Distinct(m'.expanded)
      && (forall i :: 0 <= i < |m'.expanded| ==> m'.expanded[i] < Goal(m'))
      && (forall i :: 0 <= i < |m'.expanded| ==> m'.expanded[i] == 0 || Entered(m', m'.expanded[i]))
  {
    var m' := ExpandHead(m);
    var next := m.frontier[0];
    assert m'.expanded == m.expanded + [next];
    assert m.cameFrom.Keys <= m'.cameFrom.Keys;
    assert next == 0 || Entered(m, next);
    forall i | 0 <= i < |m'.expanded|
      ensures m'.expanded[i] < Goal(m')
      ensures m'.expanded[i] == 0 || Entered(m', m'.expanded[i])
    {
      var y := m'.expanded[i];
      if i < |m.expanded| {
        assert y == m.expanded[i];
      }
      if y != 0 {
        ExpandFeeds(m, y);
      }
    }
    forall i, j | 0 <= i < j < |m'.expanded|
      ensures m'.expanded[i] != m'.expanded[j]
    {
      if j == |m.expanded| {
        assert m'.expanded[i] == m.expanded[i];
      } else {
        assert m'.expanded[i] == m.expanded[i] && m'.expanded[j] == m.expanded[j];
      }
    }
  }

  /** Each vertex the expansion leaves in the frontier was waiting before or is a tree neighbour. */
  lemma ExpandFrontierFrom(m: Maze)
    requires |m.frontier| > 0
    ensures var next := m.frontier[0];
      forall y :: y in ExpandHead(m).frontier ==>
        y in m.frontier[1..] || y in TreeNeighbours(m.board.tree, next, Incident(m.board.edges, next))
  {
    var next := m.frontier[0];
    var inc := Incident(m.board.edges, next);
    var tn := TreeNeighbours(m.board.tree, next, inc);
    if m.mode == Depth {
      var rv := Reversed(tn);
      forall y | y in rv
        ensures y in tn
      {
        var i :| 0 <= i < |rv| && rv[i] == y;
        assert tn[|tn| - 1 - i] == y;
      }
    }
  }

  /** A vertex the expansion leaves in the frontier is a cell that leads back. */
  lemma ExpandFrontierEntry(m: Maze, y: nat)
    requires ExpandReady(m) && y in ExpandHead(m).frontier
    ensures y < Size(m) && (y == 0 || Entered(ExpandHead(m), y))
  {
    var next := m.frontier[0];
    var inc := Incident(m.board.edges, next);
    ExpandFrontierFrom(m);
    if y in m.frontier[1..] {
      var j :| 0 <= j < |m.frontier[1..]| && m.frontier[1..][j] == y;
      assert m.frontier[j + 1] == y;
    } else {
      var e :| e in inc && e in m.board.tree && Other(e, next) == y;
      TreeNeighbour(m, e, next);
      if y in m.expanded {
        var j :| 0 <= j < |m.expanded| && m.expanded[j] == y;
      } else {
        assert Discovers(m, next, inc, y);
      }
    }
    if y != 0 {
      ExpandFeeds(m, y);
    }
  }

  lemma ExpandKeepsFrontier(m: Maze)
    requires ExpandReady(m)
    ensures var m' := ExpandHead(m);
      && (forall i :: 0 <= i < |m'.frontier| ==> m'.frontier[i] < Size(m'))
      && (forall i :: 0 <= i < |m'.frontier| ==> m'.frontier[i] == 0 || Entered(m', m'.frontier[i]))
  {
    var m' := ExpandHead(m);
    assert Size(m') == Size(m);
    forall i | 0 <= i < |m'.frontier|
      ensures m'.frontier[i] < Size(m')
      ensures m'.frontier[i] == 0 || Entered(m', m'.frontier[i])
    {
      ExpandFrontierEntry(m, m'.frontier[i]);
    }
  }

  /** Expanding a vertex keeps the search invariant. */
  lemma ExpandKeepsInv(m: Maze)
    requires SearchInv(m) && m.searching && |m.frontier| > 0
    requires m.frontier[0] != Goal(m) && m.frontier[0] !in m.expanded
    ensures SearchInv(ExpandHead(m))
  {
    var m' := ExpandHead(m);
    assert m'.board == m.board && m'.current == m.current;
    assert Size(m') == Size(m);
    assert Valid(m') && TreeEdges(m');
    assert !m'.solved;
    ExpandKeepsExpanded(m);
    ExpandKeepsFrontier(m);
  }

  /** Every tick of a search keeps the invariant, and no tick fails. */
  lemma TickKeepsInv(m: Maze)
    requires SearchInv(m)
    ensures OnTick(m).Ok? && SearchInv(OnTick(m).value)
  {
    if m.searching && |m.frontier| > 0 {
      if m.frontier[0] == Goal(m) {
        FoundGoalKeepsInv(m);
      } else if m.frontier[0] in m.expanded {
        PopKeepsInv(m);
      } else {
        ExpandKeepsInv(m);
      }
    } else if m.solved && |m.path| == 0 {
      SolvedTickKeepsInv(m);
    }
  }

  /**
   * The search invariant depends on the graph, the search bookkeeping and the
   * flags, not on the vertex the player stands on, the seen marks or the path.
   */
  lemma SearchInvFrame(m: Maze, m': Maze)
    requires SearchInv(m) && m'.board == m.board && m'.current == m.current
    requires m'.expanded == m.expanded && m'.frontier == m.frontier && m'.cameFrom == m.cameFrom
    requires m'.solved ==> !m'.searching && Entered(m, Goal(m))
    ensures SearchInv(m')
  {
    assert Size(m') == Size(m);
    TracksFrame(m, m');
  }

  lemma TracksFrame(m: Maze, m': Maze)
    requires Tracks(m) && m'.board == m.board
    requires m'.expanded == m.expanded && m'.frontier == m.frontier && m'.cameFrom == m.cameFrom
    requires m'.solved ==> !m'.searching && Entered(m, Goal(m))
    ensures Tracks(m')
  {
    assert Size(m') == Size(m);
    EnteredFrame(m, m', Goal(m));
    forall i | 0 <= i < |m'.expanded|
      ensures m'.expanded[i] == 0 || Entered(m', m'.expanded[i])
    {
      EnteredFrame(m, m', m.expanded[i]);
    }
    forall i | 0 <= i < |m'.frontier|
      ensures m'.frontier[i] == 0 || Entered(m', m'.frontier[i])
    {
      EnteredFrame(m, m', m.frontier[i]);
    }
    EnteredFrame(m, m', Goal(m));
  }

  lemma EnteredFrame(m: Maze, m': Maze, v: nat)
    requires m'.board.tree == m.board.tree && m'.expanded == m.expanded && m'.cameFrom == m.cameFrom
    ensures Entered(m', v) == Entered(m, v)
  {
  }

  /** Dropping the frontier's head keeps the rest of the frontier leading back. */
  lemma PopTracks(m: Maze)
    requires Tracks(m) && m.searching && |m.frontier| > 0
    ensures Tracks(Pop(m))
  {
    var m' := Pop(m);
    assert Size(m') == Size(m);
    forall i | 0 <= i < |m'.expanded|
      ensures m'.expanded[i] == 0 || Entered(m', m'.expanded[i])
    {
      EnteredFrame(m, m', m.expanded[i]);
    }
    forall i | 0 <= i < |m'.frontier|
      ensures m'.frontier[i] < Size(m') && (m'.frontier[i] == 0 || Entered(m', m'.frontier[i]))
    {
      assert m'.frontier[i] == m.frontier[i + 1];
      EnteredFrame(m, m', m.frontier[i + 1]);
    }
  }

  /** Popping a vertex expanded before keeps the invariant. */
  lemma PopKeepsInv(m: Maze)
    requires SearchInv(m) && m.searching && |m.frontier| > 0
    ensures SearchInv(Pop(m))
  {
    var m' := Pop(m);
    assert Size(m') == Size(m);
    PopTracks(m);
  }

  /** Popping the goal keeps the invariant, the goal's entry leading back. */
  lemma FoundGoalKeepsInv(m: Maze)
    requires SearchInv(m) && m.searching && |m.frontier| > 0 && m.frontier[0] == Goal(m)
    ensures SearchInv(FoundGoal(m))
  {
    var m1 := Pop(m);
    var m' := FoundGoal(m);
    PopKeepsInv(m);
    assert Goal(m1) == Goal(m);
    assert Entered(m, Goal(m));
    EnteredFrame(m, m1, Goal(m));
    assert m'.board == m1.board && m'.current == m1.current;
    assert m'.expanded == m1.expanded && m'.frontier == m1.frontier && m'.cameFrom == m1.cameFrom;
    SearchInvFrame(m1, m');
  }

  /** The tick that reconstructs the path keeps the invariant, and succeeds. */
  lemma SolvedTickKeepsInv(m: Maze)
    requires SearchInv(m) && m.solved && |m.path| == 0
    ensures Reconstruct(StartPath(m)).Ok? && SearchInv(Reconstruct(StartPath(m)).value)
  {
    var m1 := StartPath(m);
    SearchInvFrame(m, m1);
    ReconstructFinds(m1);
    var m' := Reconstruct(m1).value;
    SearchInvFrame(m1, m');
  }

  /**
   * From a vertex whose entry leads to an expanded vertex, following entries
   * reaches the start within as many further links as that vertex's
   * expansion index, through vertices the search entered.
   */
  lemma {:induction false} ChainFinds(m: Maze, v: nat, fuel: nat)
    requires forall i :: 0 <= i < |m.expanded| ==> m.expanded[i] == 0 || Entered(m, m.expanded[i])
    requires Entered(m, v)
    requires fuel >= IndexIn(m.expanded, Other(m.cameFrom[v], v))
    ensures var r := Chain(m.cameFrom, v, fuel);
      && r.Ok?
      && forall i :: 1 <= i < |r.value| ==> Entered(m, r.value[i])
    decreases fuel
  {
    var cf := m.cameFrom;
    var u := Other(cf[v], v);
    if u != 0 {
      var j := IndexIn(m.expanded, u);
      assert m.expanded[j] == u;
      assert Entered(m, u);
      ChainFinds(m, u, fuel - 1);
      var c := Chain(cf, u, fuel - 1).value;
      assert Chain(cf, v, fuel) == Ok(c + [v]);
    }
  }

  /** Once the goal is found, `reconstruct` succeeds. */
  lemma ReconstructFinds(m: Maze)
    requires TreeEdges(m) && Tracks(m) && m.solved
    ensures Reconstruct(m).Ok?
    ensures var p := Reconstruct(m).value.path;
      forall i :: 1 <= i <= |p| - |m.path| - 1 ==> Entered(m, p[i])
  {
    var g := Goal(m);
    assert Entered(m, g);
    var u := Other(m.cameFrom[g], g);
    DistinctBelow(m.expanded, g);
    assert IndexIn(m.expanded, u) < Size(m);
    assert forall i :: 0 <= i < |m.expanded| ==> m.expanded[i] == 0 || Entered(m, m.expanded[i]);
    ChainFinds(m, g, Size(m));
    var c := Chain(m.cameFrom, g, Size(m)).value;
    assert Reconstruct(m).value.path == c + m.path;
  }

  /** Consecutive vertices linked by `cameFrom` entries are joined by tree edges. */
  lemma ChainIsWalk(m: Maze, p: seq<nat>, k: nat)
    requires k < |p| && ChainsBack(m.cameFrom, p, k)
    requires forall i :: 1 <= i <= k ==> Feeds(m, p[i])
    ensures IsWalk(m.board.tree, p[..k + 1])
  {
    var q := p[..k + 1];
    forall i | 0 <= i < |q| - 1
      ensures Adjacent(m.board.tree, q[i], q[i + 1])
    {
      var e := m.cameFrom[p[i + 1]];
      assert Feeds(m, p[i + 1]);
      assert Joins(e, p[i], p[i + 1]);
    }
  }

  /**
   * The path `reconstruct` puts in front of `correctPath` once the goal is
   * found runs from the start to the goal along edges of the maze's tree.
   */
  lemma PathFound(m: Maze)
    requires SearchInv(m) && m.solved
    ensures Reconstruct(m).Ok?
    ensures var p := Reconstruct(m).value.path;
      var q := p[..|p| - |m.path|];
      && |q| >= 2 && q[0] == 0 && q[|q| - 1] == Goal(m)
      && IsWalk(m.board.tree, q)
      && p == q + m.path
  {
    ReconstructFinds(m);
    var p := Reconstruct(m).value.path;
    var k := |p| - |m.path| - 1;
    ChainIsWalk(m, p, k);
    assert p == p[..k + 1] + m.path;
  }

  // ---------------------------------------------------------------------------
  // Keys

  /** The key names `onKeyEvent` compares against; `Unbound` is every other name. */
  datatype Key = Restart | One | Two | Three | Left | Right | Up | Down | Unbound

  /** Which of the names `onKeyEvent` tests a key name equals. */
  function KeyOf(name: string): (k: Key)
    ensures k == Restart <==> name == "r" || name == "R"
    ensures k == One <==> name == "1"
    ensures k == Two <==> name == "2"
    ensures k == Three <==> name == "3"
    ensures k == Left <==> name == "left"
    ensures k == Right <==> name == "right"
    ensures k == Up <==> name == "up"
    ensures k == Down <==> name == "down"
  {
    if name == "r" || name == "R" then Restart
    else if name == "1" then One
    else if name == "2" then Two
    else if name == "3" then Three
    else if name == "left" then Left
    else if name == "right" then Right
    else if name == "up" then Up
    else if name == "down" then Down
    else Unbound
  }

  /**
   * Where the arrow-key branch of `onKeyEvent` takes the player from cell `c`
   * with wall flags `s`: the first branch whose key and flag both match.
   */
  function Target(k: Key, s: Sides, c: int, w: nat): int
  {
    if k == Left && s.left then c - 1
    else if k == Right && s.right then c + 1
    else if k == Up && s.top then c - w
    else if k == Down && s.bottom then c + w
    else c
  }

  /**
   * The `cameFromEdge` update of a manual step onto `t` from `c`: a cell not
   * seen before records its edge to `c` (`getEdgeTo`, which falls back to the
   * cell's first edge, and fails on a cell without edges).
   */
  function RecordStep(m: Maze, t: nat, c: nat): (r: Result<map<nat, Edge>, Exception>)
    ensures t in m.seen ==> r == Ok(m.cameFrom)
    ensures t !in m.seen ==> (r.Ok? <==> |Incident(m.board.edges, t)| > 0)
    ensures r.Ok? && t !in m.seen ==> r.value.Keys == m.cameFrom.Keys + {t}
    ensures r.Ok? && t !in m.seen ==> forall k :: k in m.cameFrom && k != t ==> r.value[k] == m.cameFrom[k]
    ensures r.Ok? && t !in m.seen ==> r.value[t] in Incident(m.board.edges, t)
    ensures r.Ok? && t !in m.seen && (exists e :: e in Incident(m.board.edges, t) && Other(e, t) == c) ==>
      Other(r.value[t], t) == c
  {
    if t in m.seen then Ok(m.cameFrom)
    else
      match GetEdgeTo(Incident(m.board.edges, t), t, c)
      case Err(x) => Err(x)
      case Ok(e) => Ok(m.cameFrom[t := e])
  }

  /**
   * The `searchMode == 3` block of `onKeyEvent`: an arrow key whose side of the
   * current cell is open moves the player, any other key leaves it in place;
   * either way both cells are marked seen, the cell reached is marked current,
   * a cell not seen before records where it was entered from, and reaching the
   * goal solves the maze.  A cell outside `graph.vertices` is an index error.
   */
  function MoveBy(m: Maze, k: Key): (r: Result<Maze, Exception>)
    ensures r.Err? ==> r.error == IndexOutOfBounds
    ensures r.Ok? <==>
      && 0 <= m.current < |m.board.sides|
      && var t := Target(k, m.board.sides[m.current], m.current, m.board.width);
      && 0 <= t < |m.board.sides|
      && (t in m.seen || |Incident(m.board.edges, t)| > 0)
    ensures r.Ok? ==> r.value.board == m.board && r.value.mode == m.mode && r.value.searching == m.searching
    ensures r.Ok? ==> r.value.expanded == m.expanded && r.value.frontier == m.frontier && r.value.path == m.path
    ensures r.Ok? ==> 0 <= r.value.current < |m.board.sides|
    ensures r.Ok? ==> r.value.current == Target(k, m.board.sides[m.current], m.current, m.board.width)
    ensures r.Ok? && r.value.current !in m.seen ==>
      && r.value.current in r.value.cameFrom
      && r.value.cameFrom == m.cameFrom[r.value.current as nat := r.value.cameFrom[r.value.current as nat]]
      && r.value.cameFrom[r.value.current as nat] in Incident(m.board.edges, r.value.current as nat)
    ensures r.Ok? ==> r.value.seen == m.seen + {m.current as nat, r.value.current as nat}
    ensures r.Ok? ==> r.value.entered == m.entered + {r.value.current as nat}
    ensures r.Ok? ==> (r.value.solved <==> m.solved || r.value.current == Goal(m))
    ensures r.Ok? && r.value.current in m.seen ==> r.value.cameFrom == m.cameFrom
  {
    var c := m.current;
    if !(0 <= c < |m.board.sides|) then Err(IndexOutOfBounds)
    else
      var t := Target(k, m.board.sides[c], c, m.board.width);
      if !(0 <= t < |m.board.sides|) then Err(IndexOutOfBounds)
      else
        match RecordStep(m, t, c)
        case Err(x) => Err(x)
        case Ok(cf) =>
          Ok(m.(current := t, cameFrom := cf, seen := m.seen + {c, t}, entered := m.entered + {t},
                solved := m.solved || t == Goal(m)))
  }

  /**
   * `onKeyEvent` on the key named `n`, here `k == KeyOf(n)`; `weights` are the
   * values `rand.nextInt(30)` would return if the key rebuilds the maze.  `r`
   * and `R` rebuild it and return to mode 3; `1`, `2` and `3` choose the
   * search unless the maze is solved; then, in mode 3, the key is taken as a
   * manual step.
   */
  function OnKeyEvent(m: Maze, k: Key, weights: seq<int>): (r: Result<Maze, Exception>)
    requires |weights| >= EdgeCount(m.board.width, m.board.height)
    ensures k != Restart && r.Ok? ==> r.value.board == m.board
    ensures k != Restart && m.solved && r.Ok? ==>
      r.value.mode == m.mode && r.value.searching == m.searching && r.value.solved
    ensures (k == One || k == Two) && !m.solved ==>
      r.Ok? && r.value.searching && r.value.mode == (if k == One then Breadth else Depth)
    ensures (k == One || k == Two) && !m.solved ==>
      r.value.current == m.current && r.value.expanded == m.expanded && r.value.frontier == m.frontier
      && r.value.cameFrom == m.cameFrom && r.value.path == m.path && !r.value.solved
    ensures k == Three && !m.solved && r.Ok? ==> r.value.mode == Manual
  {
    var m1 :=
      if k == Restart then Reset(m, weights)
      else if k == One && !m.solved then m.(mode := Breadth, searching := true)
      else if k == Two && !m.solved then m.(mode := Depth, searching := true)
      else if k == Three && !m.solved then m.(mode := Manual)
      else m;
    if m1.mode == Manual then MoveBy(m1, k) else Ok(m1)
  }

  /** The `r` branch: the maze rebuilt on the same dimensions, in its initial state. */
  function Reset(m: Maze, weights: seq<int>): (r: Maze)
    requires |weights| >= EdgeCount(m.board.width, m.board.height)
    ensures Valid(r) && Initial(r)
    ensures r.board.width == m.board.width && r.board.height == m.board.height
    ensures r.board.edges == CreateEdges(m.board.width, m.board.height, weights)
  {
    NewMaze(m.board.width, m.board.height, weights).value
  }

  /** The candidate edges of a maze are grid edges. */
  lemma CandidateShape(w: Dim, h: Dim, es: seq<Edge>)
    requires IsCandidateList(w, h, es)
    ensures forall i :: 0 <= i < |es| ==> IsGridEdge(w, h, es[i])
  {
    var weights :| |weights| >= EdgeCount(w, h) && es == CreateEdges(w, h, weights);
    CreateEdgesShape(w, h, weights);
  }

  /**
   * The candidate edges of a maze are grid edges, and in a maze of two or
   * more cells every cell has at least one.
   */
  lemma CandidateEdges(w: Dim, h: Dim, es: seq<Edge>, v: nat)
    requires IsCandidateList(w, h, es) && w * h >= 2 && v < w * h
    ensures forall i :: 0 <= i < |es| ==> IsGridEdge(w, h, es[i])
    ensures |Incident(es, v)| > 0
  {
    var weights :| |weights| >= EdgeCount(w, h) && es == CreateEdges(w, h, weights);
    CreateEdgesShape(w, h, weights);
    if v > 0 {
      var u, i := EarlierNeighbour(w, h, es, v);
      assert es[i] in Incident(es, v);
    } else if w >= 2 {
      assert HasRight(es, 0);
      var j :| 0 <= j < |es| && es[j].from == 0 && es[j].to == 1;
      assert es[j] in Incident(es, 0);
    } else {
      assert HasDown(es, w, 0);
      var j :| 0 <= j < |es| && es[j].from == 0 && es[j].to == w;
      assert es[j] in Incident(es, 0);
    }
  }

  /**
   * An arrow key in a valid maze of two or more cells: the player moves exactly
   * when the wall flag on that side is open, and any other key leaves the
   * player in place; no step fails.
   */
  lemma ArrowMove(m: Maze, k: Key)
    requires Valid(m) && Size(m) >= 2
    ensures MoveBy(m, k).Ok? && Valid(MoveBy(m, k).value)
    ensures var c, c', s := m.current, MoveBy(m, k).value.current, m.board.sides[m.current];
      && (k == Left ==> (c' != c <==> s.left))
      && (k == Right ==> (c' != c <==> s.right))
      && (k == Up ==> (c' != c <==> s.top))
      && (k == Down ==> (c' != c <==> s.bottom))
      && (k != Left && k != Right && k != Up && k != Down ==> c' == c)
  {
    MoveOk(m, k);
  }

  /** In a valid maze of two or more cells no manual step fails, and the maze stays valid. */
  lemma MoveOk(m: Maze, k: Key)
    requires Valid(m) && Size(m) >= 2
    ensures MoveBy(m, k).Ok? && Valid(MoveBy(m, k).value)
  {
    MoveTarget(m, k);
  }

  /** The cell an arrow key leads to lies in the grid and has an edge. */
  lemma MoveTarget(m: Maze, k: Key)
    requires Valid(m) && Size(m) >= 2
    ensures |m.board.sides| == Size(m)
    ensures var t := Target(k, m.board.sides[m.current], m.current, m.board.width);
      0 <= t < Size(m) && |Incident(m.board.edges, t)| > 0
  {
    var c := m.current;
    var t := Target(k, m.board.sides[c], c, m.board.width);
    if t != c {
      var e := SideEdge(m, k);
      assert e in Incident(m.board.edges, t);
    } else {
      CandidateEdges(m.board.width, m.board.height, m.board.edges, c);
    }
  }

  /**
   * Where a step goes: one cell left, right, up or down within the grid,
   * along an edge of the maze's tree, and a cell entered for the first time
   * records an edge back to the cell the player came from.
   */
  lemma ArrowStep(m: Maze, k: Key)
    requires Valid(m) && Size(m) >= 2
    ensures MoveBy(m, k).Ok?
    ensures var m' := MoveBy(m, k).value;
      var c, c', w := m.current, m'.current, m.board.width;
      && 0 <= c < Size(m) && 0 <= c' < Size(m)
      && (c' != c ==> Adjacent(m.board.tree, c, c'))
      && (k == Left && c' != c ==> c' + 1 == c && Row(c', w) == Row(c, w))
      && (k == Right && c' != c ==> c' == c + 1 && Row(c', w) == Row(c, w))
      && (k == Up && c' != c ==> c' + w == c && Col(c', w) == Col(c, w))
      && (k == Down && c' != c ==> c' == c + w && Col(c', w) == Col(c, w))
      && (c' != c && c' !in m.seen ==> Joins(m'.cameFrom[c'], c', c))
  {
    ArrowMove(m, k);
    var c := m.current;
    var c' := MoveBy(m, k).value.current;
    if c' != c {
      var e := SideEdge(m, k);
      assert e in Incident(m.board.edges, c');
      assert Other(e, c') == c;
    }
  }

  /**
   * The open side an arrow key moves through is a tree edge to the neighbour
   * on that side.
   */
  lemma SideEdge(m: Maze, k: Key) returns (e: Edge)
    requires Valid(m)
    requires Target(k, m.board.sides[m.current], m.current, m.board.width) != m.current
    ensures var c, w := m.current, m.board.width;
      var t := Target(k, m.board.sides[c], c, w);
      && 0 <= c < Size(m) && 0 <= t < Size(m)
      && e in m.board.tree && e in m.board.edges && Joins(e, c, t)
      && (k == Left ==> t + 1 == c && Row(t, w) == Row(c, w))
      && (k == Right ==> t == c + 1 && Row(t, w) == Row(c, w))
      && (k == Up ==> t + w == c && Col(t, w) == Col(c, w))
      && (k == Down ==> t == c + w && Col(t, w) == Col(c, w))
  {
    var s := m.board.sides[m.current];
    if k == Left && s.left {
      e := LeftEdge(m);
    } else if k == Right && s.right {
      e := RightEdge(m);
    } else if k == Up && s.top {
      e := UpEdge(m);
    } else {
      e := DownEdge(m);
    }
  }

  /** The tree of a valid maze, seen from cell `c`: which side flags its tree edges set. */
  lemma SidesOfCell(m: Maze)
    requires Valid(m)
    ensures var w, h, c := m.board.width, m.board.height, m.current;
      var s := m.board.sides[c];
      && (forall e :: e in m.board.tree ==> e in m.board.edges && e.from < Size(m) && e.to < Size(m))
      && (s.left <==> exists e :: e in m.board.tree && IsRight(w, h, e) && e.to == c)
      && (s.right <==> exists e :: e in m.board.tree && IsRight(w, h, e) && e.from == c)
      && (s.top <==> exists e :: e in m.board.tree && IsDown(w, h, e) && e.to == c)
      && (s.bottom <==> exists e :: e in m.board.tree && IsDown(w, h, e) && e.from == c)
  {
    var w, h := m.board.width, m.board.height;
    ValidTree(m);
    CandidateShape(w, h, m.board.edges);
    OpeningsMatchTree(w, h, m.board.edges, m.board.tree, m.current);
  }

  /** An open left side is the tree edge from the cell to its left. */
  lemma LeftEdge(m: Maze) returns (e: Edge)
    requires Valid(m) && m.board.sides[m.current].left
    ensures e in m.board.tree && e in m.board.edges && e.to == m.current && e.from + 1 == e.to
    ensures Row(e.from, m.board.width) == Row(e.to, m.board.width)
  {
    var w, h := m.board.width, m.board.height;
    SidesOfCell(m);
    e :| e in m.board.tree && IsRight(w, h, e) && e.to == m.current;
    RightEdgeEnds(w, h, e);
  }

  /** An open right side is the tree edge to the cell on its right. */
  lemma RightEdge(m: Maze) returns (e: Edge)
    requires Valid(m) && m.board.sides[m.current].right
    ensures e in m.board.tree && e in m.board.edges && e.from == m.current && e.from + 1 == e.to
    ensures e.to < Size(m) && Row(e.from, m.board.width) == Row(e.to, m.board.width)
  {
    var w, h := m.board.width, m.board.height;
    SidesOfCell(m);
    e :| e in m.board.tree && IsRight(w, h, e) && e.from == m.current;
    RightEdgeEnds(w, h, e);
  }

  /** An open top side is the tree edge from the cell above. */
  lemma UpEdge(m: Maze) returns (e: Edge)
    requires Valid(m) && m.board.sides[m.current].top
    ensures e in m.board.tree && e in m.board.edges && e.to == m.current
    ensures e.from + m.board.width == e.to
    ensures Col(e.from, m.board.width) == Col(e.to, m.board.width)
  {
    var w, h := m.board.width, m.board.height;
    SidesOfCell(m);
    e :| e in m.board.tree && IsDown(w, h, e) && e.to == m.current;
    DownEdgeEnds(w, h, e);
  }

  /** An open bottom side is the tree edge to the cell below. */
  lemma DownEdge(m: Maze) returns (e: Edge)
    requires Valid(m) && m.board.sides[m.current].bottom
    ensures e in m.board.tree && e in m.board.edges && e.from == m.current
    ensures e.from + m.board.width == e.to && e.to < Size(m)
    ensures Col(e.from, m.board.width) == Col(e.to, m.board.width)
  {
    var w, h := m.board.width, m.board.height;
    SidesOfCell(m);
    e :| e in m.board.tree && IsDown(w, h, e) && e.from == m.current;
    DownEdgeEnds(w, h, e);
  }

  /**
   * Pressing `1` or `2` on a valid maze of two or more cells before any search
   * step, and before the goal is reached, starts a search that keeps the
   * search invariant through every tick.
   */
  lemma StartSearch(m: Maze, k: Key, weights: seq<int>)
    requires Valid(m) && Size(m) >= 2 && m.expanded == [] && m.frontier == [0] && !m.solved
    requires k == One || k == Two
    requires |weights| >= EdgeCount(m.board.width, m.board.height)
    ensures OnKeyEvent(m, k, weights).Ok?
    ensures var m' := OnKeyEvent(m, k, weights).value;
      SearchInv(m') && m'.searching && m'.mode == (if k == One then Breadth else Depth)
  {
    var m' := OnKeyEvent(m, k, weights).value;
    assert m'.board == m.board && Size(m') == Size(m);
    InitialSearchInv(m');
  }

  /**
   * The `r` key on a maze of two or more cells rebuilds it from `weights` and
   * leaves the player on the start cell in mode 3, before any search; a
   * search can then be started.
   */
  lemma ResetKey(m: Maze, weights: seq<int>)
    requires Size(m) >= 2 && |weights| >= EdgeCount(m.board.width, m.board.height)
    ensures OnKeyEvent(m, Restart, weights).Ok?
    ensures var m' := OnKeyEvent(m, Restart, weights).value;
      && Valid(m') && m'.board.edges == CreateEdges(m.board.width, m.board.height, weights)
      && m'.board.width == m.board.width && m'.board.height == m.board.height
      && m'.mode == Manual && m'.current == 0 && !m'.searching && !m'.solved
      && m'.expanded == [] && m'.frontier == [0] && m'.path == []
  {
    var m1 := Reset(m, weights);
    ArrowMove(m1, Restart);
    assert Size(m1) == Size(m);
  }

  /** After `r` the start cell alone is seen and entered, and has a `cameFromEdge` entry. */
  lemma ResetMarks(m: Maze, weights: seq<int>)
    requires Size(m) >= 2 && |weights| >= EdgeCount(m.board.width, m.board.height)
    ensures OnKeyEvent(m, Restart, weights).Ok?
    ensures OnKeyEvent(m, Restart, weights).value.seen == {0}
    ensures OnKeyEvent(m, Restart, weights).value.entered == {0}
    ensures OnKeyEvent(m, Restart, weights).value.cameFrom.Keys == {0}
  {
    var m1 := Reset(m, weights);
    assert Size(m1) == Size(m);
    CandidateEdges(m1.board.width, m1.board.height, m1.board.edges, 0);
    assert |m1.board.sides| == Size(m1);
    StayMarks(m1);
    assert OnKeyEvent(m, Restart, weights) == MoveBy(m1, Restart);
  }

  /**
   * A key that does not move the player, on a fresh maze whose start cell
   * has an edge, marks the start cell alone.
   */
  lemma StayMarks(m: Maze)
    requires Initial(m) && |m.board.sides| >= 1 && |Incident(m.board.edges, 0)| > 0
    ensures MoveBy(m, Restart).Ok?
    ensures MoveBy(m, Restart).value.seen == {0}
    ensures MoveBy(m, Restart).value.entered == {0}
    ensures MoveBy(m, Restart).value.cameFrom.Keys == {0}
  {
    assert Target(Restart, m.board.sides[0], 0, m.board.width) == 0;
  }

  /**
   * A maze of a single cell has no edges, so the first key pressed in mode 3,
   * `r` included, fails on the empty edge list of the start cell.
   */
  lemma SingleCellKey(m: Maze, weights: seq<int>)
    requires m.board.width == 1 && m.board.height == 1 && |weights| >= EdgeCount(1, 1)
    ensures OnKeyEvent(m, Restart, weights) == Err(IndexOutOfBounds)
  {
    var m1 := Reset(m, weights);
    assert |m1.board.edges| == 0;
    assert Incident(m1.board.edges, 0) == [];
  }
}

=== FILE: union_find.dfy ===
/**
 * `HashMapUtils`: the union/find structure `spanningTree` keeps, a map from
 * every vertex to its representative.  A vertex is a root when it maps to
 * itself.
 */
module UnionFind {
  import opened Wrappers
  import opened JavaLang

  type Reps = map<nat, nat>

  /** Every vertex `0 <= k < n` its own representative: the map `createNodes` fills. */
  function Singletons(n: nat): (m: Reps)
    ensures forall k: nat :: k in m <==> k < n
    ensures forall k :: k in m ==> m[k] == k
  {
    if n == 0 then map[] else Singletons(n - 1)[n - 1 := n - 1]
  }

  /** `n` singletons: `n` keys, all of them roots. */
  lemma {:induction false} SingletonsCount(n: nat)
    ensures |Singletons(n)| == n && Roots(Singletons(n)) == Singletons(n).Keys
  {
    if n > 0 {
      SingletonsCount(n - 1);
      assert n - 1 !in Singletons(n - 1);
      assert Singletons(n).Keys == Singletons(n - 1).Keys + {n - 1};
    }
  }

  /**
   * `find` with a bound on the number of links followed.  A missing key is the
   * Java program's `NullPointerException`; running out of links means the chain
   * repeats a key, where Java's recursion never ends.
   */
  function FindFuel(m: Reps, k: nat, fuel: nat): (r: Result<nat, Exception>)
    ensures r.Ok? ==> r.value in m && m[r.value] == r.value
    ensures k in m && m[k] == k ==> r == Ok(k)
    ensures k !in m ==> r == Err(NullPointer)
    decreases fuel
  {
    if k !in m then Err(NullPointer)
    else if m[k] == k then Ok(k)
    else if fuel == 0 then Err(StackOverflow)
    else FindFuel(m, m[k], fuel - 1)
  }

  /**
   * `find(representatives, k)`.  A chain of more than `|m|` links revisits a
   * key, so `|m|` links are enough to tell every answer `find` gives.
   */
  function Find(m: Reps, k: nat): (r: Result<nat, Exception>)
    ensures r.Ok? ==> r.value in m && m[r.value] == r.value
    ensures k in m && m[k] == k ==> r == Ok(k)
    ensures k !in m ==> r == Err(NullPointer)
  {
    FindFuel(m, k, |m|)
  }

  /**
   * `union(representatives, x, y)`: `x` now points where `y` points.  When `y`
   * is missing `union` stores `null` under `x`, which every later lookup
   * treats exactly like a missing key, so the model drops `x`.
   */
  function Union(m: Reps, x: nat, y: nat): (m': Reps)
    ensures y in m ==> m'.Keys == m.Keys + {x} && m'[x] == m[y]
    ensures y !in m ==> x !in m'
    ensures forall k :: k in m && k != x ==> k in m' && m'[k] == m[k]
  {
    if y in m then m[x := m[y]] else m - {x}
  }

  /** The roots of `m`. */
  function Roots(m: Reps): set<nat>
  {
    set k | k in m && m[k] == k
  }

  /** More fuel never changes an answer that was already reached. */
  lemma {:induction false} FindFuelMono(m: Reps, k: nat, f: nat, g: nat)
    requires f <= g && FindFuel(m, k, f).Ok?
    ensures FindFuel(m, k, g) == FindFuel(m, k, f)
    decreases f
  {
    if m[k] != k {
      FindFuelMono(m, m[k], f - 1, g - 1);
    }
  }

  /**
   * Linking root `ra` under root `rb` redirects exactly the keys whose root was
   * `ra`, and each of them needs one link more.
   */
  lemma {:induction false} FindAfterUnion(m: Reps, ra: nat, rb: nat, k: nat, f: nat)
    requires ra in m && m[ra] == ra && rb in m && m[rb] == rb && ra != rb
    requires FindFuel(m, k, f).Ok?
    ensures var r := FindFuel(m, k, f).value;
      FindFuel(Union(m, ra, rb), k, f + 1) == Ok(if r == ra then rb else r)
    decreases f
  {
    var m' := Union(m, ra, rb);
    if m[k] == k {
      if k == ra {
        assert m'[ra] == rb && m'[rb] == rb;
        assert FindFuel(m', rb, f) == Ok(rb);
      }
    } else {
      FindAfterUnion(m, ra, rb, m[k], f - 1);
    }
  }

  /** Linking one root under another removes exactly that root. */
  lemma RootsAfterUnion(m: Reps, ra: nat, rb: nat)
    requires ra in m && m[ra] == ra && rb in m && m[rb] == rb && ra != rb
    ensures Roots(Union(m, ra, rb)) == Roots(m) - {ra}
    ensures |Roots(Union(m, ra, rb))| == |Roots(m)| - 1
  {
    var m' := Union(m, ra, rb);
    assert Roots(m') == Roots(m) - {ra};
  }
}

=== FILE: wrappers.dfy ===
/** Failure-carrying datatypes shared by every module of the model. */
module Wrappers {

  /** `None` stands for Java's `null` wherever a reference may be absent. */
  datatype Option<+T> = None | Some(value: T)

  /** The outcome of an operation that may throw: `Err` carries the exception. */
  datatype Result<+T, +E> = Ok(value: T) | Err(error: E)
  {
    predicate IsFailure()
    {
      Err?
    }

    function PropagateFailure<U>(): Result<U, E>
      requires Err?
    {
      Err(error)
    }

    function Extract(): T
      requires Ok?
    {
      value
    }
  }
}
